=== FILE: README.md ===
# aoc-jsui in Dafny

aoc-jsui is a static browser front-end for solving Advent of Code puzzles. It
keeps the user's settings in browser storage and resolves them over the
default configuration `AOC_CONFIG`. It builds the day navigation and routes
`#<day>` hashes to a day page. The day page loads a layout template, the
example input and each part's solution source into two code editors, and it
runs the user's code on the input. Three 2025 puzzle solutions ship with the
repository.

This project models that core as pure Dafny functions over immutable data
and proves what each part promises:

- `Settings` (`settings.dfy`) models the settings resolver:
  - the storage entry and the legacy `theme` key form an explicit `Store`;
  - the clock is a `Date` parameter;
  - the `aocSettingsChanged` notifications are a log of the settings each
    one carried.
- `DefaultConfig` (`config.dfy`) is `AOC_CONFIG` and what the resolver makes
  of it when nothing is stored.
- `DayNav` (`nav.dfy`) is the navigation builder and the active-day marking.
- `Router` (`router.dfy`) covers:
  - hash parsing;
  - the configuration fallback;
  - the welcome-or-day decision.
- `App` (`app.dfy`) covers:
  - the asset version parameter;
  - the theme bootstrap, the theme application and the toggle;
  - the settings form's clamp, its copies of the day rules and its Save
    patch.
- `Editors` (`editors.dfy`) covers:
  - the editor theme mapping;
  - the large-view state machine over the two parts;
  - code storage;
  - the guards of `runSolution`.
- `DayPage` (`day.dfy`) covers:
  - the layout choice and the template cache;
  - the welcome page;
  - URLs and file names;
  - the solution loading order;
  - the output fields, the run and save guards, and `setupDay`.
  
  A web server is a function from URL to `Ok(text)`, `NotFound` or `Threw`.
- `Dial`, `DoubledIds` and `RepeatedIds` (`dial.dfy`, `doubled.dfy`,
  `repeated.dfy`) are the three 2025 solutions. Their input parsing lives in
  `PuzzleInput` (`ranges.dfy`).
- `JsText` and `JsonValue` are the JavaScript string and value primitives
  the code relies on:
  - `trim`, `split` and `String(n)`;
  - `parseInt` and `Number` on integer text;
  - `toLowerCase` on ASCII;
  - truthiness, property access and object spread.
  
  `Wrappers` holds `Option`.

Where a loop matters, it is a method whose invariants tie it to a functional
definition:

- the navigation builder;
- the dial solution and both ID solutions;
- the leading-zero-guarded repetition test.

## Model

| member | source | states |
|---|---|---|
| Settings.MergeFields | assets/js/aoc.settings.js:20-31 | the merge has exactly the keys of base and patch; base entries the patch lacks survive; non-object patch entries win; an object patch entry gives an object holding exactly the keys of the base entry's spread and of the patch entry (values: `Settings.MergeReflectsPatch`, `Settings.MergeKeepsBase`) |
| Settings.MergeKeepsBase | assets/js/aoc.settings.js:20-31 | the merge is deep: at every depth, base entries the patch does not name keep their values |
| Settings.NestedEntrySurvives | assets/js/aoc.settings.js:20-31 | a nested base entry the patch's object does not name keeps its value, e.g. a configured `nav.maxAvailableDay` under stored `nav` overrides |
| Settings.DeepMerge | assets/js/aoc.settings.js:20-31 | deepMerge always returns a fresh object |
| Settings.MergeReflectsPatch | assets/js/aoc.settings.js:20-31 | after a merge every entry of the patch reads back from the result (scalars exactly, objects entry by entry) |
| Settings.MergeReflected | assets/js/aoc.settings.js:20-31 | merging a patch the base already reflects leaves the base unchanged |
| Settings.MergeIdempotent | assets/js/aoc.settings.js:20-31 | merging the same patch twice equals merging it once |
| Settings.MergeKeepsEarlierPatch | assets/js/aoc.settings.js:20-31 | a later patch that overwrites no scalar of an earlier one keeps the earlier patch readable |
| Settings.DayCount | assets/js/aoc.settings.js:39-42 | the contest has 12 days exactly from 2025 on, 25 before |
| Settings.UnlockedDays | assets/js/aoc.settings.js:44-61 | the unlocked day count lies between 0 and the day count |
| Settings.UnlockMatchesReleaseSchedule | assets/js/aoc.settings.js:44-61 | the unlock rule counts exactly the days 1..totalDays whose release date (December d of the year) has been reached |
| Settings.UnlockMonotone | assets/js/aoc.settings.js:44-61 | a later date never unlocks fewer days |
| Settings.MigrateLegacyTheme | assets/js/aoc.settings.js:63-83 | an empty or missing legacy key changes nothing; otherwise the key is removed; it becomes the overrides' normalised theme (and is written back) only when the overrides hold no string theme; every other override is kept |
| Settings.MigrateTwiceIsOnce | assets/js/aoc.settings.js:63-83 | the migration is idempotent |
| Settings.ReadStored | assets/js/aoc.settings.js:7-14 | a missing, unparseable or falsy entry reads as `{}`, any truthy parsed value as itself |
| Settings.ResolveTheme | assets/js/aoc.settings.js:85-90 | the theme is light iff the merged theme is `'light'`, or the merged theme is missing or empty and the configuration's is `'light'` |
| Settings.SelectYear | assets/js/aoc.settings.js:102-103 | a non-zero parsed merged year wins, then a non-zero configured year, and otherwise the clock's year |
| Settings.Resolve | assets/js/aoc.settings.js:99-133 | the result's current year is the clock's, its day count is the rule's for its year and its unlocked days the schedule's; the flags are on unless exactly `false`; the paths are the merged `paths` entries plus `inputs` and `solutions`, each defaulting to its own name when not merged in; the computed nav fields are never copied from the objects; `showDisabledFutureDays` is on unless the merged `nav` sets it to exactly `false`; the other nav entries are those of the configured and merged `nav`, the merged value winning; the day layout is the truthy merged one, else the truthy configured one, else `tabbed` |
| Settings.Get | assets/js/aoc.settings.js:92-134 | get() always yields derived fields consistent with the clock and removes a non-empty legacy key |
| Settings.MalformedReadsAsEmpty | assets/js/aoc.settings.js:7-14 | unparseable stored JSON resolves exactly like no stored settings |
| Settings.TotalDaysNotResolved | assets/js/aoc.settings.js:105 | a `totalDays` in the merged settings has no effect on the result |
| Settings.MaxAvailableDayNotResolved | assets/js/aoc.settings.js:121-126 | a `nav.maxAvailableDay` in the merged settings has no effect on the result |
| Settings.SanitizePatch | assets/js/aoc.settings.js:137-148 | `totalDays` and `nav.maxAvailableDay` are dropped, a string theme is normalised to light/dark, every other entry is kept |
| Settings.Set | assets/js/aoc.settings.js:136-157 | set appends exactly one notification carrying the returned settings; the next get() returns them; the stored object reflects the sanitised patch |
| Settings.Commit | assets/js/aoc.settings.js:150-156 | the stored overrides become the migrated overrides merged with the patch |
| Settings.Reset | assets/js/aoc.settings.js:159-164 | reset notifies once and returns what get() gives with no stored settings |
| Settings.SetThemeResolves | assets/js/aoc.settings.js:136-157 | after set({theme: t}) the resolved theme is t normalised, whatever was stored and configured |
| Settings.SetDropsTotalDays | assets/js/aoc.settings.js:138-140 | a patch with `totalDays` stores and resolves exactly like the same patch without it |
| Settings.SetsAccumulate | assets/js/aoc.settings.js:150-152 | two compatible set calls leave both patches readable in storage |
| Settings.SetVisibleToResolver | assets/js/aoc.settings.js:150-154 | the settings set returns are the resolution of a merged object from which the sanitised patch reads back |
| Settings.ResetForgetsOverrides | assets/js/aoc.settings.js:159-164 | after reset the result does not depend on what was stored |
| Settings.LegacyLightMigrates | assets/js/aoc.settings.js:63-83 | a legacy `'light'` key with nothing stored resolves light and is moved into the stored overrides |
| DefaultConfig.PristineGet | assets/js/config.js:1-37 | with empty storage get() resolves the defaults merged with nothing and writes nothing |
| DefaultConfig.PristineResolution | assets/js/config.js:1-37 | on empty storage the defaults resolve to year 2025, 12 days, dark theme (none declared), both flags on, disabled days shown, default paths, tabbed layout |
| DefaultConfig.PristineDerivedFromClock | assets/js/config.js:3 | the declared `currentYear` and `nav.maxAvailableDay` are replaced by values from the clock |
| DefaultConfig.DeclaredMaxAvailableDayIgnored | assets/js/config.js:22 | on 5 December 2025 five days are open, not the declared twelve; in 2026 all twelve are open |
| DayNav.OptionsOf | assets/js/ui.nav.js:27-31 | `totalDays` is 25 unless an integer; `maxAvailableDay` is totalDays unless an integer; disabled days are shown unless the flag is exactly `false` |
| DayNav.BuildDayNav | assets/js/ui.nav.js:23-60 | the list holds days 1..n in increasing order, one per day up to totalDays or, when disabled days are hidden, up to maxAvailable; entries are enabled exactly up to maxAvailable; none is active |
| DayNav.SetActiveDay | assets/js/ui.nav.js:8-21 | every link keeps its entry |
| DayNav.MarksTheDay | assets/js/ui.nav.js:13-19 | a link is active iff the given day is a non-zero number equal to the link's day |
| DayNav.ActiveIsTheDay | assets/js/ui.nav.js:8-21 | on a freshly built list, marking day d activates only position d-1; `null` and 0 activate nothing |
| DayNav.OptionsOfResolved | assets/js/ui.nav.js:27-31 | the builder reads the resolved settings' own day count, unlocked days and disabled flag |
| DayNav.BuildFromSettings | assets/js/router.js:83 | with resolved settings that show disabled days the list has one entry per contest day, enabled exactly up to the unlocked count |
| Router.RemoveFirst | assets/js/router.js:44 | only the first occurrence of the character is removed |
| Router.DayFromHash | assets/js/router.js:43-48 | a day is returned iff the trimmed hash body parses to a positive integer |
| Router.EnabledLinkRoutes | assets/js/ui.nav.js:44-45 | the hash of an enabled navigation link routes back to its day |
| Router.HashOfNumber | assets/js/router.js:43-48 | `#n` routes to n exactly when n is positive |
| Router.HashOfNegative | assets/js/router.js:43-48 | `#-n` never routes |
| Router.HashOfWord | assets/js/router.js:43-48 | a hash body starting with neither a sign nor a digit never routes |
| Router.HashWithTrailing | assets/js/router.js:43-48 | text after the number, from a non-digit on, is ignored |
| Router.HashEmpty | assets/js/router.js:43-48 | an empty hash gives no day |
| Router.ConfigFallback | assets/js/router.js:8-27 | integer fields default to 25, 1 and 1; a falsy year becomes the clock's; the nav holds exactly the two defaulted fields and the configured nav entries; configured paths and nav entries override the defaults; a path the configuration does not set is its own name (`inputs`, `solutions`); without a configured `nav.maxAvailableDay` every day is available, and `showDisabledFutureDays` is on unless configured |
| Router.FallbackWithoutConfig | assets/js/router.js:8-27 | without a configuration the fallback is 25 days, all available, shown, starting on day 1 of the clock's year |
| Router.NavSpreadOverridesDefault | assets/js/router.js:21-25 | a non-integer configured `nav.maxAvailableDay` survives, because the nav spread comes after the integer default |
| Router.BootDay | assets/js/router.js:54-71 | nothing happens without the modules; the welcome page opens iff the hash names no day; otherwise that day opens |
| Router.BootNav | assets/js/router.js:54-70 | nothing is marked without the modules; otherwise every link keeps its entry (which links become active is `Router.BootMarksHashDay`) |
| Router.BootPage | assets/js/router.js:54-71 | with the corrected welcome page: unchanged without the modules; the welcome page clears the template flags, shows `welcome.html` iff it loads and leaves the editors and fields alone; a day's setup fails iff its layout does, and otherwise clears both outputs |
| Router.BootMarksHashDay | assets/js/router.js:60-70 | after booting the active links are exactly those whose day the hash names |
| Router.WelcomeThenDayShowsTemplate | assets/js/router.js:54-71 | with the corrected welcome page, visiting the welcome page and then a day fetches the day's template again: the container shows it when it loads and the error otherwise |
| App.WithAssetVersion | assets/js/app.js:130-146 | URLs stay unchanged without a version, when remote or already versioned; otherwise the URL is extended by `?v=` or `&v=` (depending on an existing query) and the encoded version |
| App.WithAssetVersionIdempotent | assets/js/app.js:130-146 | versioning twice is versioning once |
| App.ApplyTheme | assets/js/app.js:78-85 | the page theme is light iff the value is exactly `'light'` |
| App.BootstrapTheme | assets/js/app.js:8-17 | the early theme is light iff the stored settings parse to an object whose theme is `'light'` |
| App.BootstrapMatchesResolver | assets/js/app.js:8-17 | with no legacy key and no configured theme, the early theme equals the resolver's |
| App.Toggle | assets/js/app.js:112-116 | the toggle sets the attribute to the opposite theme and notifies once |
| App.ToggleFlipsAndPersists | assets/js/app.js:87-116 | the toggle flips the theme; the notification and the next get() carry the new theme |
| App.ToggleTwice | assets/js/app.js:112-116 | two toggles return to the starting theme |
| App.ClampInt | assets/js/app.js:213-217 | an unparsable value gives the fallback; a parsed one inside the bounds is kept, one below `min` becomes `min` and one above `max` becomes `max` |
| App.SavedYearInRange | assets/js/app.js:292 | the saved year lies in 2015..9999 unless the field does not parse, when it is the clock's year |
| App.ContestDaysForYear | assets/js/app.js:219-221 | the form's day-count rule agrees with the resolver's for every year |
| App.UnlockedDaysForYear | assets/js/app.js:223-236 | the form's unlock rule agrees with the resolver's for every year, count and date |
| App.SaveReadsBack | assets/js/app.js:291-307 | after Save, get() returns the normalised theme, the clamped year, both flags, the disabled-days flag, the trimmed paths (defaults for blanks) and the chosen layout (`day` when none is chosen) |
| App.SanitizedFormReads | assets/js/app.js:294-307 | set's sanitising keeps the form's entries, normalising only the theme |
| App.SetReadsBack | assets/js/aoc.settings.js:136-157 | a set whose sanitised patch holds these values resolves to them |
| Editors.EditorTheme | assets/js/ui.editors.js:11-13 | the editor theme is `material-darker` iff the page is dark, else `default` |
| Editors.PageTheme | assets/js/ui.editors.js:15-18 | the page reads dark iff its attribute is exactly `dark` |
| Editors.ThemeOnChange | assets/js/ui.editors.js:223-226 | a non-empty event theme wins, else the page's |
| Editors.Exit | assets/js/ui.editors.js:174-186 | without an instance nothing changes; otherwise the part leaves large view, fullscreenPart is cleared only if it named the part, overflow is recomputed, the other part and all text are untouched |
| Editors.Enter | assets/js/ui.editors.js:156-172 | without an instance nothing changes; otherwise only this part is in large view, it becomes fullscreenPart and overflow is hidden |
| Editors.Toggle | assets/js/ui.editors.js:188-194 | a part with an instance flips its large view |
| Editors.Escape | assets/js/ui.editors.js:216-220 | Escape leaves no part in large view |
| Editors.Reset | assets/js/ui.editors.js:240-259 | reset empties both parts' code and every existing textarea, and leaves nothing in large view, keeping which textareas and instances exist |
| Editors.SetCode | assets/js/ui.editors.js:260-269 | setting one part's code changes neither the other part's code nor the large-view state |
| Editors.Init | assets/js/ui.editors.js:233-239 | with the library loaded every part with a textarea gets an instance holding its text; existing instances are kept; the theme follows the page |
| Editors.TransitionsKeepValid | assets/js/ui.editors.js:108-269 | every transition keeps the invariant: at most one part in large view, fullscreenPart naming it, overflow hidden exactly then |
| Editors.ExitLeavesOtherPart | assets/js/ui.editors.js:174-186 | leaving large view on one part does not touch the other |
| Editors.NoInstanceNoChange | assets/js/ui.editors.js:156-186 | a part without an instance can neither enter nor leave large view |
| Editors.SetThenGet | assets/js/ui.editors.js:260-278 | getCode returns what setCode stored when the part has a textarea or instance, else `''` |
| Editors.RunSolution | assets/js/ui.editors.js:286-301 | code is evaluated only for a given non-zero part and it is that part's code |
| Editors.RunsIffCodeNotBlank | assets/js/ui.editors.js:286-293 | code runs iff it has a non-whitespace character |
| DayPage.FetchTextOrNull | assets/js/aoc.day.js:54-63 | the text comes back iff the response is ok |
| DayPage.LayoutOf | assets/js/aoc.day.js:348 | a falsy layout reads as `''`; a string is lower-cased; a truthy non-string makes setup fail |
| DayPage.TemplateFor | assets/js/aoc.day.js:349 | `day-tabbed.html` iff the layout is `tabbed`, else `day.html` |
| DayPage.LayoutIgnoresCase | assets/js/aoc.day.js:348 | a layout and its lower-cased form select the same template |
| DayPage.LayoutDefaults | assets/js/aoc.day.js:348-349 | a missing or empty layout selects `day.html`; a number makes setup fail |
| DayPage.ResolvedLayout | assets/js/aoc.settings.js:128 | the resolved layout is never falsy, and without any layout it selects the tabbed template |
| DayPage.EnsureTemplate | assets/js/aoc.day.js:4-31 | nothing is fetched iff the container is loaded with this file; success shows and records the file; failure shows the error and clears flag and name |
| DayPage.EnsureTemplateShowsFile | assets/js/aoc.day.js:4-31 | from a consistent container the loaded flag holds iff the file is shown, and a repeat call skips the fetch iff the first succeeded |
| DayPage.ShowWelcomeAsWritten | assets/js/aoc.day.js:33-52 | on failure the template flags are left as they were |
| DayPage.WelcomeFailureKeepsStaleTemplate | assets/js/aoc.day.js:46-49 | a failed welcome after a day page leaves the container marked with the day template, so the next day visit skips the fetch and keeps the error |
| DayPage.ShowWelcome | assets/js/aoc.day.js:33-52 | the corrected welcome page clears the flags on both paths and shows the page or the error |
| DayPage.WelcomeThenDayReloads | assets/js/aoc.day.js:33-52 | after the corrected welcome page the next day visit always fetches its template |
| DayPage.WelcomeVersionsAgreeOnSuccess | assets/js/aoc.day.js:37-45 | both versions agree when welcome.html loads |
| DayPage.InputUrl | assets/js/aoc.day.js:74-78 | the input URL is the puzzle URL followed by `/input` |
| DayPage.DayFile | assets/js/aoc.day.js:121 | a part's solution file has the name saveSolution gives it, under the year's directory |
| DayPage.SaveNameInjective | assets/js/aoc.day.js:271 | different days or parts are saved under different names |
| DayPage.InstructionsUrlNamesDay | assets/js/aoc.day.js:78 | past the site prefix the puzzle URL splits into the year, `day` and the day |
| DayPage.LoadSolution | assets/js/aoc.day.js:113-161 | nothing is fetched without auto-load; the day file comes first; the template is requested only if the day file is not ok, and a second time only when it throws after a missing day file |
| DayPage.LoadSolutionIsFirstAvailable | assets/js/aoc.day.js:126-160 | the code loaded is the first available of the day file and the template, or `''` |
| DayPage.TemplateTriedOnceAfterThrow | assets/js/aoc.day.js:144-160 | a day file whose request throws costs exactly one template request |
| DayPage.ExampleInput | assets/js/aoc.day.js:91-110 | the input box holds the example iff auto-load is on and the file is ok, else stays empty |
| DayPage.ExampleClick | assets/js/aoc.day.js:93-105 | the example link alerts iff the file is missing |
| DayPage.AutoLoadMatchesClick | assets/js/aoc.day.js:93-110 | auto-loading fills in what clicking the example link would |
| DayPage.OutputText | assets/js/aoc.day.js:252-259 | `undefined` shows as `''` and a string as itself |
| DayPage.OutputOfInteger | assets/js/aoc.day.js:252-259 | an integer answer shown in an output field parses back to itself |
| DayPage.RunButton | assets/js/aoc.day.js:320-338 | a run happens only with non-blank input, and runs that part's code |
| DayPage.RunNeedsInputAndCode | assets/js/aoc.day.js:306-338 | code runs iff both the input and the code have a non-whitespace character |
| DayPage.SaveSolution | assets/js/aoc.day.js:264-271 | a save happens iff the code is not blank, under `<day>-<part>.js` with the code as contents |
| DayPage.SetupDay | assets/js/aoc.day.js:344-378 | setup fails iff the layout is a truthy non-string; otherwise the layout's template is ensured, the outputs are cleared and nothing is in large view |
| DayPage.SetupDayLoadsSolutions | assets/js/aoc.day.js:358-368 | after setup each part holds the first available of its day file and template, or `''` without auto-load |
| PuzzleInput.Lines | solutions/2025/1-2.js:4 | there is one line per newline-separated piece of the trimmed input, and no line contains a newline |
| PuzzleInput.LinesCrlf | solutions/2025/1-2.js:4 | lines free of line-break characters written with `\r\n` breaks read back as themselves: the `\r` of each break is dropped |
| PuzzleInput.LinesJoin | solutions/2025/1-2.js:4 | without carriage returns the lines joined by newlines give back the trimmed input |
| PuzzleInput.ParseRange | solutions/2025/2-1.js:1-4 | the lower bound is a number or NaN; the upper bound is undefined iff the piece has no `-` |
| PuzzleInput.ParseRanges | solutions/2025/2-1.js:1-4 | one range per comma-separated piece, in order |
| PuzzleInput.ParseRangesText | solutions/2025/2-1.js:1-4 | written-out ranges `a-b,c-d,…` are read back exactly |
| Dial.ParseRotation | solutions/2025/1-2.js:7-8 | the rotation is right iff the line starts with `R`; it clicks iff the rest is a positive number, and then exactly that many times |
| Dial.ParseRotationText | solutions/2025/1-2.js:7-8 | an instruction written as a letter and a decimal count reads back as that count of clicks, rightwards iff the letter is `R` |
| Dial.Click | solutions/2025/1-2.js:11-15 | one click keeps the dial in 0..99 and moves it by one modulo 100 |
| Dial.Clicks | solutions/2025/1-2.js:10-20 | the click loop computes the end position and zero count of one rotation |
| Dial.CountZeros | solutions/2025/1-2.js:1-23 | the line loop computes the password of the rotations |
| Dial.Solve | solutions/2025/1-2.js:1-23 | the solution's answer on its input is the password of its parsed lines |
| Dial.TurnRight | solutions/2025/1-2.js:10-20 | n right clicks from p end at (p+n) mod 100 and pass 0 once per completed hundred |
| Dial.TurnLeft | solutions/2025/1-2.js:10-20 | n left clicks end at (p-n) mod 100 and pass 0 as often as n right clicks from the mirrored position |
| Dial.RunAddsZeros | solutions/2025/1-2.js:6-21 | each rotation moves the dial to its closed-form end and adds its closed-form zero count, so the password never decreases |
| DoubledIds.DblIsDoubled | solutions/2025/2-1.js:21 | x written twice is a doubled number whose half is x |
| DoubledIds.DoubledIsDbl | solutions/2025/2-1.js:21 | every doubled number is some positive x written twice |
| DoubledIds.DblMonotone | solutions/2025/2-1.js:20-27 | writing twice is strictly increasing, which justifies the early break |
| DoubledIds.LengthsSum | solutions/2025/2-1.js:13-28 | the length loop adds the kept candidates of every half below 10^(maxLength/2) |
| DoubledIds.HalfLengthSum | solutions/2025/2-1.js:20-27 | the candidate loop with its break adds the kept candidates of the half-length |
| DoubledIds.RangeSum | solutions/2025/2-1.js:8-28 | one range's loops add its contribution |
| DoubledIds.RangeSumIsDoubledSum | solutions/2025/2-1.js:10-28 | for numeric bounds the contribution is exactly the sum of doubled numbers between them, 0 when the bounds are crossed |
| DoubledIds.Total | solutions/2025/2-1.js:7-29 | there is an answer iff every range has an upper bound |
| DoubledIds.SumRanges | solutions/2025/2-1.js:7-31 | the range loop computes the total, or none when a range throws |
| DoubledIds.Solve | solutions/2025/2-1.js:1-31 | the solution's answer on its input |
| DoubledIds.TotalIsDoubledSum | solutions/2025/2-1.js:7-31 | with numeric bounds the answer is the sum of the doubled numbers inside every range |
| DoubledIds.SolveWrittenRanges | solutions/2025/2-1.js:1-31 | written-out ranges give the sum of the doubled numbers inside them |
| RepeatedIds.InvalidText | solutions/2025/2-2.js:23-38 | the test answers true iff the text is non-empty, starts with no `0` and is a block repeated to fill it |
| RepeatedIds.InvalidId | solutions/2025/2-2.js:23-38 | an id is invalid iff its text is a repetition; the leading-zero guard never fires |
| RepeatedIds.RepeatedIsInvalid | solutions/2025/2-2.js:23-38 | a text that is a block repeated at least twice is invalid |
| RepeatedIds.RepetitionBlock | solutions/2025/2-2.js:27-35 | every repetition is its first block repeated at least twice |
| RepeatedIds.InvalidIdsArePositive | solutions/2025/2-2.js:23-38 | invalid ids are at least 10: a negative sign cannot repeat |
| RepeatedIds.DoubledIsInvalid | solutions/2025/2-2.js:23-38 | every doubled number is invalid here |
| RepeatedIds.TripleNotDoubled | solutions/2025/2-2.js:23-38 | 111 is invalid here without being doubled |
| RepeatedIds.SumInvalidIdsInRange | solutions/2025/2-2.js:13-21 | the loop adds the invalid ids of the range, nothing when a bound is NaN or undefined |
| RepeatedIds.Solve | solutions/2025/2-2.js:1-11 | the solution's answer on its input |
| RepeatedIds.SumRanges | solutions/2025/2-2.js:6-11 | the range loop adds each range's sum of invalid ids, giving the total |
| RepeatedIds.TotalAtLeastDoubled | solutions/2025/2-2.js:1-11 | with numeric bounds this answer is at least the doubled-ID answer |
| JsonValue.ParseIntOfIntString | assets/js/ui.nav.js:14 | `parseInt(String(n), 10)` is n for every integer |
| JsText.BlankIffAllWhitespace | assets/js/aoc.day.js:266 | a string trims to `''` iff it is all whitespace |
| JsText.JoinSplit | solutions/2025/2-1.js:1 | joining the pieces of a split gives the string back |
| JsText.SplitJoin | solutions/2025/2-1.js:1 | splitting a join of separator-free pieces gives the pieces back |

## Left out

- The DOM is reduced to the state the code reads back: element text, classes, attributes and focus. Also left out are the includes loader (`loadIncludes`), the header year, button labels and overlay buttons, tab wiring and `requestAnimationFrame` refreshes. None of them decides anything the model states.
- `fetch` and the async ordering of `setupDay`, `Promise.all` included. A server is a function, so each URL has one answer during a load.
- Evaluating user code with `new Function` is outside the model. `runSolution` stops at the decision to evaluate a given piece of code.
- `encodeURIComponent` is an arbitrary function parameter of `App.WithAssetVersion`.
- `JSON.parse` is the `Slot` datatype (missing, unparseable, parsed value). Storage exceptions and the try/catch paths around storage are not modelled.
- Numbers are integers. `Number` and `parseInt` handle decimal integer text only. A fraction, hex or exponent makes `JsText.JsNumber` NaN, which the source would read as a number. Integers beyond 2^53, where JavaScript loses precision, are exact here.
- Spreading a string or an array copies its indices in JavaScript. Here it copies nothing.
- Settings.Get: a truthy non-number `cfg.year` is treated as absent, so the clock's year is used instead of the value.
- The settings file's own `clampInt` and the commented-out `firstDay`/`defaultDay` fields of `get()` are dead code and are not modelled.
- `getActiveConfig`'s choice between `get()` and the fallback, and `getSettingsSafe` in app.js, are not modelled. Both ingredients are: `Settings.Get` and `Router.ConfigFallback`.
- The theme fallback of `setTheme` when the settings module is missing is not modelled.
- The `aocSettingsChanged` and `hashchange` listeners are not modelled. They only re-run the navigation builder and `bootDay`, which are modelled.
- `ensureInstances` rebinding an instance whose textarea was replaced is not modelled. `Editors.Init` keeps existing instances.
- The save-file picker and the Blob download are not modelled. `DayPage.SaveSolution` states the name and contents saved.
- `updateContestAndUnlockUI` and the form's populate code are not modelled. Only their day rules are.
- DayPage.SetupDay: the editors' textareas come from the page state passed in, not from the template just loaded, so a failed or skipped template load does not remove them.
- Router.BootPage: the welcome branch uses the corrected `DayPage.ShowWelcome` (see Findings); `bootDay` as written reaches `DayPage.ShowWelcomeAsWritten`.
- DoubledIds: the unused `sum` and `minLength` of the 2-1 solution are not modelled. `max.toString()` throwing on a range without `-` is the `None` answer.

## Findings

| source | as written | input that shows it | evidently intended | confidence | as-written member | corrected member |
|---|---|---|---|---|---|---|
| assets/js/aoc.day.js:46-49 | when `welcome.html` fails to load, `showWelcome` replaces the container's content but keeps `templateLoaded`/`templateName` from the previous day page | open a day with the tabbed layout, then go to `#` while `welcome.html` fails; the next day visit finds the container marked as holding `day-tabbed.html`, skips the fetch and keeps showing the welcome error | clear both flags on failure too, since the day template is gone from the container either way | not executed | DayPage.WelcomeFailureKeepsStaleTemplate | DayPage.WelcomeThenDayReloads |

=== FILE: app.dfy ===
/**
 The pure helpers of the application shell `assets/js/app.js`: the asset
 version query parameter, the early theme bootstrap, theme application and
 the header toggle, the settings form's integer clamp, and the form's own
 copy of the day-count and unlock rules.
 */
module App {
  import opened Wrappers
  import opened JsText
  import opened JsonValue
  import Settings

  // ---------------------------------------------------------------------------
  // withAssetVersion
  // ---------------------------------------------------------------------------

  /** `/^https?:\/\//i`: an absolute http or https URL. */
  predicate IsRemote(url: string) {
    StartsWithIgnoreCase(url, "http://") || StartsWithIgnoreCase(url, "https://")
  }

  /** `/[?&]v=/`: the URL already carries a version parameter. */
  predicate HasVersionParam(url: string) {
    Contains(url, "?v=") || Contains(url, "&v=")
  }

  /** `withAssetVersion`: append `v=<encoded version>` to a local URL that
      has no version parameter yet, joined with `&` when the URL already has
      a query and `?` otherwise. `encode` stands for `encodeURIComponent`;
      an absent or empty version leaves every URL alone. */
  function WithAssetVersion(url: string, version: Option<string>, encode: string -> string): (r: string)
    ensures version.None? || version == Some("") ==> r == url
    ensures IsRemote(url) || HasVersionParam(url) ==> r == url
    ensures version.Some? && version.value != "" && !IsRemote(url) && !HasVersionParam(url) ==>
              r == url + (if '?' in url then "&" else "?") + "v=" + encode(version.value)
    ensures r != url ==> HasVersionParam(r) && |url| < |r| && r[..|url|] == url
    ensures r != url ==> r[|url|..] == (if '?' in url then "&" else "?") + "v=" + encode(version.value)
  {
    if version.None? || version.value == "" then url
    else if IsRemote(url) then url
    else if HasVersionParam(url) then url
    else
      var join := if '?' in url then "&" else "?";
      var r := url + join + "v=" + encode(version.value);
      assert HasVersionParam(r) by {
        assert r[|url|..|url| + 3] == join + "v=";
        ContainsAt(r, join + "v=", |url|);
        assert join + "v=" == "&v=" || join + "v=" == "?v=";
      }
      r
  }

  /** Versioning an already versioned URL changes nothing. */
  lemma WithAssetVersionIdempotent(url: string, version: Option<string>, encode: string -> string)
    ensures var once := WithAssetVersion(url, version, encode);
            WithAssetVersion(once, version, encode) == once
  {
  }

  // ---------------------------------------------------------------------------
  // Themes
  // ---------------------------------------------------------------------------

  /** `applyTheme`: the page theme attribute is `'light'` for exactly the
      string `'light'` and `'dark'` for any other value. */
  function ApplyTheme(theme: Json): (t: Settings.Theme)
    ensures t == Settings.Light <==> theme == JStr("light")
  {
    if theme == JStr("light") then Settings.Light else Settings.Dark
  }

  /** The theme set before anything else loads: `'light'` only when the
      stored settings parse to an object whose `theme` is `'light'`; a missing
      entry, a parse failure or a `null` value give `'dark'`. */
  function BootstrapTheme(slot: Settings.Slot): (t: Settings.Theme)
    ensures t == Settings.Light <==> slot.Entry? && Member(slot.value, "theme") == Some(JStr("light"))
  {
    match slot
    case NoEntry => Settings.Dark
    case Unparsable => Settings.Dark
    case Entry(j) => if Member(j, "theme") == Some(JStr("light")) then Settings.Light else Settings.Dark
  }

  /** The early bootstrap shows the theme the resolver settles on, as long
      as there is no legacy theme key and the configuration names no theme,
      so the page does not flash the wrong theme. */
  lemma BootstrapMatchesResolver(slot: Settings.Slot, cfg: Json, today: Settings.Date)
    requires Member(cfg, "theme").None?
    ensures BootstrapTheme(slot) == Settings.Get(Settings.Store(slot, None), cfg, today).0.theme
  {
    var stored := Settings.ReadStored(slot);
    var merged := Settings.DeepMerge(cfg, stored);
    assert Settings.MigrateLegacyTheme(stored, Settings.Store(slot, None)).0 == stored;
    if Member(stored, "theme").Some? {
      assert Member(merged, "theme").Some?;
      var v := Member(stored, "theme").value;
      if !v.JObj? {
        assert Member(merged, "theme") == Some(v);
      }
    } else {
      assert Member(merged, "theme") == Member(cfg, "theme");
    }
    assert slot.Entry? && Member(slot.value, "theme") == Some(JStr("light")) ==> stored == slot.value;
  }

  /** The page: the theme attribute on the root element and the storage and
      change log behind the settings resolver. */
  datatype Page = Page(attr: Option<string>, env: Settings.Env)

  /** The theme the toggle reads back from the page attribute. */
  function CurrentTheme(attr: Option<string>): (t: Settings.Theme)
    ensures t == Settings.Light <==> attr == Some("light")
  {
    if attr == Some("light") then Settings.Light else Settings.Dark
  }

  function Opposite(t: Settings.Theme): Settings.Theme {
    if t == Settings.Light then Settings.Dark else Settings.Light
  }

  /** The header toggle: `set({ theme: next })` for the opposite of the
      current theme, then apply it to the page. */
  function Toggle(p: Page, cfg: Json, today: Settings.Date): (q: Page)
    ensures q.attr == Some(Settings.ThemeName(Opposite(CurrentTheme(p.attr))))
    ensures |q.env.events| == |p.env.events| + 1
  {
    var next := Opposite(CurrentTheme(p.attr));
    var (_, env) := Settings.Set(p.env, JObj(map["theme" := JStr(Settings.ThemeName(next))]), cfg, today);
    var applied := ApplyTheme(JStr(Settings.ThemeName(next)));
    Page(Some(Settings.ThemeName(applied)), env)
  }

  /** The toggle flips the page theme, the change notification carries the
      new theme and the stored settings now resolve to it. */
  lemma ToggleFlipsAndPersists(p: Page, cfg: Json, today: Settings.Date)
    ensures var q := Toggle(p, cfg, today);
      && CurrentTheme(q.attr) == Opposite(CurrentTheme(p.attr))
      && q.env.events[|q.env.events| - 1].theme == CurrentTheme(q.attr)
      && Settings.Get(q.env.store, cfg, today).0.theme == CurrentTheme(q.attr)
  {
    var next := Opposite(CurrentTheme(p.attr));
    Settings.SetThemeResolves(p.env, Settings.ThemeName(next), cfg, today);
  }

  /** Toggling twice comes back to the normalised starting theme. */
  lemma ToggleTwice(p: Page, cfg: Json, today: Settings.Date)
    ensures Toggle(Toggle(p, cfg, today), cfg, today).attr == Some(Settings.ThemeName(CurrentTheme(p.attr)))
  {
  }

  // ---------------------------------------------------------------------------
  // Settings form
  // ---------------------------------------------------------------------------

  /** `clampInt`: the fallback when the text does not parse, otherwise the
      parsed value clamped into `[min, max]`. */
  function ClampInt(value: string, min: int, max: int, fallback: int): (r: int)
    ensures ParseInt(value).None? ==> r == fallback
    ensures ParseInt(value).Some? && min <= max ==> min <= r <= max
    ensures ParseInt(value).Some? && min <= ParseInt(value).value <= max ==> r == ParseInt(value).value
    ensures ParseInt(value).Some? && ParseInt(value).value < min <= max ==> r == min
    ensures ParseInt(value).Some? && ParseInt(value).value > max ==> r == max
  {
    match ParseInt(value)
    case None => fallback
    case Some(n) =>
      var atLeast := if n > min then n else min;
      if atLeast < max then atLeast else max
  }

  /** The year the settings form saves is in `[2015, 9999]` or, when the
      field does not parse, the clock's year. */
  lemma SavedYearInRange(text: string, currentYear: int)
    ensures var y := ClampInt(text, 2015, 9999, currentYear);
            2015 <= y <= 9999 || (y == currentYear && ParseInt(text).None?)
  {
  }

  /** `contestDaysForYear`, the form's copy of the day-count rule; it agrees
      with the resolver's for every year. */
  function ContestDaysForYear(y: int): (n: int)
    ensures n == Settings.DayCount(y)
  {
    if y >= 2025 then 12 else 25
  }

  /** `computeUnlockedDaysForYear`, the form's copy of the unlock rule; it
      agrees with the resolver's for every year, day count and date. */
  function UnlockedDaysForYear(year: int, totalDays: int, today: Settings.Date): (n: int)
    ensures n == Settings.UnlockedDays(year, totalDays, today)
  {
    if year < today.year then totalDays
    else if year > today.year then 0
    else if today.month0 < 11 then 0
    else if today.month0 > 11 then totalDays
    else if today.dayOfMonth < totalDays then today.dayOfMonth else totalDays
  }

  /** The patch the Save button sends: theme, clamped year, layout (default
      `'day'`), the two auto-load flags, trimmed paths with their defaults,
      and the disabled-days flag. */
  function FormPatch(theme: string, yearText: string, currentYear: int, dayLayout: string,
                     autoLoadExample: bool, autoLoadSolutions: bool,
                     inputs: string, solutions: string, showDisabled: bool): Json
  {
    JObj(FormFields(
      JStr(theme),
      JNum(ClampInt(yearText, 2015, 9999, currentYear)),
      JStr(if dayLayout == "" then "day" else dayLayout),
      JBool(autoLoadExample),
      JBool(autoLoadSolutions),
      JObj(map[
        "inputs" := JStr(if Trim(inputs) == "" then "inputs" else Trim(inputs)),
        "solutions" := JStr(if Trim(solutions) == "" then "solutions" else Trim(solutions))]),
      JObj(map["showDisabledFutureDays" := JBool(showDisabled)])))
  }

  /** The seven entries of the form's patch. */
  function FormFields(theme: Json, year: Json, dayLayout: Json, autoLoadExample: Json,
                      autoLoadSolutions: Json, paths: Json, nav: Json): map<string, Json>
  {
    map[
      "theme" := theme,
      "year" := year,
      "dayLayout" := dayLayout,
      "autoLoadExample" := autoLoadExample,
      "autoLoadSolutions" := autoLoadSolutions,
      "paths" := paths,
      "nav" := nav]
  }

  /** Saving the form and reading the settings back gives the form's
      values: the normalised theme, the clamped year, the flags, the
      trimmed paths and the layout (`'day'` when none is chosen). */
  lemma SaveReadsBack(env: Settings.Env, theme: string, yearText: string, currentYear: int, dayLayout: string,
                      autoLoadExample: bool, autoLoadSolutions: bool,
                      inputs: string, solutions: string, showDisabled: bool,
                      cfg: Json, today: Settings.Date)
    ensures var patch := FormPatch(theme, yearText, currentYear, dayLayout, autoLoadExample, autoLoadSolutions,
                                   inputs, solutions, showDisabled);
      var c := Settings.Set(env, patch, cfg, today).0;
      var y := ClampInt(yearText, 2015, 9999, currentYear);
      && c.theme == Settings.NormalizeTheme(theme)
      && (y != 0 ==> c.year == y)
      && c.autoLoadExample == autoLoadExample
      && c.autoLoadSolutions == autoLoadSolutions
      && c.nav.showDisabledFutureDays == showDisabled
      && c.paths["inputs"] == JStr(if Trim(inputs) == "" then "inputs" else Trim(inputs))
      && c.paths["solutions"] == JStr(if Trim(solutions) == "" then "solutions" else Trim(solutions))
      && c.dayLayout == JStr(if dayLayout == "" then "day" else dayLayout)
  {
    var patch := FormPatch(theme, yearText, currentYear, dayLayout, autoLoadExample, autoLoadSolutions,
                           inputs, solutions, showDisabled);
    SanitizedFormReads(theme, yearText, currentYear, dayLayout, autoLoadExample, autoLoadSolutions,
                       inputs, solutions, showDisabled);
    SetReadsBack(env, patch, cfg, today, Settings.NormalizeTheme(theme), ClampInt(yearText, 2015, 9999, currentYear),
                 autoLoadExample, autoLoadSolutions,
                 if Trim(inputs) == "" then "inputs" else Trim(inputs),
                 if Trim(solutions) == "" then "solutions" else Trim(solutions), showDisabled,
                 if dayLayout == "" then "day" else dayLayout);
  }

  /** The form's patch after `set` has sanitised it. */
  lemma SanitizedFormReads(theme: string, yearText: string, currentYear: int, dayLayout: string,
                           autoLoadExample: bool, autoLoadSolutions: bool,
                           inputs: string, solutions: string, showDisabled: bool)
    ensures var sp := Settings.SanitizePatch(FormPatch(theme, yearText, currentYear, dayLayout, autoLoadExample,
                                                       autoLoadSolutions, inputs, solutions, showDisabled)).fields;
      && "theme" in sp && sp["theme"] == JStr(Settings.ThemeName(Settings.NormalizeTheme(theme)))
      && "year" in sp && sp["year"] == JNum(ClampInt(yearText, 2015, 9999, currentYear))
      && "autoLoadExample" in sp && sp["autoLoadExample"] == JBool(autoLoadExample)
      && "autoLoadSolutions" in sp && sp["autoLoadSolutions"] == JBool(autoLoadSolutions)
      && "paths" in sp && sp["paths"] == JObj(map[
           "inputs" := JStr(if Trim(inputs) == "" then "inputs" else Trim(inputs)),
           "solutions" := JStr(if Trim(solutions) == "" then "solutions" else Trim(solutions))])
      && "nav" in sp && sp["nav"] == JObj(map["showDisabledFutureDays" := JBool(showDisabled)])
      && "dayLayout" in sp && sp["dayLayout"] == JStr(if dayLayout == "" then "day" else dayLayout)
  {
    var paths := JObj(map[
      "inputs" := JStr(if Trim(inputs) == "" then "inputs" else Trim(inputs)),
      "solutions" := JStr(if Trim(solutions) == "" then "solutions" else Trim(solutions))]);
    SanitizedFields(theme, JNum(ClampInt(yearText, 2015, 9999, currentYear)),
                    JStr(if dayLayout == "" then "day" else dayLayout),
                    autoLoadExample, autoLoadSolutions, paths, showDisabled);
  }

  /** Sanitising the form's entries normalises the theme and leaves the
      others as they are. */
  lemma SanitizedFields(theme: string, year: Json, dayLayout: Json, autoLoadExample: bool,
                        autoLoadSolutions: bool, paths: Json, showDisabled: bool)
    requires !year.JObj? && !dayLayout.JObj?
    ensures var sp := Settings.SanitizePatch(JObj(FormFields(JStr(theme), year, dayLayout, JBool(autoLoadExample),
                        JBool(autoLoadSolutions), paths, JObj(map["showDisabledFutureDays" := JBool(showDisabled)])))).fields;
      && "theme" in sp && sp["theme"] == JStr(Settings.ThemeName(Settings.NormalizeTheme(theme)))
      && "year" in sp && sp["year"] == year
      && "autoLoadExample" in sp && sp["autoLoadExample"] == JBool(autoLoadExample)
      && "autoLoadSolutions" in sp && sp["autoLoadSolutions"] == JBool(autoLoadSolutions)
      && "paths" in sp && sp["paths"] == paths
      && "nav" in sp && sp["nav"] == JObj(map["showDisabledFutureDays" := JBool(showDisabled)])
      && "dayLayout" in sp && sp["dayLayout"] == dayLayout
  {
    var nav := map["showDisabledFutureDays" := JBool(showDisabled)];
    var p := FormFields(JStr(theme), year, dayLayout, JBool(autoLoadExample), JBool(autoLoadSolutions),
                        paths, JObj(nav));
    FormFieldsRead(JStr(theme), year, dayLayout, JBool(autoLoadExample), JBool(autoLoadSolutions),
                   paths, JObj(nav));
    assert nav - {"maxAvailableDay"} == nav;
  }

  /** The keys of the form's patch, and what each holds. */
  lemma FormFieldsRead(theme: Json, year: Json, dayLayout: Json, autoLoadExample: Json,
                       autoLoadSolutions: Json, paths: Json, nav: Json)
    ensures var p := FormFields(theme, year, dayLayout, autoLoadExample, autoLoadSolutions, paths, nav);
      && p.Keys == {"theme", "year", "dayLayout", "autoLoadExample", "autoLoadSolutions", "paths", "nav"}
      && p["theme"] == theme && p["year"] == year && p["dayLayout"] == dayLayout
      && p["autoLoadExample"] == autoLoadExample && p["autoLoadSolutions"] == autoLoadSolutions
      && p["paths"] == paths && p["nav"] == nav
  {
  }

  /** A `set` whose sanitised patch holds these values resolves to them. */
  lemma SetReadsBack(env: Settings.Env, patch: Json, cfg: Json, today: Settings.Date,
                     theme: Settings.Theme, year: int, autoLoadExample: bool, autoLoadSolutions: bool,
                     inputs: string, solutions: string, showDisabled: bool, layout: string)
    requires var sp := Spread(Settings.SanitizePatch(patch));
      && "theme" in sp && sp["theme"] == JStr(Settings.ThemeName(theme))
      && "year" in sp && sp["year"] == JNum(year)
      && "autoLoadExample" in sp && sp["autoLoadExample"] == JBool(autoLoadExample)
      && "autoLoadSolutions" in sp && sp["autoLoadSolutions"] == JBool(autoLoadSolutions)
      && "paths" in sp && sp["paths"] == JObj(map["inputs" := JStr(inputs), "solutions" := JStr(solutions)])
      && "nav" in sp && sp["nav"] == JObj(map["showDisabledFutureDays" := JBool(showDisabled)])
      && "dayLayout" in sp && sp["dayLayout"] == JStr(layout)
    ensures var c := Settings.Set(env, patch, cfg, today).0;
      && c.theme == theme
      && (year != 0 ==> c.year == year)
      && c.autoLoadExample == autoLoadExample
      && c.autoLoadSolutions == autoLoadSolutions
      && c.nav.showDisabledFutureDays == showDisabled
      && c.paths["inputs"] == JStr(inputs)
      && c.paths["solutions"] == JStr(solutions)
      && (layout != "" ==> c.dayLayout == JStr(layout))
  {
    var r := Settings.Set(env, patch, cfg, today);
    Settings.SetVisibleToResolver(env, patch, cfg, today);
    var merged := Settings.DeepMerge(cfg, Settings.CurrentOverrides(r.1.store));
    ResolveReads(merged, Spread(Settings.SanitizePatch(patch)), cfg, today, theme, year,
                 autoLoadExample, autoLoadSolutions, inputs, solutions, showDisabled, layout);
  }

  /** Resolving a merged object from which these values read back. */
  lemma ResolveReads(merged: Json, sp: map<string, Json>, cfg: Json, today: Settings.Date,
                     theme: Settings.Theme, year: int, autoLoadExample: bool, autoLoadSolutions: bool,
                     inputs: string, solutions: string, showDisabled: bool, layout: string)
    requires merged.JObj? && Settings.Reflects(merged.fields, sp)
    requires && "theme" in sp && sp["theme"] == JStr(Settings.ThemeName(theme))
             && "year" in sp && sp["year"] == JNum(year)
             && "autoLoadExample" in sp && sp["autoLoadExample"] == JBool(autoLoadExample)
             && "autoLoadSolutions" in sp && sp["autoLoadSolutions"] == JBool(autoLoadSolutions)
             && "paths" in sp && sp["paths"] == JObj(map["inputs" := JStr(inputs), "solutions" := JStr(solutions)])
             && "nav" in sp && sp["nav"] == JObj(map["showDisabledFutureDays" := JBool(showDisabled)])
             && "dayLayout" in sp && sp["dayLayout"] == JStr(layout)
    ensures var c := Settings.Resolve(merged, cfg, today);
      && c.theme == theme
      && (year != 0 ==> c.year == year)
      && c.autoLoadExample == autoLoadExample
      && c.autoLoadSolutions == autoLoadSolutions
      && c.nav.showDisabledFutureDays == showDisabled
      && c.paths["inputs"] == JStr(inputs)
      && c.paths["solutions"] == JStr(solutions)
      && (layout != "" ==> c.dayLayout == JStr(layout))
  {
    ReadScalar(merged.fields, sp, "theme");
    ReadScalar(merged.fields, sp, "dayLayout");
    ReadScalar(merged.fields, sp, "year");
    ReadScalar(merged.fields, sp, "autoLoadExample");
    ReadScalar(merged.fields, sp, "autoLoadSolutions");
    ReadObject(merged.fields, sp, "paths");
    ReadObject(merged.fields, sp, "nav");
    ResolveThemeYear(merged, cfg, today, theme, year);
    ResolvePaths(merged, cfg, today, inputs, solutions);
    ResolveShowDisabled(merged, cfg, today, showDisabled);
    ResolveLayout(merged, cfg, today, layout);
  }

  lemma ResolveLayout(merged: Json, cfg: Json, today: Settings.Date, layout: string)
    requires Member(merged, "dayLayout") == Some(JStr(layout))
    ensures layout != "" ==> Settings.Resolve(merged, cfg, today).dayLayout == JStr(layout)
  {
  }

  lemma ResolveThemeYear(merged: Json, cfg: Json, today: Settings.Date, theme: Settings.Theme, year: int)
    requires Member(merged, "theme") == Some(JStr(Settings.ThemeName(theme)))
    requires Member(merged, "year") == Some(JNum(year))
    ensures var c := Settings.Resolve(merged, cfg, today);
      c.theme == theme && (year != 0 ==> c.year == year)
  {
  }

  lemma ResolvePaths(merged: Json, cfg: Json, today: Settings.Date, inputs: string, solutions: string)
    requires merged.JObj? && "paths" in merged.fields && merged.fields["paths"].JObj?
    requires Settings.Reflects(merged.fields["paths"].fields, map["inputs" := JStr(inputs), "solutions" := JStr(solutions)])
    ensures var c := Settings.Resolve(merged, cfg, today);
      c.paths["inputs"] == JStr(inputs) && c.paths["solutions"] == JStr(solutions)
  {
    var paths := map["inputs" := JStr(inputs), "solutions" := JStr(solutions)];
    var mp := merged.fields["paths"];
    assert "inputs" in paths && "solutions" in paths;
    assert mp.fields["inputs"] == paths["inputs"] && mp.fields["solutions"] == paths["solutions"];
    assert Member(merged, "paths") == Some(mp);
    assert Or(Member(merged, "paths"), JObj(map[])) == mp;
    var c := Settings.Resolve(merged, cfg, today);
    var defaults := map["inputs" := JStr("inputs"), "solutions" := JStr("solutions")];
    assert c.paths == defaults + mp.fields;
  }

  lemma ResolveShowDisabled(merged: Json, cfg: Json, today: Settings.Date, showDisabled: bool)
    requires merged.JObj? && "nav" in merged.fields && merged.fields["nav"].JObj?
    requires Settings.Reflects(merged.fields["nav"].fields, map["showDisabledFutureDays" := JBool(showDisabled)])
    ensures Settings.Resolve(merged, cfg, today).nav.showDisabledFutureDays == showDisabled
  {
    var mn := merged.fields["nav"];
    assert Member(merged, "nav") == Some(mn);
    assert Member(mn, "showDisabledFutureDays") == Some(JBool(showDisabled));
  }

  /** A non-object entry of a patch reads back from what reflects it. */
  lemma ReadScalar(m: map<string, Json>, p: map<string, Json>, k: string)
    requires Settings.Reflects(m, p) && k in p && !p[k].JObj?
    ensures Member(JObj(m), k) == Some(p[k])
  {
  }

  /** An object entry of a patch reads back entry by entry. */
  lemma ReadObject(m: map<string, Json>, p: map<string, Json>, k: string)
    requires Settings.Reflects(m, p) && k in p && p[k].JObj?
    ensures k in m && m[k].JObj? && Settings.Reflects(m[k].fields, p[k].fields)
  {
  }
}

=== FILE: config.dfy ===
/**
 The default configuration `AOC_CONFIG` of `assets/js/config.js`, and what the
 settings resolver makes of it when the browser holds no overrides.
 */
module DefaultConfig {
  import opened Wrappers
  import opened JsonValue
  import opened Settings

  /** `window.AOC_CONFIG`. */
  const AocConfig: Json := JObj(map[
    "currentYear" := JNum(2025),
    "year" := JNum(2025),
    "totalDays" := JNum(12),
    "paths" := JObj(map["inputs" := JStr("inputs"), "solutions" := JStr("solutions")]),
    "nav" := JObj(map["maxAvailableDay" := JNum(12), "showDisabledFutureDays" := JBool(true)]),
    "autoLoadExample" := JBool(true),
    "autoLoadSolutions" := JBool(true),
    "dayLayout" := JStr("tabbed")])

  /** Storage with neither settings key present. */
  const Pristine: Store := Store(NoEntry, None)

  /** Merging an empty patch copies the base. */
  lemma MergeEmpty(base: map<string, Json>)
    ensures MergeFields(base, map[]) == base
  {
  }

  /** With nothing stored, `get()` resolves the defaults merged with
      nothing, and touches no storage. */
  lemma PristineGet(today: Date)
    ensures Get(Pristine, AocConfig, today) == (Resolve(AocConfig, AocConfig, today), Pristine)
  {
    assert MigrateLegacyTheme(ReadStored(NoEntry), Pristine) == (JObj(map[]), Pristine);
    MergeEmpty(AocConfig.fields);
    assert DeepMerge(AocConfig, JObj(map[])) == AocConfig;
  }

  /** Resolution of the defaults on pristine storage: the declared year,
      the day count of that year (which is the declared `totalDays`), the
      default paths, layout and flags, and the dark theme, because the
      constant declares no theme. Storage is left as it was. */
  lemma PristineResolution(today: Date)
    ensures var r := Get(Pristine, AocConfig, today);
      && r.1 == Pristine
      && r.0.year == 2025
      && r.0.totalDays == 12
      && r.0.theme == Dark
      && r.0.autoLoadExample && r.0.autoLoadSolutions
      && r.0.nav.showDisabledFutureDays
      && r.0.paths == map["inputs" := JStr("inputs"), "solutions" := JStr("solutions")]
      && r.0.dayLayout == JStr("tabbed")
  {
    PristineGet(today);
    ResolveDefaults(today);
  }

  lemma ResolveDefaults(today: Date)
    ensures var c := Resolve(AocConfig, AocConfig, today);
      && c.year == 2025
      && c.totalDays == 12
      && c.theme == Dark
      && c.autoLoadExample && c.autoLoadSolutions
      && c.nav.showDisabledFutureDays
      && c.paths == map["inputs" := JStr("inputs"), "solutions" := JStr("solutions")]
      && c.dayLayout == JStr("tabbed")
  {
    DefaultScalars(today);
    DefaultPaths(today);
  }

  lemma DefaultScalars(today: Date)
    ensures var c := Resolve(AocConfig, AocConfig, today);
      && c.year == 2025
      && c.theme == Dark
      && c.autoLoadExample && c.autoLoadSolutions
      && c.nav.showDisabledFutureDays
      && c.dayLayout == JStr("tabbed")
  {
    DefaultYear(today);
    DefaultTheme(today);
    DefaultFlags(today);
    DefaultLayout(today);
  }

  lemma DefaultYear(today: Date)
    ensures Resolve(AocConfig, AocConfig, today).year == 2025
  {
    assert Member(AocConfig, "year") == Some(JNum(2025));
  }

  lemma DefaultTheme(today: Date)
    ensures Resolve(AocConfig, AocConfig, today).theme == Dark
  {
    assert Member(AocConfig, "theme") == None;
  }

  lemma DefaultFlags(today: Date)
    ensures var c := Resolve(AocConfig, AocConfig, today);
      c.autoLoadExample && c.autoLoadSolutions && c.nav.showDisabledFutureDays
  {
    assert Member(AocConfig, "autoLoadExample") == Some(JBool(true));
    assert Member(AocConfig, "autoLoadSolutions") == Some(JBool(true));
    var nav := map["maxAvailableDay" := JNum(12), "showDisabledFutureDays" := JBool(true)];
    assert Member(AocConfig, "nav") == Some(JObj(nav));
    assert Member(JObj(nav), "showDisabledFutureDays") == Some(JBool(true));
  }

  lemma DefaultLayout(today: Date)
    ensures Resolve(AocConfig, AocConfig, today).dayLayout == JStr("tabbed")
  {
  }

  lemma DefaultPaths(today: Date)
    ensures Resolve(AocConfig, AocConfig, today).paths == map["inputs" := JStr("inputs"), "solutions" := JStr("solutions")]
  {
    var defaults := map["inputs" := JStr("inputs"), "solutions" := JStr("solutions")];
    assert Member(AocConfig, "paths") == Some(JObj(defaults));
    assert defaults + defaults == defaults;
  }

  /** The declared `currentYear` and `nav.maxAvailableDay` never reach the
      resolved settings: both come from the clock. */
  lemma PristineDerivedFromClock(today: Date)
    ensures var c := Get(Pristine, AocConfig, today).0;
      && c.currentYear == today.year
      && c.nav.maxAvailableDay == UnlockedDays(2025, 12, today)
  {
    PristineResolution(today);
  }

  /** On 5 December 2025 the defaults unlock five days, not the declared
      twelve; in 2026 the whole 2025 contest is open. */
  lemma DeclaredMaxAvailableDayIgnored()
    ensures Get(Pristine, AocConfig, Date(2025, 11, 5)).0.nav.maxAvailableDay == 5
    ensures Get(Pristine, AocConfig, Date(2026, 0, 1)).0.nav.maxAvailableDay == 12
    ensures Get(Pristine, AocConfig, Date(2025, 10, 30)).0.nav.maxAvailableDay == 0
  {
    PristineDerivedFromClock(Date(2025, 11, 5));
    PristineDerivedFromClock(Date(2026, 0, 1));
    PristineDerivedFromClock(Date(2025, 10, 30));
  }
}

=== FILE: day.dfy ===
/**
 The pure decisions of the day page in `assets/js/aoc.day.js`: which layout
 template `setupDay` loads and when the loaded one is reused, the welcome
 page, the URLs and file names built for a day, the order in which a part's
 solution source is looked for, what the output fields show, and the guards
 of the run and save buttons.

 A server is a function from URL to the outcome of fetching it, so a request
 repeated during one load gets the same answer. The container stands for
 `#dayContainer` with its `data-template-loaded`/`data-template-name`
 attributes.
 */
module DayPage {
  import opened Wrappers
  import opened JsText
  import opened JsonValue
  import Settings
  import Editors

  /** What a `fetch` comes to: a successful response and its text, a
      response that is not ok, or a rejected promise. */
  datatype Fetch = Ok(text: string) | NotFound | Threw

  type Server = string -> Fetch

  /** `fetchTextOrNull`: the text of an ok response, `null` otherwise. */
  function FetchTextOrNull(f: Fetch): (r: Option<string>)
    ensures r.Some? <==> f.Ok?
    ensures r.Some? ==> r.value == f.text
  {
    if f.Ok? then Some(f.text) else None
  }

  // ---------------------------------------------------------------------------
  // Layout and template cache
  // ---------------------------------------------------------------------------

  /** `(config?.dayLayout || '').toLowerCase()`. A truthy layout that is not a
      string has no `toLowerCase`, so `setupDay` throws: `None`. */
  function LayoutOf(dayLayout: Option<Json>): (r: Option<string>)
    ensures !TruthyOpt(dayLayout) ==> r == Some("")
    ensures TruthyOpt(dayLayout) ==> (r.Some? <==> dayLayout.value.JStr?)
    ensures r.Some? && TruthyOpt(dayLayout) ==> r.value == ToLower(dayLayout.value.s)
  {
    if !TruthyOpt(dayLayout) then Some("")
    else if dayLayout.value.JStr? then Some(ToLower(dayLayout.value.s))
    else None
  }

  /** The template file of a lower-cased layout. */
  function TemplateFor(layout: string): (file: string)
    ensures file == "day-tabbed.html" <==> layout == "tabbed"
    ensures file == "day.html" <==> layout != "tabbed"
  {
    if layout == "tabbed" then "day-tabbed.html" else "day.html"
  }

  /** The layout name is compared without regard to ASCII case: a layout
      and its lower-cased form select the same template. */
  lemma LayoutIgnoresCase(s: string)
    ensures LayoutOf(Some(JStr(s))) == LayoutOf(Some(JStr(ToLower(s))))
  {
    var t := ToLower(s);
    assert ToLower(t) == t by {
      forall i | 0 <= i < |t| ensures ToLower(t)[i] == t[i] {
        assert t[i] == LowerChar(s[i]);
      }
    }
  }

  /** A missing or empty layout selects the plain page, and a layout that
      is a truthy non-string stops the page. */
  lemma LayoutDefaults(n: int)
    requires n != 0
    ensures TemplateFor(LayoutOf(None).value) == "day.html"
    ensures TemplateFor(LayoutOf(Some(JStr(""))).value) == "day.html"
    ensures LayoutOf(Some(JNum(n))).None?
  {
  }

  /** The layout the resolver returns is never falsy, and without any layout
      anywhere it is the tabbed one. */
  lemma ResolvedLayout(merged: Json, cfg: Json, today: Settings.Date)
    ensures Truthy(Settings.Resolve(merged, cfg, today).dayLayout)
    ensures Member(merged, "dayLayout").None? && Member(cfg, "dayLayout").None? ==>
              TemplateFor(LayoutOf(Some(Settings.Resolve(merged, cfg, today).dayLayout)).value) == "day-tabbed.html"
  {
    if Member(merged, "dayLayout").None? && Member(cfg, "dayLayout").None? {
      var c := Settings.Resolve(merged, cfg, today);
      assert c.dayLayout == JStr("tabbed");
      TabbedTemplate(c.dayLayout);
    }
  }

  lemma TabbedTemplate(j: Json)
    requires j == JStr("tabbed")
    ensures TemplateFor(LayoutOf(Some(j)).value) == "day-tabbed.html"
  {
    TabbedIsLower(j.s);
  }

  lemma TabbedIsLower(s: string)
    requires s == "tabbed"
    ensures ToLower(s) == s
  {
    forall i | 0 <= i < |s| ensures LowerChar(s[i]) == s[i] {
    }
  }

  /** What the container shows: a fetched file's text, an error message, or
      nothing yet. */
  datatype Content = File(name: string, text: string) | Message(text: string) | Blank

  /** The container, its loaded flag (the attribute equals `'true'`) and the
      template name (`''` when absent). */
  datatype Container = Container(content: Content, loaded: bool, name: string)

  const Initial: Container := Container(Blank, false, "")

  const TemplateError: string := "<p class='text-danger'>Failed to load day template.</p>"
  const WelcomeError: string := "<p class='text-danger'>Failed to load welcome content.</p>"

  /** What the cache flags promise: a container marked loaded shows the file
      it is marked with. */
  predicate Consistent(c: Container) {
    c.loaded ==> c.content.File? && c.content.name == c.name
  }

  /** `ensureTemplateLoaded(file)`: nothing is fetched when the container is
      already loaded with this file; otherwise the file's text is shown and
      recorded, and a failed load shows the error and clears both flag and
      name. The second component says whether the file was requested. */
  function EnsureTemplate(c: Container, file: string, server: Server): (r: (Container, bool))
    ensures !r.1 <==> c.loaded && c.name == file
    ensures !r.1 ==> r.0 == c
    ensures r.1 && server(file).Ok? ==> r.0 == Container(File(file, server(file).text), true, file)
    ensures r.1 && !server(file).Ok? ==> r.0 == Container(Message(TemplateError), false, "")
  {
    if c.loaded && c.name == file then (c, false)
    else
      match server(file)
      case Ok(text) => (Container(File(file, text), true, file), true)
      case _ => (Container(Message(TemplateError), false, ""), true)
  }

  /** On a consistent container, after `ensureTemplateLoaded(file)` the page
      shows that file exactly when the flag says it is loaded, and a
      second call fetches nothing exactly when the first one succeeded. */
  lemma EnsureTemplateShowsFile(c: Container, file: string, server: Server)
    requires Consistent(c)
    ensures var d := EnsureTemplate(c, file, server).0;
      && Consistent(d)
      && (d.loaded <==> d.content.File? && d.content.name == file)
      && (!EnsureTemplate(d, file, server).1 <==> d.loaded)
  {
  }

  /** `showWelcome` as written: a failed fetch replaces the content with the
      error message but leaves the template flags as they were. */
  function ShowWelcomeAsWritten(c: Container, server: Server): (r: Container)
    ensures server("welcome.html").Ok? ==> !r.loaded && r.name == ""
    ensures !server("welcome.html").Ok? ==> r.loaded == c.loaded && r.name == c.name
    ensures r.content.File? ==> r.content.name == "welcome.html"
  {
    match server("welcome.html")
    case Ok(text) => Container(File("welcome.html", text), false, "")
    case _ => c.(content := Message(WelcomeError))
  }

  /** After a day page was shown, a welcome page that fails to load leaves
      the container marked as holding the day template, so the next visit
      to a day skips the fetch and the day page keeps showing the welcome
      error. */
  lemma WelcomeFailureKeepsStaleTemplate()
    ensures var server: Server := (_ => Threw);
      var day := Container(File("day-tabbed.html", "<day/>"), true, "day-tabbed.html");
      var afterWelcome := ShowWelcomeAsWritten(day, server);
      && Consistent(day)
      && !Consistent(afterWelcome)
      && EnsureTemplate(afterWelcome, "day-tabbed.html", server) == (afterWelcome, false)
      && afterWelcome.content == Message(WelcomeError)
  {
  }

  /** `showWelcome` with the cache flags cleared on both paths, since the
      day template is no longer in the container either way. */
  function ShowWelcome(c: Container, server: Server): (r: Container)
    ensures !r.loaded && r.name == ""
    ensures server("welcome.html").Ok? ==> r.content == File("welcome.html", server("welcome.html").text)
    ensures !server("welcome.html").Ok? ==> r.content == Message(WelcomeError)
  {
    match server("welcome.html")
    case Ok(text) => Container(File("welcome.html", text), false, "")
    case _ => Container(Message(WelcomeError), false, "")
  }

  /** The corrected welcome page keeps the cache honest, so the next day
      visit always fetches its template again. */
  lemma WelcomeThenDayReloads(c: Container, file: string, server: Server)
    ensures Consistent(ShowWelcome(c, server))
    ensures EnsureTemplate(ShowWelcome(c, server), file, server).1
  {
  }

  /** The two versions agree whenever the welcome page loads. */
  lemma WelcomeVersionsAgreeOnSuccess(c: Container, server: Server)
    requires server("welcome.html").Ok?
    ensures ShowWelcomeAsWritten(c, server) == ShowWelcome(c, server)
  {
  }

  // ---------------------------------------------------------------------------
  // URLs and file names
  // ---------------------------------------------------------------------------

  /** A path setting as a template literal writes it; a missing one reads
      `undefined`. */
  function PathText(paths: map<string, Json>, key: string): string {
    if key in paths then ToJsString(paths[key]) else "undefined"
  }

  /** The example input of a day. */
  function ExamplePath(inputs: string, year: int, day: int): string {
    inputs + "/" + IntToString(year) + "/" + IntToString(day) + "-input.txt"
  }

  const Site: string := "https://adventofcode.com/"

  /** The official puzzle page. */
  function InstructionsUrl(year: int, day: int): string {
    Site + IntToString(year) + "/day/" + IntToString(day)
  }

  /** The official input download. */
  function InputUrl(year: int, day: int): (u: string)
    ensures u == InstructionsUrl(year, day) + "/input"
  {
    Site + IntToString(year) + "/day/" + IntToString(day) + "/input"
  }

  /** The document title. */
  function PageTitle(year: int, day: int): string {
    "aoc-jsui | Day " + IntToString(day) + " | " + IntToString(year)
  }

  /** The name a saved solution is given. */
  function SaveName(day: int, part: int): string {
    IntToString(day) + "-" + IntToString(part) + ".js"
  }

  /** A part's solution for a day. It sits under the year's directory with
      the very name `saveSolution` gives it, so a saved file dropped there is
      what the next visit loads. */
  function DayFile(solutions: string, year: int, day: int, part: int): (f: string)
    ensures f == solutions + "/" + IntToString(year) + "/" + SaveName(day, part)
  {
    solutions + "/" + IntToString(year) + "/" + IntToString(day) + "-" + IntToString(part) + ".js"
  }

  /** A part's starting template. */
  function TemplateFile(solutions: string, part: int): string {
    solutions + "/solution-" + IntToString(part) + ".js"
  }

  /** A decimal numeral followed by text that does not start with a digit
      determines both the number and the text. */
  lemma DecThenTextUnique(a: nat, b: nat, t1: string, t2: string)
    requires Dec(a) + t1 == Dec(b) + t2
    requires |t1| > 0 && !IsDigit(t1[0]) && |t2| > 0 && !IsDigit(t2[0])
    ensures a == b && t1 == t2
  {
    DigitPrefixOfDec(a, t1);
    DigitPrefixOfDec(b, t2);
    DecInjective(a, b);
    assert t1 == (Dec(a) + t1)[|Dec(a)|..];
    assert t2 == (Dec(b) + t2)[|Dec(b)|..];
  }

  lemma SaveNameShape(d: nat, p: nat)
    ensures SaveName(d, p) == Dec(d) + ("-" + (Dec(p) + ".js"))
    ensures ("-" + (Dec(p) + ".js"))[1..] == Dec(p) + ".js"
  {
    var a, b := IntToString(d), IntToString(p);
    assert a == Dec(d) && b == Dec(p);
    ConcatRight(a, "-", b, ".js");
    AfterFirst("-", Dec(p) + ".js");
  }

  lemma ConcatRight(a: string, b: string, c: string, e: string)
    ensures a + b + c + e == a + (b + (c + e))
  {
  }

  lemma AfterFirst(c: string, x: string)
    requires |c| == 1
    ensures (c + x)[1..] == x
  {
  }

  /** Different days or parts are saved under different names. */
  lemma SaveNameInjective(d1: nat, p1: nat, d2: nat, p2: nat)
    requires SaveName(d1, p1) == SaveName(d2, p2)
    ensures d1 == d2 && p1 == p2
  {
    SaveNameShape(d1, p1);
    SaveNameShape(d2, p2);
    var t1 := "-" + (Dec(p1) + ".js");
    var t2 := "-" + (Dec(p2) + ".js");
    DecThenTextUnique(d1, d2, t1, t2);
    DecThenTextUnique(p1, p2, ".js", ".js");
  }

  lemma UrlShape(year: nat, day: nat)
    ensures InstructionsUrl(year, day) == Site + (Dec(year) + "/day/" + Dec(day))
  {
  }

  lemma JoinThree(a: string, b: string, c: string, sep: char)
    ensures Join([a, b, c], sep) == a + [sep] + b + [sep] + c
  {
    var parts := [a, b, c];
    assert parts[1..] == [b, c];
    assert [b, c][1..] == [c];
    assert Join([b, c], sep) == b + [sep] + c;
    assert Join(parts, sep) == a + [sep] + (b + [sep] + c);
  }

  /** Two slash-free names around `/day/` split back into three parts. */
  lemma SplitDayPath(a: string, b: string)
    requires '/' !in a && '/' !in b
    ensures Split(a + "/day/" + b, '/') == [a, "day", b]
  {
    JoinThree(a, "day", b, '/');
    assert a + "/day/" + b == a + ['/'] + "day" + ['/'] + b;
    var parts := [a, "day", b];
    assert forall i :: 0 <= i < |parts| ==> '/' !in parts[i];
    SplitJoin(parts, '/');
  }

  /** The puzzle page names its year and day: past the site prefix, the
      path splits into the year, `day` and the day. */
  lemma InstructionsUrlNamesDay(year: nat, day: nat)
    ensures var u := InstructionsUrl(year, day);
      && u[..|Site|] == Site
      && Split(u[|Site|..], '/') == [Dec(year), "day", Dec(day)]
  {
    var tail := Dec(year) + "/day/" + Dec(day);
    UrlShape(year, day);
    NoCharInDec(year, '/');
    NoCharInDec(day, '/');
    SplitDayPath(Dec(year), Dec(day));
    assert (Site + tail)[|Site|..] == tail;
  }

  // ---------------------------------------------------------------------------
  // Loading a part's solution
  // ---------------------------------------------------------------------------

  /** The catch branch of `loadSolutionText`: the template, if it answers ok,
      else `''`. */
  function TemplateOrEmpty(f: Fetch): string {
    if f.Ok? then f.text else ""
  }

  /** `loadSolutionText`: the code put into the editor and the URLs requested,
      in order. Without auto-loading nothing is requested. Otherwise the day
      file is requested first; the template is requested only if the day
      file is not ok, and requested a second time only when it throws after a
      missing day file (the inner throw lands in the same catch). */
  function LoadSolution(autoLoad: bool, solutions: string, year: int, day: int, part: int, server: Server)
    : (r: (string, seq<string>))
    ensures !autoLoad ==> r == ("", [])
    ensures autoLoad ==> |r.1| >= 1 && r.1[0] == DayFile(solutions, year, day, part)
    ensures autoLoad ==>
      (|r.1| >= 2 <==> !server(DayFile(solutions, year, day, part)).Ok?)
    ensures forall i :: 1 <= i < |r.1| ==> r.1[i] == TemplateFile(solutions, part)
    ensures |r.1| == 3 <==> autoLoad && server(DayFile(solutions, year, day, part)).NotFound?
                                     && server(TemplateFile(solutions, part)).Threw?
    ensures |r.1| <= 3
  {
    if !autoLoad then ("", [])
    else
      var dayFile := DayFile(solutions, year, day, part);
      var templateFile := TemplateFile(solutions, part);
      match server(dayFile)
      case Ok(code) => (code, [dayFile])
      case NotFound =>
        (match server(templateFile)
         case Ok(code) => (code, [dayFile, templateFile])
         case NotFound => ("", [dayFile, templateFile])
         case Threw => (TemplateOrEmpty(server(templateFile)), [dayFile, templateFile, templateFile]))
      case Threw => (TemplateOrEmpty(server(templateFile)), [dayFile, templateFile])
  }

  /** The text of the first file that answers ok, or `''`. */
  function FirstAvailable(files: seq<string>, server: Server): (s: string)
    ensures |files| == 0 ==> s == ""
  {
    if |files| == 0 then ""
    else if server(files[0]).Ok? then server(files[0]).text
    else FirstAvailable(files[1..], server)
  }

  /** The code loaded is the first of the day file and the template that is
      available, whether the day file was missing or its request threw. */
  lemma LoadSolutionIsFirstAvailable(solutions: string, year: int, day: int, part: int, server: Server)
    ensures LoadSolution(true, solutions, year, day, part, server).0
         == FirstAvailable([DayFile(solutions, year, day, part), TemplateFile(solutions, part)], server)
  {
    var files := [DayFile(solutions, year, day, part), TemplateFile(solutions, part)];
    assert files[1..][1..] == [];
  }

  /** A day file whose request throws costs exactly one template request. */
  lemma TemplateTriedOnceAfterThrow(solutions: string, year: int, day: int, part: int, server: Server)
    requires server(DayFile(solutions, year, day, part)).Threw?
    ensures LoadSolution(true, solutions, year, day, part, server).1
         == [DayFile(solutions, year, day, part), TemplateFile(solutions, part)]
  {
  }

  // ---------------------------------------------------------------------------
  // Example input, outputs and buttons
  // ---------------------------------------------------------------------------

  /** The input box after `applyDayVars`: cleared, then filled with the
      example when auto-loading is on, or left empty when it is missing. */
  function ExampleInput(autoLoadExample: bool, path: string, server: Server): (v: string)
    ensures !autoLoadExample ==> v == ""
    ensures autoLoadExample && server(path).Ok? ==> v == server(path).text
    ensures autoLoadExample && !server(path).Ok? ==> v == ""
  {
    if autoLoadExample then FetchTextOrNull(server(path)).GetOr("") else ""
  }

  /** The example link: the same text, and an alert when the file is
      missing. */
  function ExampleClick(path: string, server: Server): (r: (string, bool))
    ensures r.1 <==> !server(path).Ok?
  {
    var txt := FetchTextOrNull(server(path));
    (txt.GetOr(""), txt.None?)
  }

  /** Auto-loading fills in what clicking the example link would. */
  lemma AutoLoadMatchesClick(path: string, server: Server)
    ensures ExampleInput(true, path, server) == ExampleClick(path, server).0
  {
  }

  /** `setPart1`/`setPart2`: `''` for `undefined`, else `String(result)`. */
  function OutputText(result: Option<Json>): (s: string)
    ensures result.None? ==> s == ""
    ensures result.Some? && result.value.JStr? ==> s == result.value.s
  {
    if result.None? then "" else ToJsString(result.value)
  }

  /** An integer answer shown in an output field reads back as that
      integer. */
  lemma OutputOfInteger(n: int)
    ensures ParseInt(OutputText(Some(JNum(n)))) == Some(n)
  {
    ParseIntOfIntString(n);
  }

  /** `hasInputOrAlert`: the input, `''` when the box is missing, must have a
      non-whitespace character. */
  predicate HasInput(input: Option<string>) {
    Trim(input.GetOr("")) != ""
  }

  /** A run button: refused on blank input, otherwise `runSolution` for that
      part. */
  function RunButton(input: Option<string>, editors: Editors.State, part: int): (r: Editors.Run)
    requires part == 1 || part == 2
    ensures r.Evaluate? ==> HasInput(input)
    ensures r.Evaluate? ==> r.code == Editors.GetCode(editors, part)
  {
    if !HasInput(input) then Editors.Skip else Editors.RunSolution(editors, Some(part))
  }

  /** Code runs exactly when both the input and the code have a
      non-whitespace character. */
  lemma RunNeedsInputAndCode(input: Option<string>, editors: Editors.State, part: int)
    requires part == 1 || part == 2
    ensures RunButton(input, editors, part).Evaluate?
        <==> !AllWhitespace(input.GetOr("")) && !AllWhitespace(Editors.GetCode(editors, part))
  {
    BlankIffAllWhitespace(input.GetOr(""));
    Editors.RunsIffCodeNotBlank(editors, part);
  }

  /** What `saveSolution` does. */
  datatype Save = NothingToSave | SaveAs(name: string, contents: string)

  function SaveSolution(editors: Editors.State, day: int, part: int): (r: Save)
    ensures r.SaveAs? <==> !AllWhitespace(Editors.GetCode(editors, part))
    ensures r.SaveAs? ==> r.name == SaveName(day, part) && r.contents == Editors.GetCode(editors, part)
  {
    var code := Editors.GetCode(editors, part);
    BlankIffAllWhitespace(code);
    if Trim(code) == "" then NothingToSave else SaveAs(SaveName(day, part), code)
  }

  // ---------------------------------------------------------------------------
  // setupDay
  // ---------------------------------------------------------------------------

  /** The parts of the page `setupDay` changes. */
  datatype Page = Page(container: Container, editors: Editors.State, input: string, output1: string, output2: string)

  /** `setupDay(config, day)` with the resolver's settings: the layout's
      template, cleared editors, cleared fields, the example input and both
      parts' solutions. `None` when the layout setting makes it throw.
      The editors' textareas are taken from `p.editors`, independently of
      the template just ensured: after a failed template load, or a load
      skipped because of stale flags, the model still fills in editors that
      the page may no longer contain. */
  function SetupDay(p: Page, config: Settings.Config, day: int, server: Server,
                    libraryLoaded: bool, bodyAttr: Option<string>): (r: Option<Page>)
    ensures r.Some? <==> LayoutOf(Some(config.dayLayout)).Some?
    ensures r.Some? ==> r.value.output1 == "" && r.value.output2 == ""
    ensures r.Some? ==> !Editors.AnyFullscreen(r.value.editors) && r.value.editors.fullscreenPart.None?
    ensures r.Some? ==>
              r.value.container == EnsureTemplate(p.container, TemplateFor(LayoutOf(Some(config.dayLayout)).value), server).0
  {
    match LayoutOf(Some(config.dayLayout))
    case None => None
    case Some(layout) =>
      var container := EnsureTemplate(p.container, TemplateFor(layout), server).0;
      var cleared := Editors.Reset(Editors.Init(p.editors, libraryLoaded, bodyAttr));
      var input := ExampleInput(config.autoLoadExample,
                                ExamplePath(PathText(config.paths, "inputs"), config.year, day), server);
      var solutions := PathText(config.paths, "solutions");
      var code1 := LoadSolution(config.autoLoadSolutions, solutions, config.year, day, 1, server).0;
      var code2 := LoadSolution(config.autoLoadSolutions, solutions, config.year, day, 2, server).0;
      var editors := Editors.SetCode(Editors.SetCode(cleared, 1, Some(code1)), 2, Some(code2));
      Some(Page(container, editors, input, "", ""))
  }

  /** After `setupDay` each part that has a textarea or an editor holds the
      first available of its day file and template, or `''` when
      auto-loading is off. */
  lemma SetupDayLoadsSolutions(p: Page, config: Settings.Config, day: int, server: Server,
                               libraryLoaded: bool, bodyAttr: Option<string>, part: int)
    requires part == 1 || part == 2
    requires Editors.EditorOf(p.editors, part).Some? || Editors.TextareaOf(p.editors, part).Some?
    requires LayoutOf(Some(config.dayLayout)).Some?
    ensures var r := SetupDay(p, config, day, server, libraryLoaded, bodyAttr).value;
      var solutions := PathText(config.paths, "solutions");
      && (config.autoLoadSolutions ==>
            Editors.GetCode(r.editors, part)
            == FirstAvailable([DayFile(solutions, config.year, day, part), TemplateFile(solutions, part)], server))
      && (!config.autoLoadSolutions ==> Editors.GetCode(r.editors, part) == "")
  {
    var solutions := PathText(config.paths, "solutions");
    var init := Editors.Init(p.editors, libraryLoaded, bodyAttr);
    var cleared := Editors.Reset(init);
    assert Editors.EditorOf(cleared, part).Some? || Editors.TextareaOf(cleared, part).Some?;
    var code1 := LoadSolution(config.autoLoadSolutions, solutions, config.year, day, 1, server).0;
    var code2 := LoadSolution(config.autoLoadSolutions, solutions, config.year, day, 2, server).0;
    var s1 := Editors.SetCode(cleared, 1, Some(code1));
    var s2 := Editors.SetCode(s1, 2, Some(code2));
    if part == 1 {
      Editors.SetThenGet(cleared, 1, Some(code1));
      assert Editors.GetCode(s2, 1) == Editors.GetCode(s1, 1);
    } else {
      assert Editors.EditorOf(s1, 2).Some? || Editors.TextareaOf(s1, 2).Some?;
      Editors.SetThenGet(s1, 2, Some(code2));
    }
    if config.autoLoadSolutions {
      LoadSolutionIsFirstAvailable(solutions, config.year, day, part, server);
    }
  }
}

=== FILE: dial.dfy ===
/**
 The safe-dial puzzle of `solutions/2025/1-2.js`: a dial numbered 0 to 99
 starts at 50; each input line names a direction and a number of clicks;
 the answer counts every click that leaves the dial at 0.
 */
module Dial {
  import opened JsText
  import PuzzleInput

  const Start: int := 50
  const Positions: int := 100

  /** One input line: `R` turns right, anything else (including an empty
      line) turns left; the clicks are `Number` of the rest of the line, and
      a negative count or `NaN` makes no click. */
  datatype Rotation = Rotation(right: bool, clicks: nat)

  function ParseRotation(line: string): (r: Rotation)
    ensures r.right <==> |line| > 0 && line[0] == 'R'
    ensures r.clicks > 0 <==> (|line| > 0 && JsNumber(line[1..]).Some? && JsNumber(line[1..]).value > 0)
    ensures r.clicks > 0 ==> r.clicks == JsNumber(line[1..]).value
  {
    var rest := if |line| > 0 then line[1..] else "";
    var clicks := match JsNumber(rest)
      case Some(n) => if n > 0 then n else 0
      case None => 0;
    Rotation(|line| > 0 && line[0] == 'R', clicks)
  }

  /** A written-out instruction reads back as that many clicks in its
      direction. */
  lemma ParseRotationText(c: char, n: nat)
    ensures ParseRotation([c] + Dec(n)) == Rotation(c == 'R', n)
  {
    assert ([c] + Dec(n))[1..] == Dec(n);
    JsNumberOfDec(n);
  }

  /** One click. */
  function Click(dial: int, right: bool): (d: int)
    requires 0 <= dial < Positions
    ensures 0 <= d < Positions
    ensures d == (if right then dial + 1 else dial - 1) % Positions
  {
    if right then (dial + 1) % Positions else (dial - 1 + Positions) % Positions
  }

  /** `clicks` clicks from `dial`: where the dial ends and how many clicks
      left it at 0. */
  function Turn(dial: int, right: bool, clicks: nat): (r: (int, nat))
    requires 0 <= dial < Positions
    ensures 0 <= r.0 < Positions
    ensures r.1 <= clicks
  {
    if clicks == 0 then (dial, 0)
    else
      var (d, zeros) := Turn(dial, right, clicks - 1);
      var next := Click(d, right);
      (next, zeros + if next == 0 then 1 else 0)
  }

  /** The rotations in order from the start position: the final dial and the
      password. */
  function Run(rotations: seq<Rotation>): (r: (int, nat))
    ensures 0 <= r.0 < Positions
  {
    if |rotations| == 0 then (Start, 0)
    else
      var (d, password) := Run(rotations[..|rotations| - 1]);
      var last := rotations[|rotations| - 1];
      var (e, zeros) := Turn(d, last.right, last.clicks);
      (e, password + zeros)
  }

  function Rotations(input: string): seq<Rotation> {
    var lines := PuzzleInput.Lines(input);
    seq(|lines|, i requires 0 <= i < |lines| => ParseRotation(lines[i]))
  }

  /** The solution's loops: for every line, click by click. */
  method Solve(input: string) returns (password: nat)
    ensures password == Run(Rotations(input)).1
  {
    password := CountZeros(Rotations(input));
  }

  /** The outer loop, over the parsed lines. */
  method CountZeros(rotations: seq<Rotation>) returns (password: nat)
    ensures password == Run(rotations).1
  {
    var dial := Start;
    password := 0;
    var i := 0;
    while i < |rotations|
      invariant 0 <= i <= |rotations|
      invariant dial == Run(rotations[..i]).0
      invariant password == Run(rotations[..i]).1
    {
      var r := rotations[i];
      var zeros;
      dial, zeros := Clicks(dial, r.right, r.clicks);
      password := password + zeros;
      RunStep(rotations, i);
      i := i + 1;
    }
    assert rotations[..i] == rotations;
  }

  /** The inner loop: one rotation, click by click. */
  method Clicks(dial0: int, right: bool, clicks: nat) returns (dial: int, zeros: nat)
    requires 0 <= dial0 < Positions
    ensures (dial, zeros) == Turn(dial0, right, clicks)
  {
    dial, zeros := dial0, 0;
    var k := 0;
    while k < clicks
      invariant 0 <= k <= clicks
      invariant (dial, zeros) == Turn(dial0, right, k)
    {
      if right {
        dial := (dial + 1) % 100;
      } else {
        dial := (dial - 1 + 100) % 100;
      }
      if dial == 0 {
        zeros := zeros + 1;
      }
      k := k + 1;
    }
  }

  lemma RunStep(rotations: seq<Rotation>, i: nat)
    requires i < |rotations|
    ensures var (d, p) := Run(rotations[..i]);
      var r := rotations[i];
      Run(rotations[..i + 1]) == (Turn(d, r.right, r.clicks).0, p + Turn(d, r.right, r.clicks).1)
  {
    assert rotations[..i + 1][..i] == rotations[..i];
  }

  // ---------------------------------------------------------------------------
  // Counting without clicking
  // ---------------------------------------------------------------------------

  /** Turning right from `dial` by `n` clicks ends at `dial + n` modulo 100
      and passes 0 once per completed hundred. */
  lemma {:induction false} TurnRight(dial: int, n: nat)
    requires 0 <= dial < Positions
    ensures Turn(dial, true, n) == ((dial + n) % Positions, (dial + n) / Positions)
    decreases n
  {
    if n > 0 {
      TurnRight(dial, n - 1);
      StepUp(dial + n);
    }
  }

  /** Turning left is turning right on the mirrored dial: position `p`
      becomes `(100 - p) % 100`. */
  lemma {:induction false} TurnLeft(dial: int, n: nat)
    requires 0 <= dial < Positions
    ensures Turn(dial, false, n) == ((dial - n) % Positions, ((Positions - dial) % Positions + n) / Positions)
    decreases n
  {
    if n > 0 {
      TurnLeft(dial, n - 1);
      var prev := Turn(dial, false, n - 1);
      LeftStep(dial, n, prev.0, prev.1);
    }
  }

  /** One more click left, in closed form. */
  lemma LeftStep(dial: int, n: nat, d: int, z: nat)
    requires 0 <= dial < Positions && n >= 1
    requires d == (dial - (n - 1)) % Positions && z == ((Positions - dial) % Positions + (n - 1)) / Positions
    ensures Click(d, false) == (dial - n) % Positions
    ensures z + (if Click(d, false) == 0 then 1 else 0) == ((Positions - dial) % Positions + n) / Positions
  {
    var m := (Positions - dial) % Positions;
    StepDown(dial - (n - 1));
    StepUp(m + n);
    MirrorZero(dial, m, n);
  }

  /** One click left from `a` modulo 100 is `a - 1` modulo 100. */
  lemma StepDown(a: int)
    ensures (a % Positions - 1 + Positions) % Positions == (a - 1) % Positions
  {
  }

  /** A counter reaching `k` has just completed a hundred exactly when `k`
      is a multiple of 100. */
  lemma StepUp(k: int)
    requires k >= 1
    ensures (k - 1) % Positions + 1 == Positions ==> k % Positions == 0
    ensures (k - 1) / Positions + (if k % Positions == 0 then 1 else 0) == k / Positions
    ensures (k - 1) % Positions + 1 < Positions ==> k % Positions == (k - 1) % Positions + 1
  {
  }

  lemma MirrorZero(dial: int, m: int, n: int)
    requires 0 <= dial < Positions && m == (Positions - dial) % Positions
    ensures (dial - n) % Positions == 0 <==> (m + n) % Positions == 0
  {
    if dial == 0 {
      assert m == 0;
    } else {
      assert m == Positions - dial;
      assert m + n == Positions - (dial - n);
    }
  }

  /** Where one rotation leaves the dial, computed without clicking. */
  function EndOf(dial: int, r: Rotation): int {
    if r.right then (dial + r.clicks) % Positions else (dial - r.clicks) % Positions
  }

  /** The number of zeros of one rotation, computed without clicking. */
  function ZerosOf(dial: int, r: Rotation): nat
    requires 0 <= dial < Positions
  {
    if r.right then (dial + r.clicks) / Positions
    else ((Positions - dial) % Positions + r.clicks) / Positions
  }

  /** Each rotation moves the dial to its closed-form end and adds to the
      password the zeros counted without clicking, so the password never
      decreases along the input. */
  lemma RunAddsZeros(rotations: seq<Rotation>, r: Rotation)
    ensures var (d, p) := Run(rotations);
      Run(rotations + [r]) == (EndOf(d, r), p + ZerosOf(d, r)) && p + ZerosOf(d, r) >= p
  {
    var rs := rotations + [r];
    assert rs[..|rs| - 1] == rotations;
    var (d, p) := Run(rotations);
    if r.right { TurnRight(d, r.clicks); } else { TurnLeft(d, r.clicks); }
  }
}

=== FILE: doubled.dfy ===
/**
 The "doubled ID" puzzle of `solutions/2025/2-1.js`: for each range, add up
 the numbers whose decimal form is some block of digits written twice. The
 solution does not test every number of the range: it builds the doubled
 numbers `xx` half-length by half-length and stops a half-length once they
 pass the upper bound.
 */
module DoubledIds {
  import opened Wrappers
  import opened JsText
  import opened PuzzleInput

  // ---------------------------------------------------------------------------
  // Doubled numbers
  // ---------------------------------------------------------------------------

  /** `parseInt(x.toString() + x.toString(), 10)`. */
  function Dbl(x: nat): nat {
    Glue(x, x)
  }

  /** The digits of `x` followed by the digits of `y`, read as a number. */
  function Glue(x: nat, y: nat): nat
    decreases y
  {
    if y < 10 then 10 * x + y else 10 * Glue(x, y / 10) + y % 10
  }

  lemma {:induction false} GlueValue(x: nat, y: nat)
    ensures Glue(x, y) == x * Pow10(|Dec(y)|) + y
    decreases y
  {
    if y >= 10 {
      GlueValue(x, y / 10);
      var p := Pow10(|Dec(y / 10)|);
      assert |Dec(y)| == |Dec(y / 10)| + 1;
      assert 10 * (x * p) == x * (10 * p);
    }
  }

  /** Reading the text of `x` written twice gives `Dbl(x)`. */
  lemma DblValue(x: nat)
    ensures Dbl(x) == x * Pow10(|Dec(x)|) + x
    ensures AllDigits(Dec(x) + Dec(x)) && Dbl(x) == ValueOf(Dec(x) + Dec(x))
  {
    GlueValue(x, x);
    ValueOfAppend(Dec(x), Dec(x));
    ValueOfDec(x);
  }

  /** `parseInt` reads the written-twice text as `Dbl(x)`. */
  lemma DblParses(x: nat)
    requires x >= 1
    ensures ParseInt(Dec(x) + Dec(x)) == Some(Dbl(x))
  {
    DblDec(x);
    ParseIntOfDec(Dbl(x), "");
    assert Dec(Dbl(x)) + "" == Dec(Dbl(x));
  }

  /** A number whose decimal form is two equal halves. */
  predicate IsDoubled(n: int) {
    n >= 1 && var s := Dec(n); |s| % 2 == 0 && s[..|s| / 2] == s[|s| / 2..]
  }

  /** The number the first half of `n`'s decimal form denotes. */
  function Half(n: nat): nat {
    var s := Dec(n);
    ValueOf(s[..|s| / 2])
  }

  lemma DblDec(x: nat)
    requires x >= 1
    ensures Dec(Dbl(x)) == Dec(x) + Dec(x)
  {
    DecLeadingDigit(x);
    DblValue(x);
    DecValueOf(Dec(x) + Dec(x));
  }

  /** Writing `x` twice gives a doubled number whose half is `x`. */
  lemma DblIsDoubled(x: nat)
    requires x >= 1
    ensures IsDoubled(Dbl(x)) && Half(Dbl(x)) == x
  {
    DblDec(x);
    var s := Dec(x) + Dec(x);
    assert s[..|s| / 2] == Dec(x) && s[|s| / 2..] == Dec(x);
    ValueOfDec(x);
    DblValue(x);
    assert Dbl(x) >= 1 by { ValueOfBounds(Dec(x)); }
  }

  /** Every doubled number is some positive `x` written twice. */
  lemma DoubledIsDbl(n: int)
    requires IsDoubled(n)
    ensures Half(n) >= 1 && Dbl(Half(n)) == n
  {
    var s := Dec(n);
    var h := s[..|s| / 2];
    assert s == h + h by { assert s == s[..|s| / 2] + s[|s| / 2..]; }
    DecLeadingDigit(n);
    assert h[0] == s[0];
    DecValueOf(h);
    ValueOfBounds(h);
    ValueOfDec(n);
    DblValue(Half(n));
  }

  /** `x` written twice has twice as many digits as `x`, the first not 0. */
  lemma DblBounds(x: nat)
    requires x >= 1
    ensures Pow10(2 * |Dec(x)| - 1) <= Dbl(x) < Pow10(2 * |Dec(x)|)
  {
    DecLeadingDigit(x);
    DblValue(x);
    TwiceBounds(Dec(x));
  }

  /** Digits written twice, the first not 0, denote a number of exactly
      twice as many digits. */
  lemma TwiceBounds(t: string)
    requires AllDigits(t) && |t| >= 1 && t[0] != '0'
    ensures AllDigits(t + t)
    ensures Pow10(2 * |t| - 1) <= ValueOf(t + t) < Pow10(2 * |t|)
  {
    var s := t + t;
    assert AllDigits(s) by {
      forall i | 0 <= i < |s| ensures IsDigit(s[i]) {
        if i >= |t| { assert s[i] == t[i - |t|]; }
      }
    }
    assert s[0] == t[0];
    BoundsOfLength(s, 2 * |t|);
  }

  lemma BoundsOfLength(s: string, n: nat)
    requires AllDigits(s) && |s| == n >= 1 && s[0] != '0'
    ensures Pow10(n - 1) <= ValueOf(s) < Pow10(n)
  {
    ValueOfBounds(s);
  }

  /** Larger numbers take at least as many digits. */
  lemma DecLengthMonotone(x: nat, y: nat)
    requires 1 <= x <= y
    ensures |Dec(x)| <= |Dec(y)|
  {
    DecLengthBounds(x);
    DecLengthBounds(y);
    if |Dec(x)| > |Dec(y)| {
      assert false;
    }
  }

  lemma MulLess(x: nat, y: nat, p: nat)
    requires x < y && p >= 1
    ensures x * p + x < y * p + y
  {
    assert y * p == x * p + (y - x) * p;
  }

  /** `Dbl` is strictly increasing. */
  lemma DblMonotone(x: nat, y: nat)
    requires 1 <= x < y
    ensures Dbl(x) < Dbl(y)
  {
    DecLengthMonotone(x, y);
    var a, b := |Dec(x)|, |Dec(y)|;
    if a == b {
      DblValue(x);
      DblValue(y);
      MulLess(x, y, Pow10(a));
    } else {
      DblBounds(x);
      DblBounds(y);
      Pow10Monotone(2 * a, 2 * b - 1);
    }
  }

  lemma DblMonotoneLe(x: nat, y: nat)
    requires 1 <= x <= y
    ensures Dbl(x) <= Dbl(y)
  {
    if x < y { DblMonotone(x, y); }
  }

  // ---------------------------------------------------------------------------
  // What one range contributes
  // ---------------------------------------------------------------------------

  /** Whether a candidate is kept: neither `num > max` nor `num < min`
      holds, where every comparison with `NaN` is false. */
  predicate Admits(num: int, min: Num, max: Num) {
    !(max.Int? && num > max.v) && !(min.Int? && num < min.v)
  }

  /** `max.toString().length`; `NaN` prints as `NaN`. */
  function MaxLength(max: Num): (n: nat)
    requires max.Int? || max.NaN?
    ensures n >= 1
  {
    if max.NaN? then 3 else |IntToString(max.v)|
  }

  /** The kept doubled numbers among the halves `lo .. hi-1`. */
  function SumX(lo: nat, hi: nat, min: Num, max: Num): nat
    decreases hi
  {
    if hi <= lo then 0
    else SumX(lo, hi - 1, min, max) + (if Admits(Dbl(hi - 1), min, max) then Dbl(hi - 1) else 0)
  }

  /** Halves beyond the first one past the upper bound add nothing. */
  lemma {:induction false} SumXPastMax(lo: nat, x: nat, hi: nat, min: Num, max: Num)
    requires 1 <= lo <= x <= hi && max.Int? && Dbl(x) > max.v
    ensures SumX(lo, hi, min, max) == SumX(lo, x, min, max)
    decreases hi
  {
    if hi > x {
      SumXPastMax(lo, x, hi - 1, min, max);
      DblMonotoneLe(x, hi - 1);
    }
  }

  /** The loops of one range: even lengths up to the length of `max`, each
      half-length's candidates in increasing order until one passes `max`. */
  method RangeSum(min: Num, max: Num) returns (sum: nat)
    requires max.Int? || max.NaN?
    ensures sum == Contribution(Range(min, max))
  {
    sum := LengthsSum(MaxLength(max), min, max);
  }

  /** The outer loop, over the even lengths up to `maxLength`. */
  method LengthsSum(maxLength: nat, min: Num, max: Num) returns (sum: nat)
    ensures sum == SumX(1, Pow10(maxLength / 2), min, max)
  {
    sum := 0;
    var len := 2;
    ghost var reached := 1;
    while len <= maxLength
      invariant 2 <= len <= maxLength + 2 && len % 2 == 0
      invariant reached == Pow10(len / 2 - 1)
      invariant sum == SumX(1, reached, min, max)
      decreases maxLength + 2 - len
    {
      var half := len / 2;
      var start, end := Pow10(half - 1), Pow10(half) - 1;
      NextLength(len, start, end);
      sum := HalfLengthSum(start, end, min, max, sum);
      len := len + 2;
      reached := end + 1;
    }
    LastLength(len, maxLength);
  }

  lemma NextLength(len: nat, start: nat, end: int)
    requires len >= 2 && start == Pow10(len / 2 - 1) && end == Pow10(len / 2) - 1
    ensures 1 <= start <= end + 1 && end + 1 == Pow10((len + 2) / 2 - 1)
  {
    assert (len + 2) / 2 - 1 == len / 2;
  }

  lemma LastLength(len: nat, maxLength: nat)
    requires maxLength < len <= maxLength + 2 && len % 2 == 0
    ensures len / 2 - 1 == maxLength / 2
  {
  }

  /** The inner loop: the candidates `xx` for `x` from `start` to `end`,
      left as soon as one passes `max`. */
  method HalfLengthSum(start: nat, end: nat, min: Num, max: Num, sum0: nat) returns (sum: nat)
    requires 1 <= start <= end + 1
    requires sum0 == SumX(1, start, min, max)
    ensures sum == SumX(1, end + 1, min, max)
  {
    sum := sum0;
    var x := start;
    while x <= end
      invariant start <= x <= end + 1
      invariant sum == SumX(1, x, min, max)
      decreases end - x
    {
      var num := Dbl(x);
      if max.Int? && num > max.v {
        SumXPastMax(1, x, end + 1, min, max);
        return;
      }
      if !(min.Int? && num < min.v) {
        sum := sum + num;
      }
      x := x + 1;
    }
  }

  // ---------------------------------------------------------------------------
  // The loops add exactly the doubled numbers of the range
  // ---------------------------------------------------------------------------

  /** The doubled numbers of `lo .. hi`, summed one number at a time. */
  function SumN(lo: int, hi: int): nat
    decreases hi - lo
  {
    if hi < lo then 0 else SumN(lo, hi - 1) + (if IsDoubled(hi) then hi else 0)
  }

  /** How much `m` itself contributes among the halves `1 .. X-1`. */
  function Hit(X: nat, m: int): nat
    decreases X
  {
    if X <= 1 then 0 else Hit(X - 1, m) + (if Dbl(X - 1) == m && m >= 0 then m else 0)
  }

  lemma {:induction false} HitValue(X: nat, m: int)
    ensures Hit(X, m) == if IsDoubled(m) && Half(m) < X then m else 0
    decreases X
  {
    if X > 1 {
      HitValue(X - 1, m);
      HitStep(X - 1, m);
    } else if IsDoubled(m) {
      DoubledIsDbl(m);
    }
  }

  /** `Dbl(x)` hits `m` exactly when `m` is doubled with half `x`. */
  lemma HitStep(x: nat, m: int)
    requires x >= 1
    ensures Dbl(x) == m ==> IsDoubled(m) && Half(m) == x
    ensures IsDoubled(m) ==> Half(m) >= 1 && (Dbl(x) == m <==> Half(m) == x)
  {
    if Dbl(x) == m {
      DblIsDoubled(x);
    }
    if IsDoubled(m) {
      DoubledIsDbl(m);
    }
  }

  lemma {:induction false} SumXEmpty(X: nat, min: int, max: int)
    requires max < min
    ensures SumX(1, X, Int(min), Int(max)) == 0
    decreases X
  {
    if X > 1 { SumXEmpty(X - 1, min, max); }
  }

  lemma {:induction false} SumXTop(X: nat, min: int, m: int)
    requires min <= m
    ensures SumX(1, X, Int(min), Int(m)) == SumX(1, X, Int(min), Int(m - 1)) + Hit(X, m)
    decreases X
  {
    if X > 1 { SumXTop(X - 1, min, m); }
  }

  /** With every half from `X` on past `top`, the kept candidates are
      exactly the doubled numbers of the range. */
  lemma {:induction false} SumXIsSumN(X: nat, min: int, max: int, top: int)
    requires X >= 1 && max <= top && Dbl(X) > top
    ensures SumX(1, X, Int(min), Int(max)) == SumN(min, max)
    decreases max - min
  {
    if max < min {
      SumXEmpty(X, min, max);
    } else {
      SumXIsSumN(X, min, max - 1, top);
      SumXTop(X, min, max);
      HitValue(X, max);
      if IsDoubled(max) && Half(max) >= X {
        DoubledIsDbl(max);
        DblMonotoneLe(X, Half(max));
        assert false;
      }
    }
  }

  /** The halves the loops try reach past any number with at most
      `MaxLength(max)` characters. */
  lemma LastHalfPastMax(max: int)
    ensures Dbl(Pow10(MaxLength(Int(max)) / 2)) > max
  {
    var H := MaxLength(Int(max)) / 2;
    var X := Pow10(H);
    DblValue(X);
    if max >= 0 {
      PowerPastLength(max, H);
    }
  }

  /** `10^H` written twice has more digits than a number of at most
      `2H + 1` digits. */
  lemma PowerPastLength(max: nat, H: nat)
    requires |Dec(max)| <= 2 * H + 1
    ensures Pow10(H) * Pow10(|Dec(Pow10(H))|) > max
  {
    PowerLength(H);
    DecLengthBounds(max);
    PowerPastBound(max, H, |Dec(max)|, |Dec(Pow10(H))|);
  }

  lemma PowerPastBound(max: nat, H: nat, M: nat, L: nat)
    requires max < Pow10(M) && M <= 2 * H + 1 && L >= H + 1
    ensures Pow10(H) * Pow10(L) > max
  {
    Pow10Monotone(H + 1, L);
    Pow10Add(H, H + 1);
    Pow10Monotone(M, 2 * H + 1);
    MulMonotone(Pow10(H), Pow10(H + 1), Pow10(L));
  }

  /** `10^H` takes more than `H` digits. */
  lemma PowerLength(H: nat)
    ensures |Dec(Pow10(H))| >= H + 1
  {
    var L := |Dec(Pow10(H))|;
    DecLengthBounds(Pow10(H));
    if L <= H {
      Pow10Monotone(L, H);
    }
  }

  lemma MulMonotone(x: nat, p: nat, q: nat)
    requires p <= q
    ensures x * p <= x * q
  {
  }

  /** One range contributes the sum of the doubled numbers between its
      bounds, and nothing when the bounds are crossed. */
  lemma RangeSumIsDoubledSum(min: int, max: int)
    ensures SumX(1, Pow10(MaxLength(Int(max)) / 2), Int(min), Int(max)) == SumN(min, max)
    ensures max < min ==> SumN(min, max) == 0
  {
    LastHalfPastMax(max);
    SumXIsSumN(Pow10(MaxLength(Int(max)) / 2), min, max, max);
  }

  // ---------------------------------------------------------------------------
  // The whole input
  // ---------------------------------------------------------------------------

  /** What one range adds; comparisons with `NaN` or `undefined` are false,
      so such a bound lets every candidate through. */
  function Contribution(r: Range): nat
    requires !r.max.Undefined?
  {
    SumX(1, Pow10(MaxLength(r.max) / 2), r.min, r.max)
  }

  /** The answer for the parsed ranges, `None` when a range without `-`
      makes `max.toString()` throw. */
  function Total(ranges: seq<Range>): (r: Option<nat>)
    ensures r.Some? <==> forall i :: 0 <= i < |ranges| ==> !ranges[i].max.Undefined?
  {
    if |ranges| == 0 then Some(0)
    else
      var init := ranges[..|ranges| - 1];
      assert forall i :: 0 <= i < |init| ==> init[i] == ranges[i];
      AddRange(Total(init), ranges[|ranges| - 1])
  }

  /** The running answer after one more range. */
  function AddRange(before: Option<nat>, r: Range): (after: Option<nat>)
    ensures after.Some? <==> before.Some? && !r.max.Undefined?
  {
    if before.None? || r.max.Undefined? then None
    else Some(before.value + Contribution(r))
  }

  lemma TotalStep(ranges: seq<Range>, i: nat)
    requires i < |ranges|
    ensures Total(ranges[..i + 1]) == AddRange(Total(ranges[..i]), ranges[i])
  {
    assert ranges[..i + 1][..i] == ranges[..i];
  }

  /** The solution on its input. */
  method Solve(input: string) returns (r: Option<nat>)
    ensures r == Total(ParseRanges(input))
  {
    r := SumRanges(ParseRanges(input));
  }

  /** The loop over the ranges. */
  method SumRanges(ranges: seq<Range>) returns (r: Option<nat>)
    ensures r == Total(ranges)
  {
    var total := 0;
    var i := 0;
    while i < |ranges|
      invariant 0 <= i <= |ranges|
      invariant Total(ranges[..i]) == Some(total)
    {
      var range := ranges[i];
      if range.max.Undefined? {
        ThrowLosesTotal(ranges, i);
        return None;
      }
      var s := RangeSum(range.min, range.max);
      AddContribution(ranges, i, total, s);
      total := total + s;
      i := i + 1;
    }
    assert ranges[..i] == ranges;
    r := Some(total);
  }

  /** A range that throws loses the whole answer. */
  lemma ThrowLosesTotal(ranges: seq<Range>, i: nat)
    requires i < |ranges| && ranges[i].max.Undefined?
    ensures Total(ranges) == None
  {
  }

  lemma AddContribution(ranges: seq<Range>, i: nat, total: nat, s: nat)
    requires i < |ranges| && !ranges[i].max.Undefined?
    requires Total(ranges[..i]) == Some(total)
    requires s == Contribution(ranges[i])
    ensures Total(ranges[..i + 1]) == Some(total + s)
  {
    TotalStep(ranges, i);
  }

  /** The doubled numbers of every range, added up. */
  function DoubledSum(ranges: seq<Range>): nat
    requires forall i :: 0 <= i < |ranges| ==> ranges[i].min.Int? && ranges[i].max.Int?
  {
    if |ranges| == 0 then 0
    else
      var last := ranges[|ranges| - 1];
      DoubledSum(ranges[..|ranges| - 1]) + SumN(last.min.v, last.max.v)
  }

  /** With numeric bounds everywhere, the answer is the sum of the doubled
      numbers inside every range. */
  lemma {:induction false} TotalIsDoubledSum(ranges: seq<Range>)
    requires forall i :: 0 <= i < |ranges| ==> ranges[i].min.Int? && ranges[i].max.Int?
    ensures Total(ranges) == Some(DoubledSum(ranges))
    decreases |ranges|
  {
    if |ranges| > 0 {
      var init := ranges[..|ranges| - 1];
      var last := ranges[|ranges| - 1];
      assert forall i :: 0 <= i < |init| ==> init[i] == ranges[i];
      TotalIsDoubledSum(init);
      RangeSumIsDoubledSum(last.min.v, last.max.v);
      assert Total(ranges) == AddRange(Some(DoubledSum(init)), last);
      assert DoubledSum(ranges) == DoubledSum(init) + SumN(last.min.v, last.max.v);
    }
  }

  /** Reading written-out ranges and solving gives the sum of the doubled
      numbers inside them. */
  lemma SolveWrittenRanges(bounds: seq<(nat, nat)>)
    requires |bounds| >= 1
    ensures var texts := seq(|bounds|, i requires 0 <= i < |bounds| => RangeText(bounds[i].0, bounds[i].1));
      var ranges := seq(|bounds|, i requires 0 <= i < |bounds| => Range(Int(bounds[i].0), Int(bounds[i].1)));
      Total(ParseRanges(Join(texts, ','))) == Some(DoubledSum(ranges))
  {
    ParseRangesText(bounds);
    var ranges := seq(|bounds|, i requires 0 <= i < |bounds| => Range(Int(bounds[i].0), Int(bounds[i].1)));
    TotalIsDoubledSum(ranges);
  }
}

=== FILE: editors.dfy ===
/**
 The two solution editors of `assets/js/ui.editors.js`: the page-theme to
 editor-theme mapping, the "large view" (fullscreen) state machine over the
 two editor parts, code storage in the textareas and editor instances, and
 the guards of `runSolution`.

 The DOM is reduced to what the code reads back: for each part, whether its
 textarea exists and what it holds, whether an editor instance exists, what
 it holds and whether its wrapper carries the fullscreen class; plus the
 body's overflow style and the manager's `fullscreenPart`.
 */
module Editors {
  import opened Wrappers
  import opened JsText

  // ---------------------------------------------------------------------------
  // Themes
  // ---------------------------------------------------------------------------

  /** `mapPageThemeToEditorTheme`. */
  function EditorTheme(pageTheme: string): (t: string)
    ensures t == "material-darker" <==> pageTheme == "dark"
    ensures t == "material-darker" || t == "default"
  {
    if pageTheme == "dark" then "material-darker" else "default"
  }

  /** `getPageTheme`: the body's theme attribute, `'light'` when missing or
      empty, and anything but `'dark'` reads as `'light'`. */
  function PageTheme(bodyAttr: Option<string>): (t: string)
    ensures t == "dark" <==> bodyAttr == Some("dark")
    ensures t == "dark" || t == "light"
  {
    var theme := if bodyAttr.None? || bodyAttr.value == "" then "light" else bodyAttr.value;
    if theme == "dark" then "dark" else "light"
  }

  /** The `aocThemeChanged` handler: the event's theme when it carries a
      non-empty one, else the page's. */
  function ThemeOnChange(eventTheme: Option<string>, bodyAttr: Option<string>): (t: string)
    ensures eventTheme.Some? && eventTheme.value != "" ==> t == EditorTheme(eventTheme.value)
    ensures (eventTheme.None? || eventTheme.value == "") ==> t == EditorTheme(PageTheme(bodyAttr))
  {
    var pageTheme := if eventTheme.Some? && eventTheme.value != "" then eventTheme.value else PageTheme(bodyAttr);
    EditorTheme(pageTheme)
  }

  // ---------------------------------------------------------------------------
  // State
  // ---------------------------------------------------------------------------

  /** An editor instance: its text and whether its wrapper is in large view. */
  datatype Instance = Instance(value: string, fullscreen: bool)

  /** Everything the manager reads back. `text1`/`text2` are the textareas
      (absent when not in the page); `cm1`/`cm2` the editor instances. */
  datatype State = State(
    text1: Option<string>,
    text2: Option<string>,
    cm1: Option<Instance>,
    cm2: Option<Instance>,
    fullscreenPart: Option<int>,
    overflowHidden: bool,
    editorTheme: string)

  /** `editors[part]`: only parts 1 and 2 have instances. */
  function EditorOf(s: State, part: int): Option<Instance> {
    if part == 1 then s.cm1 else if part == 2 then s.cm2 else None
  }

  /** The textarea of `textareaIdForPart`: part 1's for 1, part 2's for
      every other value. */
  function TextareaOf(s: State, part: int): Option<string> {
    if part == 1 then s.text1 else s.text2
  }

  function WithEditor(s: State, part: int, cm: Instance): (r: State)
    requires part == 1 || part == 2
    ensures EditorOf(r, part) == Some(cm)
    ensures EditorOf(r, 3 - part) == EditorOf(s, 3 - part)
    ensures r.text1 == s.text1 && r.text2 == s.text2
    ensures r.fullscreenPart == s.fullscreenPart && r.overflowHidden == s.overflowHidden
    ensures r.editorTheme == s.editorTheme
  {
    if part == 1 then s.(cm1 := Some(cm)) else s.(cm2 := Some(cm))
  }

  /** `isFullscreen`: the part has an instance whose wrapper is in large view. */
  predicate IsFullscreen(s: State, part: int) {
    EditorOf(s, part).Some? && EditorOf(s, part).value.fullscreen
  }

  predicate AnyFullscreen(s: State) {
    IsFullscreen(s, 1) || IsFullscreen(s, 2)
  }

  /** The invariant the transitions keep: at most one part in large view,
      `fullscreenPart` naming exactly that part, and the body overflow
      hidden exactly while some part is in large view. */
  predicate Valid(s: State) {
    && !(IsFullscreen(s, 1) && IsFullscreen(s, 2))
    && (forall p :: p in {1, 2} ==> (s.fullscreenPart == Some(p) <==> IsFullscreen(s, p)))
    && (s.fullscreenPart.Some? ==> s.fullscreenPart.value in {1, 2})
    && (s.overflowHidden <==> AnyFullscreen(s))
  }

  // ---------------------------------------------------------------------------
  // Transitions
  // ---------------------------------------------------------------------------

  /** `updateBodyOverflow`. */
  function UpdateOverflow(s: State): (r: State)
    ensures r == s.(overflowHidden := AnyFullscreen(s))
  {
    s.(overflowHidden := AnyFullscreen(s))
  }

  /** `exitFullscreen(part)`: without an instance nothing happens; otherwise
      the part leaves large view, `fullscreenPart` is cleared only if it named
      this part, and the overflow is recomputed. */
  function Exit(s: State, part: int): (r: State)
    ensures EditorOf(s, part).None? ==> r == s
    ensures EditorOf(s, part).Some? ==>
      && !IsFullscreen(r, part)
      && (s.fullscreenPart == Some(part) ==> r.fullscreenPart.None?)
      && (s.fullscreenPart != Some(part) ==> r.fullscreenPart == s.fullscreenPart)
      && (r.overflowHidden <==> AnyFullscreen(r))
    ensures forall q :: q != part ==> EditorOf(r, q) == EditorOf(s, q)
    ensures EditorOf(r, part).Some? ==> EditorOf(r, part).value.value == EditorOf(s, part).value.value
    ensures r.text1 == s.text1 && r.text2 == s.text2 && r.editorTheme == s.editorTheme
  {
    match EditorOf(s, part)
    case None => s
    case Some(cm) =>
      var s1 := WithEditor(s, part, cm.(fullscreen := false));
      var s2 := if s.fullscreenPart == Some(part) then s1.(fullscreenPart := None) else s1;
      UpdateOverflow(s2)
  }

  /** `enterFullscreen(part)`: without an instance nothing happens; otherwise
      every other part leaves large view first, then this part enters it and
      becomes `fullscreenPart`. */
  function Enter(s: State, part: int): (r: State)
    ensures EditorOf(s, part).None? ==> r == s
    ensures EditorOf(s, part).Some? ==>
      && IsFullscreen(r, part)
      && (forall q :: q != part ==> !IsFullscreen(r, q))
      && r.fullscreenPart == Some(part)
      && r.overflowHidden
    ensures forall q :: EditorOf(r, q).Some? <==> EditorOf(s, q).Some?
    ensures forall q :: EditorOf(r, q).Some? ==> EditorOf(r, q).value.value == EditorOf(s, q).value.value
    ensures r.text1 == s.text1 && r.text2 == s.text2 && r.editorTheme == s.editorTheme
  {
    match EditorOf(s, part)
    case None => s
    case Some(_) =>
      var s1 := if part != 1 then Exit(s, 1) else s;
      var s2 := if part != 2 then Exit(s1, 2) else s1;
      var cm := EditorOf(s2, part).value;
      var s3 := WithEditor(s2, part, cm.(fullscreen := true)).(fullscreenPart := Some(part));
      UpdateOverflow(s3)
  }

  /** `toggleFullscreen(part)`. */
  function Toggle(s: State, part: int): (r: State)
    ensures EditorOf(s, part).Some? ==> (IsFullscreen(r, part) <==> !IsFullscreen(s, part))
    ensures EditorOf(s, part).None? ==> r == s
  {
    if IsFullscreen(s, part) then Exit(s, part) else Enter(s, part)
  }

  /** The Escape key: both parts leave large view. */
  function Escape(s: State): (r: State)
    ensures !AnyFullscreen(r)
    ensures EditorOf(s, 1).Some? || EditorOf(s, 2).Some? ==> !r.overflowHidden
    ensures Valid(s) ==> r.fullscreenPart.None? && !r.overflowHidden
  {
    Exit(Exit(s, 1), 2)
  }

  /** `reset()`: both textareas and instances emptied, nothing in large view,
      `fullscreenPart` cleared, overflow restored. */
  function Reset(s: State): (r: State)
    ensures !AnyFullscreen(r) && !r.overflowHidden && r.fullscreenPart.None?
    ensures forall p :: p in {1, 2} ==> GetCode(r, p) == ""
    ensures forall p :: EditorOf(r, p).Some? <==> EditorOf(s, p).Some?
    ensures forall p :: TextareaOf(r, p).Some? <==> TextareaOf(s, p).Some?
    ensures forall p :: TextareaOf(r, p).Some? ==> TextareaOf(r, p) == Some("")
  {
    var clear := (o: Option<string>) => if o.Some? then Some("") else None;
    var cm := (o: Option<Instance>) => if o.Some? then Some(Instance("", false)) else None;
    State(clear(s.text1), clear(s.text2), cm(s.cm1), cm(s.cm2), None, false, s.editorTheme)
  }

  /** `setCode(part, code)`: `code || ''` goes to the part's textarea and
      instance, where they exist. */
  function SetCode(s: State, part: int, code: Option<string>): (r: State)
    ensures forall q :: q != part && q in {1, 2} && (part == 1 || part == 2) ==> GetCode(r, q) == GetCode(s, q)
    ensures r.fullscreenPart == s.fullscreenPart && r.overflowHidden == s.overflowHidden
    ensures forall q :: IsFullscreen(r, q) == IsFullscreen(s, q)
    ensures forall q :: EditorOf(r, q).Some? <==> EditorOf(s, q).Some?
    ensures forall q :: TextareaOf(r, q).Some? <==> TextareaOf(s, q).Some?
  {
    var value := code.GetOr("");
    var s1 := if TextareaOf(s, part).Some? then
                (if part == 1 then s.(text1 := Some(value)) else s.(text2 := Some(value)))
              else s;
    match EditorOf(s1, part)
    case None => s1
    case Some(cm) => WithEditor(s1, part, cm.(value := value))
  }

  /** `getCode(part)`: the instance's text when there is an instance, else
      the textarea's, else `''`. */
  function GetCode(s: State, part: int): string {
    match EditorOf(s, part)
    case Some(cm) => cm.value
    case None => TextareaOf(s, part).GetOr("")
  }

  /** `init()`: when the editor library is loaded, every part whose textarea
      is in the page and has no instance gets one holding the textarea's text;
      without it no instance is created. The editor theme follows the page
      theme either way. */
  function Init(s: State, libraryLoaded: bool, bodyAttr: Option<string>): (r: State)
    ensures libraryLoaded ==> forall p :: p in {1, 2} && TextareaOf(s, p).Some? ==> EditorOf(r, p).Some?
    ensures !libraryLoaded ==> forall p :: EditorOf(r, p) == EditorOf(s, p)
    ensures libraryLoaded ==> forall p :: p in {1, 2} && EditorOf(s, p).None? && TextareaOf(s, p).Some? ==>
              GetCode(r, p) == GetCode(s, p) && !IsFullscreen(r, p)
    ensures forall p :: EditorOf(s, p).Some? ==> EditorOf(r, p) == EditorOf(s, p)
    ensures r.text1 == s.text1 && r.text2 == s.text2
    ensures r.editorTheme == EditorTheme(PageTheme(bodyAttr))
    ensures Valid(s) ==> Valid(r)
  {
    var make := (cm: Option<Instance>, ta: Option<string>) =>
      if libraryLoaded && cm.None? && ta.Some? then Some(Instance(ta.value, false)) else cm;
    s.(cm1 := make(s.cm1, s.text1), cm2 := make(s.cm2, s.text2), editorTheme := EditorTheme(PageTheme(bodyAttr)))
  }

  // ---------------------------------------------------------------------------
  // The invariant
  // ---------------------------------------------------------------------------

  /** Every transition keeps the invariant. */
  lemma TransitionsKeepValid(s: State, part: int, code: Option<string>)
    requires Valid(s)
    ensures Valid(Exit(s, part))
    ensures Valid(Enter(s, part))
    ensures Valid(Toggle(s, part))
    ensures Valid(Escape(s))
    ensures Valid(Reset(s))
    ensures Valid(SetCode(s, part, code))
  {
    ExitKeepsValid(s, part);
    EnterKeepsValid(s, part);
    EscapeKeepsValid(s);
    ResetKeepsValid(s);
    SetCodeKeepsValid(s, part, code);
  }

  lemma EscapeKeepsValid(s: State)
    requires Valid(s)
    ensures Valid(Escape(s))
  {
    ExitKeepsValid(s, 1);
    ExitKeepsValid(Exit(s, 1), 2);
  }

  lemma ResetKeepsValid(s: State)
    requires Valid(s)
    ensures Valid(Reset(s))
  {
    var r := Reset(s);
    assert !IsFullscreen(r, 1) && !IsFullscreen(r, 2);
  }

  lemma SetCodeKeepsValid(s: State, part: int, code: Option<string>)
    requires Valid(s)
    ensures Valid(SetCode(s, part, code))
  {
    var r := SetCode(s, part, code);
    assert IsFullscreen(r, 1) == IsFullscreen(s, 1) && IsFullscreen(r, 2) == IsFullscreen(s, 2);
  }

  lemma ExitKeepsValid(s: State, part: int)
    requires Valid(s)
    ensures Valid(Exit(s, part))
  {
    var r := Exit(s, part);
    if EditorOf(s, part).Some? {
      forall p | p in {1, 2} ensures r.fullscreenPart == Some(p) <==> IsFullscreen(r, p) {
        if p != part {
          assert EditorOf(r, p) == EditorOf(s, p);
        }
      }
    }
  }

  lemma EnterKeepsValid(s: State, part: int)
    requires Valid(s)
    ensures Valid(Enter(s, part))
  {
    var r := Enter(s, part);
    if EditorOf(s, part).Some? {
      assert part in {1, 2};
      forall p | p in {1, 2} ensures r.fullscreenPart == Some(p) <==> IsFullscreen(r, p) {
      }
    }
  }

  /** `exitFullscreen` leaves the other part's large view alone. */
  lemma ExitLeavesOtherPart(s: State, part: int, other: int)
    requires other != part
    ensures IsFullscreen(Exit(s, part), other) == IsFullscreen(s, other)
  {
  }

  /** A part without an instance never enters large view, and the state is
      unchanged by either transition. */
  lemma NoInstanceNoChange(s: State, part: int)
    requires EditorOf(s, part).None?
    ensures Enter(s, part) == s && Exit(s, part) == s
  {
  }

  /** Code set into a part is what `getCode` returns, as long as the part has
      a textarea or an instance; with neither it reads as `''`. */
  lemma SetThenGet(s: State, part: int, code: Option<string>)
    requires part == 1 || part == 2
    ensures EditorOf(s, part).Some? || TextareaOf(s, part).Some? ==>
              GetCode(SetCode(s, part, code), part) == code.GetOr("")
    ensures EditorOf(s, part).None? && TextareaOf(s, part).None? ==>
              GetCode(SetCode(s, part, code), part) == ""
  {
  }

  // ---------------------------------------------------------------------------
  // runSolution
  // ---------------------------------------------------------------------------

  /** What `runSolution` does: nothing, or evaluate the given code on the
      input. Evaluating user code is outside the model. */
  datatype Run = Skip | Evaluate(code: string)

  /** The guards of `runSolution`: a missing or zero part, or code that is
      empty after trimming, means nothing runs. */
  function RunSolution(s: State, part: Option<int>): (r: Run)
    ensures r.Evaluate? ==> part.Some? && part.value != 0 && r.code == GetCode(s, part.value)
  {
    if part.None? || part.value == 0 then Skip
    else
      var code := GetCode(s, part.value);
      if code == "" || Trim(code) == "" then Skip else Evaluate(code)
  }

  /** Code runs exactly when the part is given and its code has a
      non-whitespace character. */
  lemma RunsIffCodeNotBlank(s: State, part: int)
    requires part != 0
    ensures RunSolution(s, Some(part)).Evaluate? <==> !AllWhitespace(GetCode(s, part))
  {
    BlankIffAllWhitespace(GetCode(s, part));
  }
}

=== FILE: json.dfy ===
/**
 JSON-like values as the settings code sees them after `JSON.parse`, with the
 JavaScript operations applied to them: truthiness, property lookup, object
 spread and `String(value)`. A missing property (`undefined`) is `None`.
 */
module JsonValue {
  import opened Wrappers
  import opened JsText

  datatype Json =
    | JNull
    | JBool(b: bool)
    | JNum(n: int)
    | JStr(s: string)
    | JArr(items: seq<Json>)
    | JObj(fields: map<string, Json>)

  /** JavaScript truthiness: `null`, `false`, `0` and `''` are falsy. */
  predicate Truthy(j: Json) {
    match j
    case JNull => false
    case JBool(b) => b
    case JNum(n) => n != 0
    case JStr(s) => s != ""
    case JArr(_) => true
    case JObj(_) => true
  }

  predicate TruthyOpt(o: Option<Json>) {
    o.Some? && Truthy(o.value)
  }

  /** `j[key]`: own properties of objects; `undefined` for everything else. */
  function Member(j: Json, key: string): (r: Option<Json>)
    ensures r.Some? <==> j.JObj? && key in j.fields
  {
    if j.JObj? && key in j.fields then Some(j.fields[key]) else None
  }

  function MemberOpt(o: Option<Json>, key: string): Option<Json> {
    if o.Some? then Member(o.value, key) else None
  }

  /** The own properties `{ ...j }` copies: an object's fields, nothing for
      `null`, booleans and numbers. */
  function Spread(j: Json): map<string, Json> {
    if j.JObj? then j.fields else map[]
  }

  function SpreadOpt(o: Option<Json>): map<string, Json> {
    if o.Some? then Spread(o.value) else map[]
  }

  /** `a || b` where `a` may be `undefined`. */
  function Or(a: Option<Json>, b: Json): (r: Json)
    ensures TruthyOpt(a) ==> r == a.value
    ensures !TruthyOpt(a) ==> r == b
  {
    if TruthyOpt(a) then a.value else b
  }

  /** `Number.isInteger(x)`: numbers in this model are integers. */
  predicate IsInteger(o: Option<Json>) {
    o.Some? && o.value.JNum?
  }

  /** `x !== false` */
  predicate NotFalse(o: Option<Json>) {
    o != Some(JBool(false))
  }

  /** `String(j)`. Arrays join their elements' strings with `,`, writing
      `null` elements as the empty string. */
  function ToJsString(j: Json): string
    decreases j, if j.JArr? then |j.items| + 1 else 0
  {
    match j
    case JNull => "null"
    case JBool(b) => if b then "true" else "false"
    case JNum(n) => IntToString(n)
    case JStr(s) => s
    case JArr(items) => JoinItems(items, 0)
    case JObj(_) => "[object Object]"
  }

  /** The elements `items[i..]` as `Array.prototype.join` writes them. */
  function JoinItems(items: seq<Json>, i: nat): string
    requires i <= |items|
    decreases JArr(items), |items| - i
  {
    if i == |items| then ""
    else
      var head := if items[i].JNull? then "" else ToJsString(items[i]);
      if i + 1 == |items| then head else head + "," + JoinItems(items, i + 1)
  }

  /** `parseInt(x, 10)` of a property that may be missing. */
  function ParseIntOf(o: Option<Json>): (r: Option<int>)
    ensures o.Some? && o.value.JNum? ==> r == Some(o.value.n)
  {
    if o.Some? then ParseIntOfJson(o.value) else ParseInt("undefined")
  }

  function ParseIntOfJson(j: Json): (r: Option<int>)
    ensures j.JNum? ==> r == Some(j.n)
  {
    var r := ParseInt(ToJsString(j));
    assert j.JNum? ==> r == Some(j.n) by {
      if j.JNum? { ParseIntOfIntString(j.n); }
    }
    r
  }

  /** `parseInt(String(n), 10) === n` for every integer `n`. */
  lemma ParseIntOfIntString(n: int)
    ensures ParseInt(IntToString(n)) == Some(n)
  {
    if n >= 0 {
      ParseIntOfDec(n, "");
      assert Dec(n) + "" == Dec(n);
    } else {
      var s := IntToString(n);
      assert s[0] == '-';
      TrimStartOfTrimmed(s);
      assert SplitSign(s) == (true, Dec(-n));
      DigitPrefixOfDec(-n, "");
      assert Dec(-n) + "" == Dec(-n);
      ValueOfDec(-n);
    }
  }
}

=== FILE: jstext.dfy ===
/**
 The JavaScript string primitives the front-end relies on, over `string` (a
 sequence of Unicode scalar values): `trim`, `split` on one character,
 `String(n)` for integers, `parseInt(s, 10)`, `Number(s)` restricted to
 integer decimal text, ASCII `toLowerCase`, and substring search.
 */
module JsText {
  import opened Wrappers

  // ---------------------------------------------------------------------------
  // Whitespace and trimming
  // ---------------------------------------------------------------------------

  /** ECMAScript WhiteSpace and LineTerminator code points: what `trim`,
      `parseInt` and `Number` skip. */
  predicate IsWhitespace(c: char) {
    || c == '\t' || c == '\n' || c == '\U{000B}' || c == '\U{000C}' || c == '\r'
    || c == ' ' || c == '\U{00A0}' || c == '\U{1680}'
    || ('\U{2000}' <= c <= '\U{200A}')
    || c == '\U{2028}' || c == '\U{2029}' || c == '\U{202F}' || c == '\U{205F}'
    || c == '\U{3000}' || c == '\U{FEFF}'
  }

  predicate AllWhitespace(s: string) {
    forall i :: 0 <= i < |s| ==> IsWhitespace(s[i])
  }

  /** `s` with its leading whitespace removed. */
  function TrimStart(s: string): (r: string)
    ensures |r| <= |s| && r == s[|s| - |r|..]
    ensures AllWhitespace(s[..|s| - |r|])
    ensures |r| > 0 ==> !IsWhitespace(r[0])
  {
    if |s| > 0 && IsWhitespace(s[0]) then TrimStart(s[1..]) else s
  }

  /** `s` with its trailing whitespace removed. */
  function TrimEnd(s: string): (r: string)
    ensures |r| <= |s| && r == s[..|r|]
    ensures AllWhitespace(s[|r|..])
    ensures |r| > 0 ==> !IsWhitespace(r[|r| - 1])
  {
    if |s| > 0 && IsWhitespace(s[|s| - 1]) then TrimEnd(s[..|s| - 1]) else s
  }

  /** `String.prototype.trim`: the infix of `s` left once the whitespace at
      both ends is gone. */
  function Trim(s: string): (r: string)
    ensures exists i, j :: 0 <= i <= j <= |s| && r == s[i..j]
                           && AllWhitespace(s[..i]) && AllWhitespace(s[j..])
    ensures |r| > 0 ==> !IsWhitespace(r[0]) && !IsWhitespace(r[|r| - 1])
  {
    var t := TrimStart(s);
    var r := TrimEnd(t);
    assert r == s[|s| - |t|..|s| - |t| + |r|];
    assert s[|s| - |t| + |r|..] == t[|r|..];
    r
  }

  lemma TrimStartOfTrimmed(s: string)
    requires |s| > 0 ==> !IsWhitespace(s[0])
    ensures TrimStart(s) == s
  {
  }

  lemma TrimEndOfTrimmed(s: string)
    requires |s| > 0 ==> !IsWhitespace(s[|s| - 1])
    ensures TrimEnd(s) == s
  {
  }

  /** A string that starts and ends with non-whitespace is its own trim. */
  lemma TrimOfTrimmed(s: string)
    requires |s| > 0 ==> !IsWhitespace(s[0]) && !IsWhitespace(s[|s| - 1])
    ensures Trim(s) == s
  {
    TrimStartOfTrimmed(s);
    TrimEndOfTrimmed(s);
  }

  /** Visible ASCII characters are not whitespace. */
  lemma AsciiNotWhitespace(c: char)
    requires '!' <= c <= '~'
    ensures !IsWhitespace(c)
  {
  }

  /** Trimming twice is trimming once. */
  lemma TrimIdempotent(s: string)
    ensures Trim(Trim(s)) == Trim(s)
  {
    var r := Trim(s);
    TrimStartOfTrimmed(r);
    TrimEndOfTrimmed(r);
  }

  lemma AllWhitespaceAppend(a: string, b: string)
    requires AllWhitespace(a) && AllWhitespace(b)
    ensures AllWhitespace(a + b)
  {
    forall k | 0 <= k < |a + b| ensures IsWhitespace((a + b)[k]) {
      if k < |a| { assert (a + b)[k] == a[k]; } else { assert (a + b)[k] == b[k - |a|]; }
    }
  }

  /** A string is blank after `trim` exactly when every character of it is
      whitespace. */
  lemma BlankIffAllWhitespace(s: string)
    ensures Trim(s) == "" <==> AllWhitespace(s)
  {
    var r := Trim(s);
    var i, j :| 0 <= i <= j <= |s| && r == s[i..j] && AllWhitespace(s[..i]) && AllWhitespace(s[j..]);
    assert |r| > 0 ==> r[0] == s[i];
    if |r| == 0 {
      assert s == s[..i] + s[j..];
      AllWhitespaceAppend(s[..i], s[j..]);
    }
  }

  // ---------------------------------------------------------------------------
  // split on a single character, and its inverse
  // ---------------------------------------------------------------------------

  /** `s.split(sep)` for a one-character separator: the pieces between the
      occurrences of `sep`, in order. */
  function Split(s: string, sep: char): (r: seq<string>)
    ensures |r| >= 1
    ensures forall i :: 0 <= i < |r| ==> sep !in r[i]
  {
    if |s| == 0 then [""]
    else if s[0] == sep then [""] + Split(s[1..], sep)
    else
      var rest := Split(s[1..], sep);
      [[s[0]] + rest[0]] + rest[1..]
  }

  /** `pieces.join(sep)`. */
  function Join(pieces: seq<string>, sep: char): string
    requires |pieces| >= 1
  {
    if |pieces| == 1 then pieces[0] else pieces[0] + [sep] + Join(pieces[1..], sep)
  }

  /** Joining the pieces of a split gives the string back. */
  lemma {:induction false} JoinSplit(s: string, sep: char)
    ensures Join(Split(s, sep), sep) == s
    decreases |s|
  {
    if |s| == 0 {
    } else if s[0] == sep {
      JoinSplit(s[1..], sep);
      assert ([""] + Split(s[1..], sep))[1..] == Split(s[1..], sep);
    } else {
      var rest := Split(s[1..], sep);
      JoinSplit(s[1..], sep);
      var r := [[s[0]] + rest[0]] + rest[1..];
      if |rest| == 1 {
        assert Join(r, sep) == [s[0]] + rest[0];
      } else {
        assert r[1..] == rest[1..];
        assert Join(rest, sep) == rest[0] + [sep] + Join(rest[1..], sep);
      }
      assert s == [s[0]] + s[1..];
    }
  }

  /** Splitting a join of separator-free pieces gives the pieces back. */
  lemma {:induction false} SplitJoin(pieces: seq<string>, sep: char)
    requires |pieces| >= 1
    requires forall i :: 0 <= i < |pieces| ==> sep !in pieces[i]
    ensures Split(Join(pieces, sep), sep) == pieces
    decreases |pieces|, |pieces[0]|
  {
    var p := pieces[0];
    if |p| == 0 {
      if |pieces| > 1 {
        SplitJoin(pieces[1..], sep);
        assert Join(pieces, sep) == [sep] + Join(pieces[1..], sep);
        assert ([sep] + Join(pieces[1..], sep))[1..] == Join(pieces[1..], sep);
        assert [""] + pieces[1..] == pieces;
      }
    } else {
      var tail := [p[1..]] + pieces[1..];
      forall i | 0 <= i < |tail| ensures sep !in tail[i] {
        if i == 0 {
          assert forall c :: c in p[1..] ==> c in p;
        } else {
          assert tail[i] == pieces[i];
        }
      }
      SplitJoin(tail, sep);
      var j := Join(pieces, sep);
      assert j == [p[0]] + Join(tail, sep) by {
        if |pieces| == 1 {
          assert p == [p[0]] + p[1..];
        } else {
          assert tail[1..] == pieces[1..];
          assert p == [p[0]] + p[1..];
        }
      }
      assert j[1..] == Join(tail, sep);
      assert j[0] == p[0] && p[0] != sep;
      var rest := Split(j[1..], sep);
      assert rest == tail;
      assert p == [p[0]] + p[1..];
      assert [[p[0]] + rest[0]] + rest[1..] == pieces;
    }
  }

  // ---------------------------------------------------------------------------
  // Decimal digits
  // ---------------------------------------------------------------------------

  predicate IsDigit(c: char) {
    '0' <= c <= '9'
  }

  predicate AllDigits(s: string) {
    forall i :: 0 <= i < |s| ==> IsDigit(s[i])
  }

  lemma DigitNotWhitespace(c: char)
    requires IsDigit(c)
    ensures !IsWhitespace(c)
  {
  }

  function DigitChar(d: nat): (c: char)
    requires d < 10
    ensures IsDigit(c)
  {
    ['0', '1', '2', '3', '4', '5', '6', '7', '8', '9'][d]
  }

  function DigitValue(c: char): (d: nat)
    requires IsDigit(c)
    ensures d < 10 && DigitChar(d) == c
  {
    (c as int - '0' as int) as nat
  }

  lemma DigitValueOfChar(d: nat)
    requires d < 10
    ensures DigitValue(DigitChar(d)) == d
  {
  }

  function Pow10(k: nat): (p: nat)
    ensures p >= 1
  {
    if k == 0 then 1 else 10 * Pow10(k - 1)
  }

  lemma {:induction false} Pow10Monotone(a: nat, b: nat)
    requires a <= b
    ensures Pow10(a) <= Pow10(b)
    decreases b
  {
    if a < b { Pow10Monotone(a, b - 1); }
  }

  lemma {:induction false} Pow10Add(a: nat, b: nat)
    ensures Pow10(a + b) == Pow10(a) * Pow10(b)
    decreases b
  {
    if b > 0 {
      Pow10Add(a, b - 1);
      calc {
        Pow10(a + b);
        10 * Pow10(a + b - 1);
        10 * (Pow10(a) * Pow10(b - 1));
        Pow10(a) * (10 * Pow10(b - 1));
      }
    }
  }

  /** `String(n)` for a non-negative integer: its shortest decimal form. */
  function Dec(n: nat): (s: string)
    ensures |s| >= 1 && AllDigits(s)
  {
    if n < 10 then [DigitChar(n)] else Dec(n / 10) + [DigitChar(n % 10)]
  }

  /** `String(n)` for any integer. */
  function IntToString(n: int): string {
    if n < 0 then "-" + Dec(-n) else Dec(n)
  }

  /** The number a string of decimal digits denotes (leading zeros allowed,
      the empty string denotes 0). */
  function ValueOf(s: string): nat
    requires AllDigits(s)
  {
    if |s| == 0 then 0 else ValueOf(s[..|s| - 1]) * 10 + DigitValue(s[|s| - 1])
  }

  /** Reading back the decimal form of `n` gives `n`. */
  lemma {:induction false} ValueOfDec(n: nat)
    ensures ValueOf(Dec(n)) == n
    decreases n
  {
    var d := Dec(n);
    if n < 10 {
      assert d[..0] == [];
      DigitValueOfChar(n);
    } else {
      var q := n / 10;
      assert d == Dec(q) + [DigitChar(n % 10)];
      assert d[..|d| - 1] == Dec(q);
      assert d[|d| - 1] == DigitChar(n % 10);
      DigitValueOfChar(n % 10);
      ValueOfDec(q);
      assert ValueOf(d) == q * 10 + n % 10;
    }
  }

  lemma {:induction false} ValueOfAppend(s: string, t: string)
    requires AllDigits(s) && AllDigits(t)
    ensures AllDigits(s + t)
    ensures ValueOf(s + t) == ValueOf(s) * Pow10(|t|) + ValueOf(t)
    decreases |t|
  {
    assert AllDigits(s + t) by {
      forall i | 0 <= i < |s + t| ensures IsDigit((s + t)[i]) {
        if i < |s| { assert (s + t)[i] == s[i]; } else { assert (s + t)[i] == t[i - |s|]; }
      }
    }
    if |t| == 0 {
      assert s + t == s;
    } else {
      var t' := t[..|t| - 1];
      var d := DigitValue(t[|t| - 1]);
      assert (s + t)[..|s + t| - 1] == s + t';
      assert (s + t)[|s + t| - 1] == t[|t| - 1];
      ValueOfAppend(s, t');
      assert ValueOf(s + t) == ValueOf(s + t') * 10 + d;
      assert ValueOf(t) == ValueOf(t') * 10 + d;
      ShiftDigit(ValueOf(s), Pow10(|t'|), ValueOf(t'), d);
    }
  }

  lemma ShiftDigit(a: int, p: int, b: int, d: int)
    ensures (a * p + b) * 10 + d == a * (10 * p) + (b * 10 + d)
  {
  }

  /** A `k`-digit string denotes less than `10^k`; without a leading zero it
      denotes at least `10^(k-1)`. */
  lemma {:induction false} ValueOfBounds(s: string)
    requires AllDigits(s)
    ensures ValueOf(s) < Pow10(|s|)
    ensures |s| >= 1 && s[0] != '0' ==> Pow10(|s| - 1) <= ValueOf(s)
    decreases |s|
  {
    if |s| > 0 {
      var s' := s[..|s| - 1];
      ValueOfBounds(s');
      if |s| >= 2 && s[0] != '0' {
        assert s'[0] == s[0];
      }
      if |s| == 1 && s[0] != '0' {
        assert DigitValue(s[0]) >= 1;
      }
    }
  }

  /** A digit string without a leading zero is the decimal form of its value. */
  lemma {:induction false} DecValueOf(s: string)
    requires AllDigits(s) && |s| >= 1
    requires s[0] != '0' || |s| == 1
    ensures Dec(ValueOf(s)) == s
    decreases |s|
  {
    if |s| == 1 {
      assert s[..0] == [];
      assert s == [s[0]];
    } else {
      var s' := s[..|s| - 1];
      assert s'[0] == s[0];
      ValueOfBounds(s');
      Pow10Monotone(0, |s'| - 1);
      DecValueOf(s');
      var v := ValueOf(s);
      assert v / 10 == ValueOf(s') && v % 10 == DigitValue(s[|s| - 1]);
      assert s == s' + [s[|s| - 1]];
    }
  }

  /** Only zero is written with a leading `'0'`. */
  lemma {:induction false} DecLeadingDigit(n: nat)
    ensures Dec(n)[0] == '0' <==> n == 0
    decreases n
  {
    if n >= 10 {
      DecLeadingDigit(n / 10);
      assert Dec(n)[0] == Dec(n / 10)[0];
    }
  }

  /** The number of decimal digits of a positive `n` fixes its magnitude. */
  lemma DecLengthBounds(n: nat)
    ensures n < Pow10(|Dec(n)|)
    ensures n >= 1 ==> Pow10(|Dec(n)| - 1) <= n
  {
    ValueOfDec(n);
    ValueOfBounds(Dec(n));
    if n >= 1 { DecLeadingDigit(n); }
  }

  /** `Dec` is injective. */
  lemma DecInjective(a: nat, b: nat)
    requires Dec(a) == Dec(b)
    ensures a == b
  {
    ValueOfDec(a);
    ValueOfDec(b);
  }

  /** A decimal numeral holds nothing but digits. */
  lemma NoCharInDec(n: nat, c: char)
    requires !IsDigit(c)
    ensures c !in Dec(n)
  {
    var s := Dec(n);
    forall k | 0 <= k < |s| ensures s[k] != c {
      assert IsDigit(s[k]);
    }
  }

  // ---------------------------------------------------------------------------
  // parseInt(s, 10) and Number(s)
  // ---------------------------------------------------------------------------

  /** The longest prefix of `s` made of decimal digits. */
  function DigitPrefix(s: string): (r: string)
    ensures |r| <= |s| && r == s[..|r|] && AllDigits(r)
    ensures |r| < |s| ==> !IsDigit(s[|r|])
  {
    if |s| > 0 && IsDigit(s[0]) then [s[0]] + DigitPrefix(s[1..]) else ""
  }

  /** An optional `+`/`-` sign at the head of `s`: whether it negates, and
      what follows it. */
  function SplitSign(s: string): (bool, string) {
    if |s| > 0 && s[0] == '-' then (true, s[1..])
    else if |s| > 0 && s[0] == '+' then (false, s[1..])
    else (false, s)
  }

  function Signed(negative: bool, v: nat): int {
    var x: int := v;
    if negative then -x else x
  }

  /** `parseInt(s, 10)`: skip leading whitespace, read an optional sign and
      then the longest run of digits; `None` (NaN) when there is no digit. */
  function ParseInt(s: string): Option<int> {
    var (negative, rest) := SplitSign(TrimStart(s));
    var digits := DigitPrefix(rest);
    if |digits| == 0 then None else Some(Signed(negative, ValueOf(digits)))
  }

  /** `Number(s)` on the integer decimal texts: surrounding whitespace is
      ignored, blank text is 0, otherwise an optional sign and one or more
      digits and nothing else; `None` (NaN) for any other text. */
  function JsNumber(s: string): Option<int> {
    var t := Trim(s);
    if |t| == 0 then Some(0)
    else
      var (negative, rest) := SplitSign(t);
      if |rest| > 0 && AllDigits(rest) then Some(Signed(negative, ValueOf(rest))) else None
  }

  lemma DigitPrefixOfDec(n: nat, rest: string)
    requires |rest| > 0 ==> !IsDigit(rest[0])
    ensures DigitPrefix(Dec(n) + rest) == Dec(n)
  {
    DigitPrefixAll(Dec(n), rest);
  }

  lemma {:induction false} DigitPrefixAll(d: string, rest: string)
    requires AllDigits(d)
    requires |rest| > 0 ==> !IsDigit(rest[0])
    ensures DigitPrefix(d + rest) == d
    decreases |d|
  {
    if |d| > 0 {
      assert (d + rest)[1..] == d[1..] + rest;
      DigitPrefixAll(d[1..], rest);
      assert d == [d[0]] + d[1..];
    } else {
      assert d + rest == rest;
    }
  }

  /** `parseInt` reads back the decimal form of an integer, whatever
      non-digit text follows it. */
  lemma ParseIntOfDec(n: nat, rest: string)
    requires |rest| > 0 ==> !IsDigit(rest[0])
    ensures ParseInt(Dec(n) + rest) == Some(n)
  {
    var s := Dec(n) + rest;
    assert s[0] == Dec(n)[0];
    DigitNotWhitespace(s[0]);
    TrimStartOfTrimmed(s);
    assert SplitSign(s) == (false, s);
    DigitPrefixOfDec(n, rest);
    ValueOfDec(n);
  }

  /** `Number` reads back the decimal form of an integer. */
  lemma JsNumberOfDec(n: nat)
    ensures JsNumber(Dec(n)) == Some(n)
  {
    var s := Dec(n);
    DigitNotWhitespace(s[0]);
    DigitNotWhitespace(s[|s| - 1]);
    TrimStartOfTrimmed(s);
    TrimEndOfTrimmed(s);
    assert Trim(s) == s;
    assert SplitSign(s) == (false, s);
    ValueOfDec(n);
  }

  // ---------------------------------------------------------------------------
  // Case and substrings
  // ---------------------------------------------------------------------------

  function LowerChar(c: char): char {
    if 'A' <= c <= 'Z' then (c as int + 32) as char else c
  }

  /** `toLowerCase` on the ASCII letters; every other character is kept. */
  function ToLower(s: string): (r: string)
    ensures |r| == |s|
    ensures forall i :: 0 <= i < |s| ==> r[i] == LowerChar(s[i])
  {
    if |s| == 0 then "" else [LowerChar(s[0])] + ToLower(s[1..])
  }

  /** `s.includes(sub)`. */
  predicate Contains(s: string, sub: string) {
    exists i :: 0 <= i <= |s| && OccursAt(s, sub, i)
  }

  /** `sub` occurs in `s` starting at index `i`. */
  predicate OccursAt(s: string, sub: string, i: int) {
    0 <= i && i + |sub| <= |s| && s[i..i + |sub|] == sub
  }

  /** `sub` is found in `s` where it was put. */
  lemma ContainsAt(s: string, sub: string, i: nat)
    requires OccursAt(s, sub, i)
    ensures Contains(s, sub)
  {
  }

  /** A string containing `sub` still contains it with text appended. */
  lemma ContainsExtend(s: string, sub: string, tail: string)
    requires Contains(s, sub)
    ensures Contains(s + tail, sub)
  {
    var i: int :| 0 <= i <= |s| && OccursAt(s, sub, i);
    assert (s + tail)[i..i + |sub|] == s[i..i + |sub|];
    assert OccursAt(s + tail, sub, i);
  }

  /** `s.startsWith(prefix)`, with ASCII letters compared case-insensitively. */
  predicate StartsWithIgnoreCase(s: string, prefix: string) {
    |prefix| <= |s| && ToLower(s[..|prefix|]) == ToLower(prefix)
  }
}

=== FILE: nav.dfy ===
/**
 The day navigation of `assets/js/ui.nav.js`: which day links `buildDayNav`
 emits for a configuration, in which order and in which state, and which of
 them `setActiveDay` marks. The list element is the sequence of links; the
 DOM is not modelled.
 */
module DayNav {
  import opened Wrappers
  import opened JsText
  import opened JsonValue
  import Settings

  /** A day link: a working link to the day's page, or a greyed-out entry. */
  datatype Entry = Enabled(day: int) | Disabled(day: int)

  /** A link in the list, with its `active` class. */
  datatype Link = Link(entry: Entry, active: bool)

  /** The three inputs the builder reads from the configuration. */
  datatype Options = Options(totalDays: int, maxAvailable: int, showDisabled: bool)

  /** The `href` of an entry. */
  function Href(e: Entry): string {
    match e
    case Enabled(d) => "#" + IntToString(d)
    case Disabled(_) => "javascript:void(0)"
  }

  /** The defensive defaults: `totalDays` is 25 unless an integer,
      `maxAvailableDay` is `totalDays` unless an integer, and disabled days are
      shown unless the flag is exactly `false`. A missing or non-object `nav`
      counts as `{}`. */
  function OptionsOf(config: Json): (o: Options)
    ensures IsInteger(Member(config, "totalDays")) ==> o.totalDays == Member(config, "totalDays").value.n
    ensures !IsInteger(Member(config, "totalDays")) ==> o.totalDays == 25
    ensures IsInteger(MemberOpt(Member(config, "nav"), "maxAvailableDay")) ==>
              o.maxAvailable == MemberOpt(Member(config, "nav"), "maxAvailableDay").value.n
    ensures !IsInteger(MemberOpt(Member(config, "nav"), "maxAvailableDay")) ==> o.maxAvailable == o.totalDays
    ensures !o.showDisabled <==> MemberOpt(Member(config, "nav"), "showDisabledFutureDays") == Some(JBool(false))
  {
    var total := Member(config, "totalDays");
    var totalDays := if IsInteger(total) then total.value.n else 25;
    var nav := Or(Member(config, "nav"), JObj(map[]));
    var max := Member(nav, "maxAvailableDay");
    Options(
      totalDays,
      if IsInteger(max) then max.value.n else totalDays,
      NotFalse(Member(nav, "showDisabledFutureDays")))
  }

  /** How many of the days `1..n` get an entry: all of them when disabled
      days are shown, otherwise only the available ones. */
  function ShownCount(o: Options, n: int): nat {
    var upTo := if n < 0 then 0 else n;
    if o.showDisabled then upTo
    else if o.maxAvailable < 0 then 0
    else if o.maxAvailable < upTo then o.maxAvailable
    else upTo
  }

  /** `buildDayNav`: one entry per day from 1 to `totalDays`, enabled up to
      `maxAvailable`, then disabled or left out. The days listed are exactly
      `1, 2, …, |r|` in increasing order, a disabled entry appears only when
      disabled days are shown, and no link is active. */
  method BuildDayNav(o: Options) returns (r: seq<Link>)
    ensures |r| == ShownCount(o, o.totalDays)
    ensures forall i :: 0 <= i < |r| ==> r[i].entry.day == i + 1
    ensures forall i :: 0 <= i < |r| ==> (r[i].entry.Enabled? <==> r[i].entry.day <= o.maxAvailable)
    ensures forall i :: 0 <= i < |r| ==> !r[i].active
    ensures forall i, j :: 0 <= i < j < |r| ==> r[i].entry.day < r[j].entry.day
    ensures forall i :: 0 <= i < |r| ==> 1 <= r[i].entry.day <= o.totalDays
    ensures forall i :: 0 <= i < |r| && r[i].entry.Disabled? ==> o.showDisabled
    ensures o.showDisabled && o.totalDays >= 0 ==> |r| == o.totalDays
  {
    r := [];
    var day := 1;
    while day <= o.totalDays
      invariant 1 <= day && (o.totalDays >= 0 ==> day <= o.totalDays + 1)
      invariant o.totalDays < 0 ==> day == 1
      invariant |r| == ShownCount(o, day - 1)
      invariant forall i :: 0 <= i < |r| ==> r[i].entry.day == i + 1
      invariant forall i :: 0 <= i < |r| ==> (r[i].entry.Enabled? <==> r[i].entry.day <= o.maxAvailable)
      invariant forall i :: 0 <= i < |r| ==> !r[i].active
      decreases o.totalDays - day
    {
      if day <= o.maxAvailable {
        r := r + [Link(Enabled(day), false)];
      } else if o.showDisabled {
        r := r + [Link(Disabled(day), false)];
      }
      day := day + 1;
    }
  }

  /** Whether `setActiveDay` marks a link: the given day is a non-zero
      number equal to the day parsed back from the link's `data-day`. */
  predicate Marks(l: Link, dayOrNull: Option<int>) {
    dayOrNull.Some? && dayOrNull.value != 0 && ParseInt(IntToString(l.entry.day)) == Some(dayOrNull.value)
  }

  /** `setActiveDay`: every link keeps its entry and gets the `active` class
      when it is marked. */
  function SetActiveDay(links: seq<Link>, dayOrNull: Option<int>): (r: seq<Link>)
    ensures |r| == |links|
    ensures forall i :: 0 <= i < |r| ==> r[i].entry == links[i].entry
  {
    seq(|links|, i requires 0 <= i < |links| => links[i].(active := Marks(links[i], dayOrNull)))
  }

  /** A link is marked exactly when the given day is a non-zero number equal
      to the link's day: the day's text reads back as the day. */
  lemma MarksTheDay(links: seq<Link>, dayOrNull: Option<int>)
    ensures forall i :: 0 <= i < |links| ==>
              (SetActiveDay(links, dayOrNull)[i].active <==>
                 dayOrNull.Some? && dayOrNull.value != 0 && links[i].entry.day == dayOrNull.value)
  {
    forall i | 0 <= i < |links|
      ensures Marks(links[i], dayOrNull) <==>
                dayOrNull.Some? && dayOrNull.value != 0 && links[i].entry.day == dayOrNull.value
    {
      ParseIntOfIntString(links[i].entry.day);
    }
  }

  /** Marking day `d` of a freshly built list activates exactly the entry
      at position `d - 1`; `null` and 0 activate nothing. */
  lemma ActiveIsTheDay(r: seq<Link>, d: int)
    requires forall i :: 0 <= i < |r| ==> r[i].entry.day == i + 1
    ensures forall i :: 0 <= i < |r| ==> (SetActiveDay(r, Some(d))[i].active <==> i == d - 1)
    ensures forall i :: 0 <= i < |r| ==> !SetActiveDay(r, None)[i].active && !SetActiveDay(r, Some(0))[i].active
  {
    MarksTheDay(r, Some(d));
    MarksTheDay(r, None);
    MarksTheDay(r, Some(0));
  }

  /** The resolved settings feed the builder their own `totalDays`,
      `nav.maxAvailableDay` and `nav.showDisabledFutureDays`. */
  lemma OptionsOfResolved(c: Settings.Config)
    ensures OptionsOf(Settings.ToJson(c))
         == Options(c.totalDays, c.nav.maxAvailableDay, c.nav.showDisabledFutureDays)
  {
    var j := Settings.ToJson(c);
    assert Member(j, "totalDays") == Some(JNum(c.totalDays));
    var nav := c.nav.extra["showDisabledFutureDays" := JBool(c.nav.showDisabledFutureDays)]
                          ["maxAvailableDay" := JNum(c.nav.maxAvailableDay)];
    assert Member(j, "nav") == Some(JObj(nav));
    assert Member(JObj(nav), "maxAvailableDay") == Some(JNum(c.nav.maxAvailableDay));
    assert Member(JObj(nav), "showDisabledFutureDays") == Some(JBool(c.nav.showDisabledFutureDays));
  }

  /** With resolved settings the list shows every contest day and enables
      exactly the unlocked ones, whatever the overrides say. */
  method BuildFromSettings(c: Settings.Config, today: Settings.Date) returns (r: seq<Link>)
    requires Settings.Derived(c, today) && today.dayOfMonth >= 0 && c.nav.showDisabledFutureDays
    ensures |r| == Settings.DayCount(c.year)
    ensures forall i :: 0 <= i < |r| ==>
              (r[i].entry.Enabled? <==> i + 1 <= Settings.UnlockedDays(c.year, c.totalDays, today))
  {
    OptionsOfResolved(c);
    r := BuildDayNav(OptionsOf(Settings.ToJson(c)));
  }
}

=== FILE: ranges.dfy ===
/**
 How the 2025 puzzle solutions read their input: the lines of the trimmed
 input for the dial puzzle, and the comma-separated `min-max` ranges of the
 ID puzzles, each bound read with `Number`.
 */
module PuzzleInput {
  import opened Wrappers
  import opened JsText

  /** The piece of a line break that `\r?\n` also consumes. */
  function DropCR(p: string): (r: string)
    ensures '\r' !in p ==> r == p
  {
    if |p| > 0 && p[|p| - 1] == '\r' then p[..|p| - 1] else p
  }

  /** `input.trim().split(/\r?\n/)`: the pieces between line breaks, where a
      `\r` just before a `\n` belongs to the break. */
  function Lines(input: string): (r: seq<string>)
    ensures |r| == |Split(Trim(input), '\n')| >= 1
    ensures forall i :: 0 <= i < |r| ==> '\n' !in r[i]
  {
    var pieces := Split(Trim(input), '\n');
    seq(|pieces|, i requires 0 <= i < |pieces| =>
      if i < |pieces| - 1 then DropCR(pieces[i]) else pieces[i])
  }

  /** Without carriage returns the lines joined by `\n` give the trimmed
      input back. */
  lemma LinesJoin(input: string)
    requires '\r' !in input
    ensures Join(Lines(input), '\n') == Trim(input)
  {
    var t := Trim(input);
    TrimInfix(input);
    assert '\r' !in t;
    var pieces := Split(t, '\n');
    JoinSplit(t, '\n');
    forall i | 0 <= i < |pieces| ensures '\r' !in pieces[i] {
      JoinPieceIn(pieces, '\n', i);
    }
    var lines := Lines(input);
    forall i | 0 <= i < |pieces| ensures lines[i] == pieces[i] {
      assert DropCR(pieces[i]) == pieces[i];
    }
    assert lines == pieces;
  }

  /** Lines written with `\r\n` line breaks. */
  function CrlfJoin(lines: seq<string>): string
    requires |lines| >= 1
  {
    if |lines| == 1 then lines[0] else lines[0] + "\r\n" + CrlfJoin(lines[1..])
  }

  /** The lines with the `\r` of their line break still attached. */
  function WithCR(lines: seq<string>): (r: seq<string>)
    ensures |r| == |lines|
  {
    seq(|lines|, i requires 0 <= i < |lines| => if i < |lines| - 1 then lines[i] + "\r" else lines[i])
  }

  lemma {:induction false} CrlfJoinIsJoin(lines: seq<string>)
    requires |lines| >= 1
    ensures CrlfJoin(lines) == Join(WithCR(lines), '\n')
    decreases |lines|
  {
    if |lines| > 1 {
      CrlfJoinIsJoin(lines[1..]);
      assert WithCR(lines)[1..] == WithCR(lines[1..]);
      assert lines[0] + "\r\n" == (lines[0] + "\r") + ['\n'];
    }
  }

  /** Lines free of line-break characters, written with `\r\n` breaks, are
      read back as themselves: the `\r` of each break is dropped. */
  lemma LinesCrlf(input: string, lines: seq<string>)
    requires |lines| >= 1
    requires forall i :: 0 <= i < |lines| ==> '\r' !in lines[i] && '\n' !in lines[i]
    requires Trim(input) == CrlfJoin(lines)
    ensures Lines(input) == lines
  {
    CrlfJoinIsJoin(lines);
    SplitWithCR(lines);
    LinesOfPieces(input, lines);
  }

  /** The `\r\n`-joined lines split at `\n` into the lines with their `\r`. */
  lemma SplitWithCR(lines: seq<string>)
    requires |lines| >= 1
    requires forall i :: 0 <= i < |lines| ==> '\n' !in lines[i]
    ensures Split(Join(WithCR(lines), '\n'), '\n') == WithCR(lines)
  {
    var w := WithCR(lines);
    forall i | 0 <= i < |w| ensures '\n' !in w[i] {
      if i < |w| - 1 {
        assert forall c :: c in w[i] ==> c in lines[i] || c == '\r';
      }
    }
    SplitJoin(w, '\n');
  }

  /** Dropping the `\r` of every piece but the last gives the lines back. */
  lemma LinesOfPieces(input: string, lines: seq<string>)
    requires |lines| >= 1
    requires forall i :: 0 <= i < |lines| ==> '\r' !in lines[i]
    requires Split(Trim(input), '\n') == WithCR(lines)
    ensures Lines(input) == lines
  {
    var w := WithCR(lines);
    var r := Lines(input);
    forall i | 0 <= i < |lines| ensures r[i] == lines[i] {
      if i < |lines| - 1 {
        assert w[i][..|w[i]| - 1] == lines[i];
        assert DropCR(w[i]) == lines[i];
      } else {
        assert lines[i] == w[i];
        assert DropCR(lines[i]) == lines[i];
      }
    }
  }

  /** Every character of a piece is a character of the joined string. */
  lemma {:induction false} JoinPieceIn(pieces: seq<string>, sep: char, i: nat)
    requires |pieces| >= 1 && i < |pieces|
    ensures forall c :: c in pieces[i] ==> c in Join(pieces, sep)
    decreases i
  {
    if |pieces| > 1 {
      if i == 0 {
        assert Join(pieces, sep) == pieces[0] + ([sep] + Join(pieces[1..], sep));
      } else {
        JoinPieceIn(pieces[1..], sep, i - 1);
        assert Join(pieces, sep) == (pieces[0] + [sep]) + Join(pieces[1..], sep);
      }
    }
  }

  /** Every character of the trimmed text is in the text. */
  lemma TrimInfix(s: string)
    ensures forall c :: c in Trim(s) ==> c in s
  {
    var i, j :| 0 <= i <= j <= |s| && Trim(s) == s[i..j];
    forall c | c in s[i..j] ensures c in s {
      var k :| 0 <= k < j - i && s[i..j][k] == c;
      assert s[i + k] == c;
    }
  }

  // ---------------------------------------------------------------------------
  // Ranges
  // ---------------------------------------------------------------------------

  /** A bound as the solutions hold it: a number, `NaN`, or `undefined` when
      the range has no second part. */
  datatype Num = Int(v: int) | NaN | Undefined

  /** `Number(text)`. */
  function NumberOf(s: string): (n: Num)
    ensures n.Int? || n.NaN?
  {
    match JsNumber(s)
    case Some(v) => Int(v)
    case None => NaN
  }

  datatype Range = Range(min: Num, max: Num)

  /** `const [min, max] = range.split('-').map(Number)`. */
  function ParseRange(piece: string): (r: Range)
    ensures r.min.Int? || r.min.NaN?
    ensures r.max.Undefined? <==> '-' !in piece
  {
    var parts := Split(piece, '-');
    SplitSingle(piece, '-');
    Range(NumberOf(parts[0]), if |parts| >= 2 then NumberOf(parts[1]) else Undefined)
  }

  /** A string splits into one piece exactly when it has no separator. */
  lemma {:induction false} SplitSingle(s: string, sep: char)
    ensures |Split(s, sep)| == 1 <==> sep !in s
    decreases |s|
  {
    if |s| > 0 {
      SplitSingle(s[1..], sep);
      assert sep in s <==> s[0] == sep || sep in s[1..];
    }
  }

  /** `input.split(',').map(...)`. */
  function ParseRanges(input: string): (r: seq<Range>)
    ensures |r| == |Split(input, ',')|
    ensures forall i :: 0 <= i < |r| ==> r[i] == ParseRange(Split(input, ',')[i])
  {
    var pieces := Split(input, ',');
    seq(|pieces|, i requires 0 <= i < |pieces| => ParseRange(pieces[i]))
  }

  /** The text of a range of non-negative bounds. */
  function RangeText(lo: nat, hi: nat): string {
    Dec(lo) + "-" + Dec(hi)
  }

  /** A range written out is read back. */
  lemma ParseRangeText(lo: nat, hi: nat)
    ensures ParseRange(RangeText(lo, hi)) == Range(Int(lo), Int(hi))
  {
    NoCharInDec(lo, '-');
    NoCharInDec(hi, '-');
    assert RangeText(lo, hi) == Join([Dec(lo), Dec(hi)], '-');
    SplitJoin([Dec(lo), Dec(hi)], '-');
    JsNumberOfDec(lo);
    JsNumberOfDec(hi);
  }

  /** A comma-separated list of written-out ranges is read back range by
      range. */
  lemma ParseRangesText(bounds: seq<(nat, nat)>)
    requires |bounds| >= 1
    ensures var texts := seq(|bounds|, i requires 0 <= i < |bounds| => RangeText(bounds[i].0, bounds[i].1));
      ParseRanges(Join(texts, ',')) == seq(|bounds|, i requires 0 <= i < |bounds| => Range(Int(bounds[i].0), Int(bounds[i].1)))
  {
    var texts := seq(|bounds|, i requires 0 <= i < |bounds| => RangeText(bounds[i].0, bounds[i].1));
    forall i | 0 <= i < |texts| ensures ',' !in texts[i] {
      NoCharInDec(bounds[i].0, ',');
      NoCharInDec(bounds[i].1, ',');
    }
    SplitJoin(texts, ',');
    forall i | 0 <= i < |bounds| ensures ParseRange(texts[i]) == Range(Int(bounds[i].0), Int(bounds[i].1)) {
      ParseRangeText(bounds[i].0, bounds[i].1);
    }
  }
}

=== FILE: repeated.dfy ===
/**
 The "repeated ID" puzzle of `solutions/2025/2-2.js`: for each range, add up
 the numbers whose text is some block of characters repeated at least
 twice. Unlike the doubled-ID solution this one tries every number of the
 range and every block length that divides the text.
 */
module RepeatedIds {
  import opened Wrappers
  import opened JsText
  import opened PuzzleInput
  import DoubledIds

  /** `block.repeat(times)`. */
  function Repeat(block: string, times: nat): string {
    if times == 0 then "" else block + Repeat(block, times - 1)
  }

  /** `times` copies of the block are `times` times as long. */
  lemma {:induction false} RepeatLength(block: string, times: nat)
    ensures |Repeat(block, times)| == times * |block|
    decreases times
  {
    if times > 0 {
      RepeatLength(block, times - 1);
    }
  }

  /** Some block length from 1 to half the text divides the text's length,
      and the first block of that length repeated fills the text. */
  predicate IsRepetition(str: string) {
    exists k :: 1 <= k <= |str| / 2 && |str| % k == 0 && Repeat(str[..k], |str| / k) == str
  }

  /** The id is invalid when its text is a repetition. */
  predicate IsInvalidId(n: int) {
    IsRepetition(IntToString(n))
  }

  /** `isInvalidId` after `toString`: every block length up to half the
      text, skipping lengths that do not divide it, with the guard against
      a leading `0` checked before each. */
  method InvalidText(str: string) returns (b: bool)
    ensures b <==> |str| >= 1 && str[0] != '0' && IsRepetition(str)
  {
    var len := |str|;
    var k := 1;
    while k <= len / 2
      invariant 1 <= k <= len / 2 + 1
      invariant forall j :: 1 <= j < k && len % j == 0 ==> Repeat(str[..j], len / j) != str
    {
      if str[0] == '0' {
        return false;
      }
      if len % k == 0 {
        if Repeat(str[..k], len / k) == str {
          return true;
        }
      }
      k := k + 1;
    }
    return false;
  }

  /** `isInvalidId(n)`: the leading-zero guard never fires on an integer's
      text, so the answer is whether the text is a repetition. */
  method InvalidId(n: int) returns (b: bool)
    ensures b == IsInvalidId(n)
  {
    NoLeadingZero(n);
    b := InvalidText(IntToString(n));
  }

  /** The text of an integer starts with `0` only when it is `0` itself. */
  lemma NoLeadingZero(n: int)
    ensures |IntToString(n)| >= 2 ==> IntToString(n)[0] != '0'
  {
    if n >= 0 {
      DecLeadingDigit(n);
    }
  }

  // ---------------------------------------------------------------------------
  // Which ids are invalid
  // ---------------------------------------------------------------------------

  /** A text that is a block of length `k` repeated `t >= 2` times is a
      repetition. */
  lemma RepeatedIsRepetition(block: string, t: nat)
    requires |block| >= 1 && t >= 2
    ensures IsRepetition(Repeat(block, t))
  {
    var str := Repeat(block, t);
    var k := |block|;
    RepeatLength(block, t);
    DivExact(t, k);
    assert str == block + Repeat(block, t - 1);
    assert str[..k] == block;
    assert 1 <= k <= |str| / 2 && |str| % k == 0 && Repeat(str[..k], |str| / k) == str;
  }

  /** A multiple of `k` divides by `k` exactly. */
  lemma DivExact(t: nat, k: nat)
    requires k >= 1 && t >= 2
    ensures (t * k) % k == 0 && (t * k) / k == t && k <= (t * k) / 2
  {
    DivUnique(t * k, k, t, 0);
    assert t * k == 2 * k + (t - 2) * k;
  }

  /** Euclidean division has one quotient and one remainder. */
  lemma DivUnique(a: int, k: int, q: int, r: int)
    requires k >= 1 && a == q * k + r && 0 <= r < k
    ensures a / k == q && a % k == r
  {
    var q2, r2 := a / k, a % k;
    assert (q2 - q) * k == r - r2;
    if q2 > q {
      MulAtLeast(q2 - q, k);
    } else if q2 < q {
      MulAtLeast(q - q2, k);
    }
  }

  lemma MulAtLeast(x: int, k: nat)
    requires x >= 1 && k >= 1
    ensures x * k >= k
  {
  }

  /** A repetition is its first block repeated at least twice. */
  lemma RepetitionBlock(str: string) returns (block: string, t: nat)
    requires IsRepetition(str)
    ensures |block| >= 1 && t >= 2 && Repeat(block, t) == str
  {
    var k :| 1 <= k <= |str| / 2 && |str| % k == 0 && Repeat(str[..k], |str| / k) == str;
    QuotientAtLeastTwo(|str|, k);
    block, t := str[..k], |str| / k;
  }

  /** At most half the length fits at least twice. */
  lemma QuotientAtLeastTwo(len: int, k: int)
    requires 1 <= k <= len / 2
    ensures len / k >= 2
  {
  }

  /** An invalid id's text is some block repeated at least twice. */
  lemma InvalidBlock(n: int) returns (block: string, t: nat)
    requires IsInvalidId(n)
    ensures |block| >= 1 && t >= 2 && Repeat(block, t) == IntToString(n)
  {
    block, t := RepetitionBlock(IntToString(n));
  }

  /** An id whose text is some block repeated at least twice is invalid;
      `InvalidBlock` is the converse. */
  lemma RepeatedIsInvalid(n: int, block: string, t: nat)
    requires |block| >= 1 && t >= 2 && Repeat(block, t) == IntToString(n)
    ensures IsInvalidId(n)
  {
    RepeatedIsRepetition(block, t);
  }

  /** A block repeated at least twice holds its first character again just
      after the first block. */
  lemma RepeatSecondBlock(block: string, t: nat)
    requires |block| >= 1 && t >= 2
    ensures var r := Repeat(block, t); |r| > |block| && r[0] == block[0] == r[|block|]
  {
    assert Repeat(block, t) == block + (block + Repeat(block, t - 2));
  }

  /** Invalid ids are positive numbers of at least two digits: a negative
      number's `-` would have to appear again, and one character cannot be
      repeated twice. */
  lemma InvalidIdsArePositive(n: int)
    ensures IsInvalidId(n) ==> n >= 10
  {
    if IsInvalidId(n) {
      var block, t := InvalidBlock(n);
      RepeatSecondBlock(block, t);
      if n < 10 {
        assert false;
      }
    }
  }

  /** Every doubled number is invalid here: the block is its first half,
      repeated twice. */
  lemma DoubledIsInvalid(n: int)
    requires DoubledIds.IsDoubled(n)
    ensures IsInvalidId(n)
  {
    var s := Dec(n);
    var h := s[..|s| / 2];
    assert s == h + h by { assert s == s[..|s| / 2] + s[|s| / 2..]; }
    assert Repeat(h, 1) == h + Repeat(h, 0) == h;
    assert Repeat(h, 2) == h + Repeat(h, 1);
    RepeatedIsInvalid(n, h, 2);
  }

  /** A block repeated three times is invalid here without being doubled. */
  lemma TripleNotDoubled()
    ensures IsInvalidId(111) && !DoubledIds.IsDoubled(111)
  {
    assert Dec(111) == "111";
    assert Repeat("1", 3) == "111";
    RepeatedIsInvalid(111, "1", 3);
  }

  // ---------------------------------------------------------------------------
  // Sums
  // ---------------------------------------------------------------------------

  /** The invalid ids of `lo .. hi`. */
  function InvalidSum(lo: int, hi: int): int
    decreases hi - lo
  {
    if hi < lo then 0 else InvalidSum(lo, hi - 1) + (if IsInvalidId(hi) then hi else 0)
  }

  /** What one range adds: `i <= max` and `i` starting at `min` are false
      from the start when a bound is `NaN` or `undefined`. */
  function RangeInvalidSum(r: Range): int {
    if r.min.Int? && r.max.Int? then InvalidSum(r.min.v, r.max.v) else 0
  }

  /** `sumInvalidIdsInRange`. */
  method SumInvalidIdsInRange(min: Num, max: Num) returns (sum: int)
    ensures sum == RangeInvalidSum(Range(min, max))
  {
    sum := 0;
    if !(min.Int? && max.Int?) {
      return;
    }
    var i := min.v;
    while i <= max.v
      invariant min.v <= i && (i <= max.v + 1 || i == min.v)
      invariant sum == InvalidSum(min.v, i - 1)
      decreases max.v - i
    {
      var invalid := InvalidId(i);
      if invalid {
        sum := sum + i;
      }
      i := i + 1;
    }
  }

  /** The answer for the parsed ranges. */
  function Total(ranges: seq<Range>): int {
    if |ranges| == 0 then 0
    else Total(ranges[..|ranges| - 1]) + RangeInvalidSum(ranges[|ranges| - 1])
  }

  /** The solution on its input. */
  method Solve(input: string) returns (total: int)
    ensures total == Total(ParseRanges(input))
  {
    total := SumRanges(ParseRanges(input));
  }

  /** The loop over the ranges. */
  method SumRanges(ranges: seq<Range>) returns (total: int)
    ensures total == Total(ranges)
  {
    total := 0;
    var i := 0;
    while i < |ranges|
      invariant 0 <= i <= |ranges|
      invariant total == Total(ranges[..i])
    {
      var s := SumInvalidIdsInRange(ranges[i].min, ranges[i].max);
      assert ranges[..i + 1][..i] == ranges[..i];
      total := total + s;
      i := i + 1;
    }
    assert ranges[..i] == ranges;
  }

  /** Every range adds at least as much here as the doubled numbers it
      holds. */
  lemma {:induction false} DoubledSumAtMostInvalidSum(lo: int, hi: int)
    ensures 0 <= DoubledIds.SumN(lo, hi) <= InvalidSum(lo, hi)
    decreases hi - lo
  {
    if hi >= lo {
      DoubledSumAtMostInvalidSum(lo, hi - 1);
      if DoubledIds.IsDoubled(hi) {
        DoubledIsInvalid(hi);
      } else {
        InvalidIdsArePositive(hi);
      }
    }
  }

  /** With numeric bounds everywhere, this answer is at least the
      doubled-ID answer on the same input. */
  lemma {:induction false} TotalAtLeastDoubled(ranges: seq<Range>)
    requires forall i :: 0 <= i < |ranges| ==> ranges[i].min.Int? && ranges[i].max.Int?
    ensures DoubledIds.Total(ranges) == Some(DoubledIds.DoubledSum(ranges))
    ensures DoubledIds.DoubledSum(ranges) <= Total(ranges)
    decreases |ranges|
  {
    DoubledIds.TotalIsDoubledSum(ranges);
    if |ranges| > 0 {
      var init := ranges[..|ranges| - 1];
      var last := ranges[|ranges| - 1];
      assert forall i :: 0 <= i < |init| ==> init[i] == ranges[i];
      TotalAtLeastDoubled(init);
      DoubledSumAtMostInvalidSum(last.min.v, last.max.v);
    }
  }
}

=== FILE: router.dfy ===
/**
 The hash router of `assets/js/router.js`: reading the day from the location
 hash, the fallback configuration used when the settings resolver is absent,
 and the welcome-or-day decision of `bootDay`.
 */
module Router {
  import opened Wrappers
  import opened JsText
  import opened JsonValue
  import DayNav
  import Settings
  import DayPage

  /** Where `c` first occurs in `s`. */
  function FirstIndex(s: string, c: char): (i: nat)
    requires c in s
    ensures i < |s| && s[i] == c && c !in s[..i]
  {
    if s[0] == c then 0
    else
      assert c in s[1..];
      var j := FirstIndex(s[1..], c);
      assert s[..j + 1] == [s[0]] + s[1..][..j];
      j + 1
  }

  /** `s.replace(c, '')` with a one-character pattern: only the first
      occurrence is removed. */
  function RemoveFirst(s: string, c: char): (r: string)
    ensures c !in s ==> r == s
    ensures c in s ==> r == s[..FirstIndex(s, c)] + s[FirstIndex(s, c) + 1..]
  {
    if |s| == 0 then ""
    else if s[0] == c then s[1..]
    else
      var rest := RemoveFirst(s[1..], c);
      assert c in s ==> [s[0]] + rest == s[..FirstIndex(s, c)] + s[FirstIndex(s, c) + 1..] by {
        if c in s {
          RemoveFirstStep(s, c);
        }
      }
      [s[0]] + rest
  }

  /** Removing around the first occurrence in the tail is removing around
      it in the whole string, when the head is not it. */
  lemma RemoveFirstStep(s: string, c: char)
    requires c in s && s[0] != c
    ensures c in s[1..] && FirstIndex(s, c) == FirstIndex(s[1..], c) + 1
    ensures var i := FirstIndex(s[1..], c);
      [s[0]] + (s[1..][..i] + s[1..][i + 1..]) == s[..i + 1] + s[i + 2..]
  {
    var i := FirstIndex(s[1..], c);
    assert s[..i + 1] == [s[0]] + s[1..][..i];
    assert s[i + 2..] == s[1..][i + 1..];
  }

  /** `getCurrentDayFromHash`: drop the first `#`, trim, read a decimal
      prefix; only a positive day counts. */
  function DayFromHash(hash: string): (r: Option<int>)
    ensures r.Some? ==> r.value >= 1
    ensures r.Some? <==> (var n := ParseInt(Trim(RemoveFirst(hash, '#'))); n.Some? && n.value >= 1)
  {
    var n := ParseInt(Trim(RemoveFirst(hash, '#')));
    if n.None? || n.value <= 0 then None else n
  }

  /** The hash an enabled navigation link points to routes back to its day. */
  lemma EnabledLinkRoutes(d: int)
    requires d >= 1
    ensures DayFromHash(DayNav.Href(DayNav.Enabled(d))) == Some(d)
  {
    var h := DayNav.Href(DayNav.Enabled(d));
    assert h == "#" + Dec(d);
    assert h[0] == '#';
    assert h[..0] + h[1..] == Dec(d);
    var s := Dec(d);
    DigitNotWhitespace(s[0]);
    DigitNotWhitespace(s[|s| - 1]);
    TrimStartOfTrimmed(s);
    TrimEndOfTrimmed(s);
    assert Trim(s) == s;
    ParseIntOfDec(d, "");
    assert s + "" == s;
  }

  /** What follows the `#` decides the day. */
  lemma HashBody(s: string)
    ensures DayFromHash("#" + s) ==
      (var n := ParseInt(Trim(s)); if n.None? || n.value <= 0 then None else n)
  {
    assert ("#" + s)[0] == '#' && ("#" + s)[1..] == s;
  }

  /** A hash holding a decimal number routes to that day when it is
      positive. */
  lemma HashOfNumber(n: nat)
    ensures DayFromHash("#" + Dec(n)) == if n >= 1 then Some(n) else None
  {
    HashBody(Dec(n));
    ParseTrimmedDec(n);
  }

  lemma ParseTrimmedDec(n: nat)
    ensures ParseInt(Trim(Dec(n))) == Some(n)
  {
    var s := Dec(n);
    DigitNotWhitespace(s[0]);
    DigitNotWhitespace(s[|s| - 1]);
    TrimOfTrimmed(s);
    ParseIntOfDec(n, "");
    assert s + "" == s;
  }

  /** A hash holding `-` and a number never routes. */
  lemma HashOfNegative(n: nat)
    ensures DayFromHash("#" + ("-" + Dec(n))) == None
  {
    HashBody("-" + Dec(n));
    ParseTrimmedNegative(n);
  }

  lemma ParseTrimmedNegative(n: nat)
    ensures ParseInt(Trim("-" + Dec(n))) == Some(-(n as int))
  {
    var s := "-" + Dec(n);
    AsciiNotWhitespace('-');
    DigitNotWhitespace(s[|s| - 1]);
    TrimOfTrimmed(s);
    assert s[1..] == Dec(n);
    ParseNegative(n, s);
  }

  lemma ParseNegative(n: nat, s: string)
    requires |s| > 0 && s[0] == '-' && s[1..] == Dec(n)
    ensures ParseInt(s) == Some(-(n as int))
  {
    AsciiNotWhitespace('-');
    TrimStartOfTrimmed(s);
    assert SplitSign(TrimStart(s)) == (true, Dec(n));
    WholeDigitPrefix(n);
    assert |DigitPrefix(Dec(n))| > 0;
  }

  lemma WholeDigitPrefix(n: nat)
    ensures DigitPrefix(Dec(n)) == Dec(n) && ValueOf(DigitPrefix(Dec(n))) == n
  {
    DigitPrefixOfDec(n, "");
    assert Dec(n) + "" == Dec(n);
    ValueOfDec(n);
  }

  /** A hash whose text starts with neither a sign nor a digit never
      routes. */
  lemma HashOfWord(s: string)
    requires |s| > 0 && '!' <= s[0] <= '~' && '!' <= s[|s| - 1] <= '~'
    requires !IsDigit(s[0]) && s[0] != '-' && s[0] != '+'
    ensures DayFromHash("#" + s) == None
  {
    HashBody(s);
    ParseTrimmedWord(s);
  }

  lemma ParseTrimmedWord(s: string)
    requires |s| > 0 && '!' <= s[0] <= '~' && '!' <= s[|s| - 1] <= '~'
    requires !IsDigit(s[0]) && s[0] != '-' && s[0] != '+'
    ensures ParseInt(Trim(s)) == None
  {
    AsciiNotWhitespace(s[0]);
    AsciiNotWhitespace(s[|s| - 1]);
    TrimOfTrimmed(s);
    ParseWord(s);
  }

  lemma ParseWord(s: string)
    requires |s| > 0 && '!' <= s[0] <= '~'
    requires !IsDigit(s[0]) && s[0] != '-' && s[0] != '+'
    ensures ParseInt(s) == None
  {
    AsciiNotWhitespace(s[0]);
    TrimStartOfTrimmed(s);
    assert SplitSign(s) == (false, s);
  }

  /** Whatever follows the number, from a non-digit on, is ignored. */
  lemma HashWithTrailing(n: nat, rest: string)
    requires |rest| > 0 && '!' <= rest[0] <= '~' && !IsDigit(rest[0]) && '!' <= rest[|rest| - 1] <= '~'
    ensures DayFromHash("#" + (Dec(n) + rest)) == if n >= 1 then Some(n) else None
  {
    HashBody(Dec(n) + rest);
    ParseTrimmedTrailing(n, rest);
  }

  lemma ParseTrimmedTrailing(n: nat, rest: string)
    requires |rest| > 0 && '!' <= rest[|rest| - 1] <= '~' && !IsDigit(rest[0])
    ensures ParseInt(Trim(Dec(n) + rest)) == Some(n)
  {
    var s := Dec(n) + rest;
    assert s[0] == Dec(n)[0] && s[|s| - 1] == rest[|rest| - 1];
    DigitNotWhitespace(s[0]);
    AsciiNotWhitespace(s[|s| - 1]);
    TrimOfTrimmed(s);
    ParseIntOfDec(n, rest);
  }

  /** An empty hash gives no day. */
  lemma HashEmpty()
    ensures DayFromHash("") == None
  {
    assert RemoveFirst("", '#') == "";
    assert Trim("") == "";
    assert TrimStart("") == "";
  }

  /** The object `getConfigFallback` builds. */
  datatype Fallback = Fallback(
    totalDays: int,
    firstDay: int,
    defaultDay: int,
    year: Json,
    autoLoadExample: bool,
    paths: map<string, Json>,
    nav: map<string, Json>)

  const DefaultPaths: map<string, Json> := map["inputs" := JStr("inputs"), "solutions" := JStr("solutions")]

  /** An integer property, or `dflt` when it is not an integer. */
  function IntOr(o: Option<Json>, dflt: int): (n: int)
    ensures IsInteger(o) ==> n == o.value.n
    ensures !IsInteger(o) ==> n == dflt
  {
    if IsInteger(o) then o.value.n else dflt
  }

  /** `getConfigFallback`, on `window.AOC_CONFIG` (possibly missing) and the
      clock's year. The configuration's `paths` and `nav` entries override
      the defaults, because their spreads come last. */
  function ConfigFallback(config: Option<Json>, currentYear: int): (f: Fallback)
    ensures var cfg := Or(config, JObj(map[]));
      && f.totalDays == IntOr(Member(cfg, "totalDays"), 25)
      && f.firstDay == IntOr(Member(cfg, "firstDay"), 1)
      && f.defaultDay == IntOr(Member(cfg, "defaultDay"), 1)
      && (TruthyOpt(Member(cfg, "year")) ==> f.year == Member(cfg, "year").value)
      && (!TruthyOpt(Member(cfg, "year")) ==> f.year == JNum(currentYear))
      && (f.autoLoadExample <==> Member(cfg, "autoLoadExample") != Some(JBool(false)))
      && f.paths.Keys == DefaultPaths.Keys + Spread(Or(Member(cfg, "paths"), JObj(map[]))).Keys
      && (forall k :: k in Spread(Or(Member(cfg, "paths"), JObj(map[]))) ==>
            k in f.paths && f.paths[k] == Spread(Or(Member(cfg, "paths"), JObj(map[])))[k])
      && (forall k :: k in Spread(Or(Member(cfg, "nav"), JObj(map[]))) ==>
            k in f.nav && f.nav[k] == Spread(Or(Member(cfg, "nav"), JObj(map[])))[k])
      && f.nav.Keys == {"maxAvailableDay", "showDisabledFutureDays"} + Spread(Or(Member(cfg, "nav"), JObj(map[]))).Keys
    ensures var paths := Spread(Or(Member(Or(config, JObj(map[])), "paths"), JObj(map[])));
      && ("inputs" !in paths ==> f.paths["inputs"] == JStr("inputs"))
      && ("solutions" !in paths ==> f.paths["solutions"] == JStr("solutions"))
    ensures var nav := Spread(Or(Member(Or(config, JObj(map[])), "nav"), JObj(map[])));
      && ("maxAvailableDay" !in nav ==> f.nav["maxAvailableDay"] == JNum(f.totalDays))
      && ("showDisabledFutureDays" !in nav ==> f.nav["showDisabledFutureDays"] == JBool(true))
  {
    var cfg := Or(config, JObj(map[]));
    var totalDays := IntOr(Member(cfg, "totalDays"), 25);
    var cfgNav := Member(cfg, "nav");
    Fallback(
      totalDays := totalDays,
      firstDay := IntOr(Member(cfg, "firstDay"), 1),
      defaultDay := IntOr(Member(cfg, "defaultDay"), 1),
      year := Or(Member(cfg, "year"), JNum(currentYear)),
      autoLoadExample := NotFalse(Member(cfg, "autoLoadExample")),
      paths := DefaultPaths + Spread(Or(Member(cfg, "paths"), JObj(map[]))),
      nav := map[
               "maxAvailableDay" := JNum(IntOr(MemberOpt(cfgNav, "maxAvailableDay"), totalDays)),
               "showDisabledFutureDays" := JBool(NotFalse(MemberOpt(cfgNav, "showDisabledFutureDays")))]
             + Spread(Or(cfgNav, JObj(map[]))))
  }

  /** Without any configuration the fallback is the 25-day layout with
      every day available, starting on day 1 of the clock's year. */
  lemma FallbackWithoutConfig(currentYear: int)
    ensures ConfigFallback(None, currentYear) == Fallback(
              25, 1, 1, JNum(currentYear), true, DefaultPaths,
              map["maxAvailableDay" := JNum(25), "showDisabledFutureDays" := JBool(true)])
  {
    var f := ConfigFallback(None, currentYear);
    assert DefaultPaths + map[] == DefaultPaths;
    assert f.nav == map["maxAvailableDay" := JNum(25), "showDisabledFutureDays" := JBool(true)] + map[];
  }

  /** A configured `nav.maxAvailableDay` that is not an integer is still
      what the fallback ends up with: the spread of `cfg.nav` overwrites the
      integer default computed just before it. */
  lemma NavSpreadOverridesDefault(v: Json, currentYear: int)
    requires !v.JNum?
    ensures var cfg := JObj(map["nav" := JObj(map["maxAvailableDay" := v])]);
            ConfigFallback(Some(cfg), currentYear).nav["maxAvailableDay"] == v
  {
    var cfg := JObj(map["nav" := JObj(map["maxAvailableDay" := v])]);
    var nav := JObj(map["maxAvailableDay" := v]);
    assert Member(cfg, "nav") == Some(nav);
    assert Spread(Or(Member(cfg, "nav"), JObj(map[]))) == map["maxAvailableDay" := v];
  }

  /** What `bootDay` does: nothing when the navigation or day module is
      missing, the welcome page when the hash names no day, otherwise that
      day's page. */
  datatype Boot = NotReady | Welcome | OpenDay(day: int)

  function BootDay(modulesReady: bool, hash: string): (b: Boot)
    ensures b.NotReady? <==> !modulesReady
    ensures b.Welcome? <==> modulesReady && DayFromHash(hash).None?
    ensures b.OpenDay? ==> modulesReady && DayFromHash(hash) == Some(b.day) && b.day >= 1
  {
    if !modulesReady then NotReady
    else
      var day := DayFromHash(hash);
      if day.None? then Welcome else OpenDay(day.value)
  }

  /** The navigation marking `bootDay` leaves behind. */
  function BootNav(links: seq<DayNav.Link>, modulesReady: bool, hash: string): (r: seq<DayNav.Link>)
    ensures !modulesReady ==> r == links
    ensures |r| == |links| && forall i :: 0 <= i < |r| ==> r[i].entry == links[i].entry
  {
    match BootDay(modulesReady, hash)
    case NotReady => links
    case Welcome => DayNav.SetActiveDay(links, None)
    case OpenDay(d) => DayNav.SetActiveDay(links, Some(d))
  }

  /** After booting, the active links are exactly those whose day the hash
      names; on the welcome page none is active. */
  lemma BootMarksHashDay(links: seq<DayNav.Link>, hash: string)
    ensures var r := BootNav(links, true, hash);
      && |r| == |links|
      && forall i :: 0 <= i < |r| ==>
           (r[i].active <==> DayFromHash(hash) == Some(links[i].entry.day))
  {
    var day := DayFromHash(hash);
    if day.None? {
      DayNav.MarksTheDay(links, None);
    } else {
      DayNav.MarksTheDay(links, Some(day.value));
    }
  }

  /** The page after `bootDay` decided `b`: unchanged without the modules,
      the welcome page, or the day's setup (`None` when the layout setting
      makes it throw). The welcome page is the corrected `DayPage.ShowWelcome`,
      which clears the template flags on failure too; `bootDay` as written
      calls the version modelled by `DayPage.ShowWelcomeAsWritten`. */
  function BootPage(p: DayPage.Page, config: Settings.Config, b: Boot,
                    server: DayPage.Server, libraryLoaded: bool, bodyAttr: Option<string>): (r: Option<DayPage.Page>)
    ensures b.NotReady? ==> r == Some(p)
    ensures b.Welcome? ==>
      && r.Some? && !r.value.container.loaded && r.value.container.name == ""
      && (r.value.container.content.File? <==> server("welcome.html").Ok?)
      && r.value.editors == p.editors && r.value.input == p.input
      && r.value.output1 == p.output1 && r.value.output2 == p.output2
    ensures b.OpenDay? ==> (r.Some? <==> DayPage.LayoutOf(Some(config.dayLayout)).Some?)
    ensures b.OpenDay? && r.Some? ==> r.value.output1 == "" && r.value.output2 == ""
  {
    match b
    case NotReady => Some(p)
    case Welcome => Some(p.(container := DayPage.ShowWelcome(p.container, server)))
    case OpenDay(d) => DayPage.SetupDay(p, config, d, server, libraryLoaded, bodyAttr)
  }

  /** Going to the welcome page and then to a day fetches that day's
      template again, whether or not the welcome page loaded: the container
      shows the template when it loads and the error otherwise. */
  lemma WelcomeThenDayShowsTemplate(p: DayPage.Page, config: Settings.Config, day: int,
                                    server: DayPage.Server, libraryLoaded: bool, bodyAttr: Option<string>)
    requires config.dayLayout.JStr?
    ensures var w := BootPage(p, config, Welcome, server, libraryLoaded, bodyAttr);
      var file := DayPage.TemplateFor(DayPage.LayoutOf(Some(config.dayLayout)).value);
      && w.Some?
      && var r := BootPage(w.value, config, OpenDay(day), server, libraryLoaded, bodyAttr);
      && r.Some?
      && (server(file).Ok? ==>
            r.value.container == DayPage.Container(DayPage.File(file, server(file).text), true, file))
      && (!server(file).Ok? ==>
            r.value.container == DayPage.Container(DayPage.Message(DayPage.TemplateError), false, ""))
  {
    var file := DayPage.TemplateFor(DayPage.LayoutOf(Some(config.dayLayout)).value);
    DayPage.WelcomeThenDayReloads(p.container, file, server);
  }
}

=== FILE: settings.dfy ===
/**
 The settings resolver of `assets/js/aoc.settings.js`: user overrides kept in
 browser storage are deep-merged over the default configuration, the legacy
 standalone theme key is folded in once, and the derived fields (day count of
 the selected year, highest unlocked day) are recomputed on every read.

 Storage is an explicit `Store` value, the clock is the `today` parameter and
 the `aocSettingsChanged` notifications are an explicit log of the settings
 each one carried.
 */
module Settings {
  import opened Wrappers
  import opened JsText
  import opened JsonValue

  // ---------------------------------------------------------------------------
  // State
  // ---------------------------------------------------------------------------

  /** The storage entry under `'aoc.settings'`: missing, present but not
      parseable as JSON, or a parsed JSON value. */
  datatype Slot = NoEntry | Unparsable | Entry(value: Json)

  /** The two storage keys the resolver touches: `'aoc.settings'` and the
      legacy `'theme'` key (a raw string, never JSON-parsed). */
  datatype Store = Store(settings: Slot, legacyTheme: Option<string>)

  /** The wall-clock date: full year, 0-based month (11 is December) and day of
      the month, as `getFullYear`, `getMonth` and `getDate` report them. */
  datatype Date = Date(year: int, month0: int, dayOfMonth: int)

  datatype Theme = Light | Dark

  /** The resolved `nav` object: every field copied from the configuration's
      and the overrides' `nav` objects (`extra`), plus the two fields the
      resolver always writes itself. */
  datatype Nav = Nav(extra: map<string, Json>, showDisabledFutureDays: bool, maxAvailableDay: int)

  /** The object `get()` returns. */
  datatype Config = Config(
    currentYear: int,
    year: int,
    theme: Theme,
    autoLoadExample: bool,
    autoLoadSolutions: bool,
    totalDays: int,
    paths: map<string, Json>,
    nav: Nav,
    dayLayout: Json)

  /** Storage together with every settings object a change notification has
      carried so far, oldest first. */
  datatype Env = Env(store: Store, events: seq<Config>)

  const DerivedNavKeys: set<string> := {"showDisabledFutureDays", "maxAvailableDay"}

  function ThemeName(t: Theme): string {
    if t == Light then "light" else "dark"
  }

  /** The two-value rule used everywhere: exactly `'light'` is light. */
  function NormalizeTheme(s: string): Theme {
    if s == "light" then Light else Dark
  }

  // ---------------------------------------------------------------------------
  // deepMerge
  // ---------------------------------------------------------------------------

  /** The fields of `m[k]` as a spread copies them (none when `k` is missing). */
  function SpreadAt(m: map<string, Json>, k: string): map<string, Json> {
    if k in m then Spread(m[k]) else map[]
  }

  /** `deepMerge` on the own fields of base and patch: patch keys win, except
      that an object-valued patch entry is merged recursively into whatever
      the base holds under that key. */
  function MergeFields(base: map<string, Json>, patch: map<string, Json>): (r: map<string, Json>)
    ensures r.Keys == base.Keys + patch.Keys
    ensures forall k :: k in base && k !in patch ==> r[k] == base[k]
    ensures forall k :: k in patch && !patch[k].JObj? ==> r[k] == patch[k]
    ensures forall k :: k in patch && patch[k].JObj? ==>
              r[k].JObj? && r[k].fields.Keys == SpreadAt(base, k).Keys + patch[k].fields.Keys
    decreases JObj(patch)
  {
    map k | k in base.Keys + patch.Keys ::
      if k in patch then
        (if patch[k].JObj? then JObj(MergeFields(SpreadAt(base, k), patch[k].fields)) else patch[k])
      else base[k]
  }

  /** `deepMerge(base, patch)`: always a new object. */
  function DeepMerge(base: Json, patch: Json): (r: Json)
    ensures r.JObj?
  {
    JObj(MergeFields(Spread(base), Spread(patch)))
  }

  /** The merge `r` of `patch` into `base` keeps what the patch does not
      touch, at every depth: base entries the patch lacks are unchanged, and
      under an object-valued patch entry the same holds one level down,
      against the spread of the base entry. */
  ghost predicate KeepsBase(r: map<string, Json>, base: map<string, Json>, patch: map<string, Json>)
    decreases JObj(patch)
  {
    && (forall k :: k in base && k !in patch ==> k in r && r[k] == base[k])
    && (forall k :: k in patch && patch[k].JObj? ==>
          k in r && r[k].JObj? && KeepsBase(r[k].fields, SpreadAt(base, k), patch[k].fields))
  }

  /** The merge is deep: nothing of the base the patch does not name is lost,
      however deeply nested. */
  lemma {:induction false} MergeKeepsBase(base: map<string, Json>, patch: map<string, Json>)
    ensures KeepsBase(MergeFields(base, patch), base, patch)
    decreases JObj(patch)
  {
    var r := MergeFields(base, patch);
    forall k | k in patch && patch[k].JObj?
      ensures k in r && r[k].JObj? && KeepsBase(r[k].fields, SpreadAt(base, k), patch[k].fields)
    {
      MergeKeepsBase(SpreadAt(base, k), patch[k].fields);
    }
  }

  /** A nested entry the patch's object does not name keeps its base value:
      a configured `nav.maxAvailableDay` survives stored overrides of other
      `nav` entries. */
  lemma NestedEntrySurvives(base: map<string, Json>, patch: map<string, Json>, outer: string, inner: string)
    requires outer in base && base[outer].JObj? && inner in base[outer].fields
    requires outer in patch && patch[outer].JObj? && inner !in patch[outer].fields
    ensures var r := MergeFields(base, patch);
      r[outer].JObj? && inner in r[outer].fields && r[outer].fields[inner] == base[outer].fields[inner]
  {
    MergeKeepsBase(base, patch);
    assert SpreadAt(base, outer) == base[outer].fields;
  }

  /** Every entry of patch `p` can be read back from `m`: scalars, arrays and
      `null` exactly, objects entry by entry. */
  ghost predicate Reflects(m: map<string, Json>, p: map<string, Json>)
    decreases JObj(p)
  {
    forall k :: k in p ==>
      && k in m
      && (if p[k].JObj? then m[k].JObj? && Reflects(m[k].fields, p[k].fields) else m[k] == p[k])
  }

  /** Patch `later` overwrites no entry of patch `earlier`: where both have a
      key, both values are objects and are themselves compatible. */
  ghost predicate Compatible(earlier: map<string, Json>, later: map<string, Json>)
    decreases JObj(earlier)
  {
    forall k :: k in earlier && k in later ==>
      && earlier[k].JObj? && later[k].JObj?
      && Compatible(earlier[k].fields, later[k].fields)
  }

  /** After a merge, the patch can be read back from the result. */
  lemma {:induction false} MergeReflectsPatch(base: map<string, Json>, patch: map<string, Json>)
    ensures Reflects(MergeFields(base, patch), patch)
    decreases JObj(patch)
  {
    var r := MergeFields(base, patch);
    forall k | k in patch
      ensures k in r
      ensures if patch[k].JObj? then r[k].JObj? && Reflects(r[k].fields, patch[k].fields) else r[k] == patch[k]
    {
      if patch[k].JObj? {
        MergeReflectsPatch(SpreadAt(base, k), patch[k].fields);
      }
    }
  }

  /** Merging a patch that the base already reflects changes nothing. */
  lemma {:induction false} MergeReflected(base: map<string, Json>, patch: map<string, Json>)
    requires Reflects(base, patch)
    ensures MergeFields(base, patch) == base
    decreases JObj(patch)
  {
    var r := MergeFields(base, patch);
    forall k | k in r ensures r[k] == base[k] {
      if k in patch && patch[k].JObj? {
        var inner := patch[k].fields;
        MergeReflected(base[k].fields, inner);
        assert SpreadAt(base, k) == base[k].fields;
      }
    }
  }

  /** Merging the same patch twice is merging it once. */
  lemma MergeIdempotent(base: map<string, Json>, patch: map<string, Json>)
    ensures MergeFields(MergeFields(base, patch), patch) == MergeFields(base, patch)
  {
    MergeReflectsPatch(base, patch);
    MergeReflected(MergeFields(base, patch), patch);
  }

  /** Successive merges accumulate: a later patch that overwrites none of an
      earlier patch's entries keeps that earlier patch readable. */
  lemma {:induction false} MergeKeepsEarlierPatch(m: map<string, Json>, earlier: map<string, Json>, later: map<string, Json>)
    requires Reflects(m, earlier)
    requires Compatible(earlier, later)
    ensures Reflects(MergeFields(m, later), earlier)
    decreases JObj(earlier)
  {
    var r := MergeFields(m, later);
    forall k | k in earlier
      ensures k in r
      ensures if earlier[k].JObj? then r[k].JObj? && Reflects(r[k].fields, earlier[k].fields) else r[k] == earlier[k]
    {
      if k in later {
        assert SpreadAt(m, k) == m[k].fields;
        MergeKeepsEarlierPatch(m[k].fields, earlier[k].fields, later[k].fields);
      }
    }
  }

  /** Reading back is transitive: what `b` reflects, anything reflecting `b`
      reflects too. */
  lemma {:induction false} ReflectsTransitive(a: map<string, Json>, b: map<string, Json>, c: map<string, Json>)
    requires Reflects(a, b) && Reflects(b, c)
    ensures Reflects(a, c)
    decreases JObj(c)
  {
    forall k | k in c
      ensures k in a
      ensures if c[k].JObj? then a[k].JObj? && Reflects(a[k].fields, c[k].fields) else a[k] == c[k]
    {
      if c[k].JObj? {
        ReflectsTransitive(a[k].fields, b[k].fields, c[k].fields);
      }
    }
  }

  // ---------------------------------------------------------------------------
  // Day count and unlock schedule
  // ---------------------------------------------------------------------------

  /** `getDayCountForYear`: the contest has 25 days up to 2024, 12 from 2025. */
  function DayCount(year: int): (n: int)
    ensures n == 12 || n == 25
    ensures n == 12 <==> year >= 2025
  {
    if year >= 2025 then 12 else 25
  }

  /** `computeUnlockedDays` with the clock reading passed in. */
  function UnlockedDays(year: int, totalDays: int, today: Date): (n: int)
    ensures totalDays >= 0 && today.dayOfMonth >= 0 ==> 0 <= n <= totalDays
  {
    if year < today.year then totalDays
    else if year > today.year then 0
    else if today.month0 < 11 then 0
    else if today.month0 > 11 then totalDays
    else if today.dayOfMonth < totalDays then today.dayOfMonth
    else totalDays
  }

  /** Lexicographic order of dates. */
  predicate DateLe(a: Date, b: Date) {
    || a.year < b.year
    || (a.year == b.year && a.month0 < b.month0)
    || (a.year == b.year && a.month0 == b.month0 && a.dayOfMonth <= b.dayOfMonth)
  }

  /** Puzzle `day` of `year` is released on December `day` of that year. */
  predicate Released(year: int, day: int, today: Date) {
    DateLe(Date(year, 11, day), today)
  }

  /** The release schedule as a count: how many of days `1..totalDays` have
      reached their release date. */
  function ReleasedCount(year: int, totalDays: nat, today: Date): nat {
    if totalDays == 0 then 0
    else ReleasedCount(year, totalDays - 1, today) + (if Released(year, totalDays, today) then 1 else 0)
  }

  /** The unlock rule counts exactly the released days. */
  lemma {:induction false} UnlockMatchesReleaseSchedule(year: int, totalDays: nat, today: Date)
    requires today.dayOfMonth >= 0
    ensures UnlockedDays(year, totalDays, today) == ReleasedCount(year, totalDays, today)
    decreases totalDays
  {
    if totalDays > 0 {
      UnlockMatchesReleaseSchedule(year, totalDays - 1, today);
    }
  }

  /** Days never lock again as the clock advances. */
  lemma UnlockMonotone(year: int, totalDays: int, d1: Date, d2: Date)
    requires totalDays >= 0 && d1.dayOfMonth >= 0 && d2.dayOfMonth >= 0
    requires DateLe(d1, d2)
    ensures UnlockedDays(year, totalDays, d1) <= UnlockedDays(year, totalDays, d2)
  {
  }

  // ---------------------------------------------------------------------------
  // Legacy theme key
  // ---------------------------------------------------------------------------

  predicate IsString(o: Option<Json>) {
    o.Some? && o.value.JStr?
  }

  /** `migrateLegacyThemeKey`: a non-empty legacy `'theme'` entry becomes the
      overrides' theme (as `'light'` or `'dark'`) unless the overrides already
      hold a string theme, and is then removed. */
  function MigrateLegacyTheme(stored: Json, store: Store): (r: (Json, Store))
    ensures var next := if Truthy(stored) then stored else JObj(map[]);
      && Truthy(r.0)
      && (store.legacyTheme.None? || store.legacyTheme == Some("") ==> r == (next, store))
      && (store.legacyTheme != Some("") ==> r.1.legacyTheme.None?)
      && (IsString(Member(next, "theme")) ==> r.0 == next && r.1.settings == store.settings)
      && (store.legacyTheme.Some? && store.legacyTheme != Some("") && !IsString(Member(next, "theme")) ==>
            && Member(r.0, "theme") == Some(JStr(ThemeName(NormalizeTheme(store.legacyTheme.value))))
            && r.1.settings == Entry(r.0))
      && (forall k :: k != "theme" && next.JObj? ==> Member(r.0, k) == Member(next, k))
  {
    var next := if Truthy(stored) then stored else JObj(map[]);
    match store.legacyTheme
    case None => (next, store)
    case Some(legacy) =>
      if legacy == "" then (next, store)
      else if IsString(Member(next, "theme")) then (next, store.(legacyTheme := None))
      else
        var folded := JObj(Spread(next)["theme" := JStr(ThemeName(NormalizeTheme(legacy)))]);
        (folded, Store(Entry(folded), None))
  }

  /** Running the migration a second time changes nothing. */
  lemma MigrateTwiceIsOnce(stored: Json, store: Store)
    ensures var (j, s) := MigrateLegacyTheme(stored, store);
            MigrateLegacyTheme(j, s) == (j, s)
  {
  }

  // ---------------------------------------------------------------------------
  // get
  // ---------------------------------------------------------------------------

  /** `readStored() || {}`: a missing, unparseable or falsy entry reads as an
      empty object. */
  function ReadStored(slot: Slot): (j: Json)
    ensures Truthy(j)
    ensures slot.Entry? && Truthy(slot.value) ==> j == slot.value
    ensures !(slot.Entry? && Truthy(slot.value)) ==> j == JObj(map[])
  {
    if slot.Entry? && Truthy(slot.value) then slot.value else JObj(map[])
  }

  /** The theme string the overrides supply: a string `theme`, else `''`. */
  function ThemeFromMerged(merged: Json): string {
    var t := Member(merged, "theme");
    if IsString(t) then t.value.s else ""
  }

  /** `resolveTheme`: light only when the merged theme is the string
      `'light'`, or when it is missing or empty and the configuration's theme
      is `'light'`. */
  function ResolveTheme(merged: Json, cfg: Json): (t: Theme)
    ensures t == Light <==>
      || Member(merged, "theme") == Some(JStr("light"))
      || (ThemeFromMerged(merged) == "" && Member(cfg, "theme") == Some(JStr("light")))
  {
    var fromMerged := ThemeFromMerged(merged);
    var effective := if fromMerged != "" then JStr(fromMerged) else Or(Member(cfg, "theme"), JStr("dark"));
    if effective == JStr("light") then Light else Dark
  }

  /** `selectedYear || cfg.year || currentYear`, where only a non-zero number
      counts for `cfg.year`. */
  function SelectYear(merged: Json, cfg: Json, currentYear: int): (y: int)
    ensures var sel := ParseIntOf(Member(merged, "year"));
      && (sel.Some? && sel.value != 0 ==> y == sel.value)
      && ((!(sel.Some? && sel.value != 0) && Member(cfg, "year").Some? && Member(cfg, "year").value.JNum?
            && Member(cfg, "year").value.n != 0) ==> y == Member(cfg, "year").value.n)
    ensures var sel := ParseIntOf(Member(merged, "year"));
      (!(sel.Some? && sel.value != 0) && !(Member(cfg, "year").Some? && Member(cfg, "year").value.JNum?
            && Member(cfg, "year").value.n != 0)) ==> y == currentYear
  {
    var sel := ParseIntOf(Member(merged, "year"));
    var cfgYear := Member(cfg, "year");
    if sel.Some? && sel.value != 0 then sel.value
    else if cfgYear.Some? && cfgYear.value.JNum? && cfgYear.value.n != 0 then cfgYear.value.n
    else currentYear
  }

  /** The invariant every resolved configuration satisfies: the derived
      fields are functions of the year and the clock. */
  predicate Derived(c: Config, today: Date) {
    && c.currentYear == today.year
    && c.totalDays == DayCount(c.year)
    && c.nav.maxAvailableDay == UnlockedDays(c.year, c.totalDays, today)
  }

  /** The part of `get()` after the merge. */
  function Resolve(merged: Json, cfg: Json, today: Date): (c: Config)
    ensures Derived(c, today)
    ensures c.year == SelectYear(merged, cfg, today.year)
    ensures today.dayOfMonth >= 0 ==> 0 <= c.nav.maxAvailableDay <= c.totalDays
    ensures c.theme == ResolveTheme(merged, cfg)
    ensures c.autoLoadExample <==> Member(merged, "autoLoadExample") != Some(JBool(false))
    ensures c.autoLoadSolutions <==> Member(merged, "autoLoadSolutions") != Some(JBool(false))
    ensures "inputs" in c.paths && "solutions" in c.paths
    ensures var paths := Spread(Or(Member(merged, "paths"), JObj(map[])));
      && c.paths.Keys == {"inputs", "solutions"} + paths.Keys
      && (forall k :: k in paths ==> c.paths[k] == paths[k])
      && ("inputs" !in paths ==> c.paths["inputs"] == JStr("inputs"))
      && ("solutions" !in paths ==> c.paths["solutions"] == JStr("solutions"))
    ensures DerivedNavKeys !! c.nav.extra.Keys
    ensures c.nav.showDisabledFutureDays <==>
              Member(Or(Member(merged, "nav"), JObj(map[])), "showDisabledFutureDays") != Some(JBool(false))
    ensures var cfgNav := Spread(Or(Member(cfg, "nav"), JObj(map[])));
      var mergedNav := Spread(Or(Member(merged, "nav"), JObj(map[])));
      && c.nav.extra.Keys == (cfgNav.Keys + mergedNav.Keys) - DerivedNavKeys
      && (forall k :: k in c.nav.extra && k in mergedNav ==> c.nav.extra[k] == mergedNav[k])
      && (forall k :: k in c.nav.extra && k !in mergedNav ==> c.nav.extra[k] == cfgNav[k])
    ensures TruthyOpt(Member(merged, "dayLayout")) ==> c.dayLayout == Member(merged, "dayLayout").value
    ensures !TruthyOpt(Member(merged, "dayLayout")) && TruthyOpt(Member(cfg, "dayLayout")) ==>
              c.dayLayout == Member(cfg, "dayLayout").value
    ensures !TruthyOpt(Member(merged, "dayLayout")) && !TruthyOpt(Member(cfg, "dayLayout")) ==>
              c.dayLayout == JStr("tabbed")
  {
    var year := SelectYear(merged, cfg, today.year);
    var totalDays := DayCount(year);
    var cfgNav := Or(Member(cfg, "nav"), JObj(map[]));
    var mergedNav := Or(Member(merged, "nav"), JObj(map[]));
    Config(
      currentYear := today.year,
      year := year,
      theme := ResolveTheme(merged, cfg),
      autoLoadExample := NotFalse(Member(merged, "autoLoadExample")),
      autoLoadSolutions := NotFalse(Member(merged, "autoLoadSolutions")),
      totalDays := totalDays,
      paths := map["inputs" := JStr("inputs"), "solutions" := JStr("solutions")]
               + Spread(Or(Member(merged, "paths"), JObj(map[]))),
      nav := Nav(
        extra := (Spread(cfgNav) + Spread(mergedNav)) - DerivedNavKeys,
        showDisabledFutureDays := NotFalse(Member(mergedNav, "showDisabledFutureDays")),
        maxAvailableDay := UnlockedDays(year, totalDays, today)),
      dayLayout := Or(Member(merged, "dayLayout"), Or(Member(cfg, "dayLayout"), JStr("tabbed"))))
  }

  /** The object `get()` returns, as the other modules read it. */
  function ToJson(c: Config): Json {
    JObj(map[
      "currentYear" := JNum(c.currentYear),
      "year" := JNum(c.year),
      "theme" := JStr(ThemeName(c.theme)),
      "autoLoadExample" := JBool(c.autoLoadExample),
      "autoLoadSolutions" := JBool(c.autoLoadSolutions),
      "totalDays" := JNum(c.totalDays),
      "paths" := JObj(c.paths),
      "nav" := JObj(c.nav.extra["showDisabledFutureDays" := JBool(c.nav.showDisabledFutureDays)]
                               ["maxAvailableDay" := JNum(c.nav.maxAvailableDay)]),
      "dayLayout" := c.dayLayout])
  }

  /** `get()`: read and migrate the overrides, merge them over `cfg`, resolve.
      Returns the settings and the storage as the migration left it. */
  function Get(store: Store, cfg: Json, today: Date): (r: (Config, Store))
    ensures Derived(r.0, today)
    ensures today.dayOfMonth >= 0 ==> 0 <= r.0.nav.maxAvailableDay <= r.0.totalDays
    ensures store.legacyTheme != Some("") ==> r.1.legacyTheme.None?
  {
    var (stored, store') := MigrateLegacyTheme(ReadStored(store.settings), store);
    (Resolve(DeepMerge(cfg, stored), cfg, today), store')
  }

  /** Malformed stored JSON resolves exactly like no stored settings. */
  lemma MalformedReadsAsEmpty(legacy: Option<string>, cfg: Json, today: Date)
    ensures Get(Store(Unparsable, legacy), cfg, today).0 == Get(Store(NoEntry, legacy), cfg, today).0
    ensures legacy.None? ==> Get(Store(Unparsable, legacy), cfg, today).1 == Store(Unparsable, legacy)
  {
  }

  /** Reads of the merged object other than `key` agree on `m` and on `m`
      with `key` changed. */
  lemma MemberElsewhere(m: map<string, Json>, key: string, v: Json, k: string)
    requires k != key && key !in m
    ensures Member(JObj(m[key := v]), k) == Member(JObj(m), k)
  {
  }

  /** A `totalDays` value in the merged settings never reaches the resolved
      configuration. */
  lemma TotalDaysNotResolved(m: map<string, Json>, v: Json, cfg: Json, today: Date)
    requires "totalDays" !in m
    ensures Resolve(JObj(m["totalDays" := v]), cfg, today) == Resolve(JObj(m), cfg, today)
  {
    var m1 := JObj(m["totalDays" := v]);
    var m2 := JObj(m);
    MemberElsewhere(m, "totalDays", v, "year");
    MemberElsewhere(m, "totalDays", v, "theme");
    MemberElsewhere(m, "totalDays", v, "autoLoadExample");
    MemberElsewhere(m, "totalDays", v, "autoLoadSolutions");
    MemberElsewhere(m, "totalDays", v, "paths");
    MemberElsewhere(m, "totalDays", v, "nav");
    MemberElsewhere(m, "totalDays", v, "dayLayout");
    assert ThemeFromMerged(m1) == ThemeFromMerged(m2);
  }

  /** A `nav.maxAvailableDay` value in the merged settings never reaches the
      resolved configuration. */
  lemma MaxAvailableDayNotResolved(m: map<string, Json>, nav: map<string, Json>, v: Json, cfg: Json, today: Date)
    requires "nav" !in m && "maxAvailableDay" !in nav
    ensures Resolve(JObj(m["nav" := JObj(nav["maxAvailableDay" := v])]), cfg, today)
         == Resolve(JObj(m["nav" := JObj(nav)]), cfg, today)
  {
    var n1 := nav["maxAvailableDay" := v];
    var m1 := JObj(m["nav" := JObj(n1)]);
    var m2 := JObj(m["nav" := JObj(nav)]);
    MemberElsewhere(m, "nav", JObj(n1), "year");
    MemberElsewhere(m, "nav", JObj(nav), "year");
    MemberElsewhere(m, "nav", JObj(n1), "theme");
    MemberElsewhere(m, "nav", JObj(nav), "theme");
    MemberElsewhere(m, "nav", JObj(n1), "autoLoadExample");
    MemberElsewhere(m, "nav", JObj(nav), "autoLoadExample");
    MemberElsewhere(m, "nav", JObj(n1), "autoLoadSolutions");
    MemberElsewhere(m, "nav", JObj(nav), "autoLoadSolutions");
    MemberElsewhere(m, "nav", JObj(n1), "paths");
    MemberElsewhere(m, "nav", JObj(nav), "paths");
    MemberElsewhere(m, "nav", JObj(n1), "dayLayout");
    MemberElsewhere(m, "nav", JObj(nav), "dayLayout");
    assert ThemeFromMerged(m1) == ThemeFromMerged(m2);
    assert Member(JObj(n1), "showDisabledFutureDays") == Member(JObj(nav), "showDisabledFutureDays");
    assert Or(Member(m1, "nav"), JObj(map[])) == JObj(n1);
    assert Or(Member(m2, "nav"), JObj(map[])) == JObj(nav);
    var cfgNav := Spread(Or(Member(cfg, "nav"), JObj(map[])));
    UpdateHiddenByRemoval(cfgNav, nav, "maxAvailableDay", v, DerivedNavKeys);
    var c1 := Resolve(m1, cfg, today);
    var c2 := Resolve(m2, cfg, today);
    assert c1.year == c2.year;
    assert c1.nav == c2.nav;
    assert c1.paths == c2.paths;
    assert c1.dayLayout == c2.dayLayout;
  }

  lemma UpdateHiddenByRemoval(a: map<string, Json>, b: map<string, Json>, key: string, v: Json, hidden: set<string>)
    requires key in hidden
    ensures (a + b[key := v]) - hidden == (a + b) - hidden
  {
  }

  // ---------------------------------------------------------------------------
  // set and reset
  // ---------------------------------------------------------------------------

  /** What `set` does to its argument before merging: `totalDays` and
      `nav.maxAvailableDay` are dropped and a string `theme` is normalised. */
  function SanitizePatch(patch: Json): (p: Json)
    ensures !patch.JObj? ==> p == patch
    ensures patch.JObj? ==> (
      && p.JObj?
      && p.fields.Keys == patch.fields.Keys - {"totalDays"}
      && (forall k :: k in p.fields && k != "nav" && k != "theme" ==> p.fields[k] == patch.fields[k])
      && ("nav" in p.fields ==> p.fields["nav"].JObj? == patch.fields["nav"].JObj?)
      && ("nav" in p.fields && p.fields["nav"].JObj? ==>
            p.fields["nav"].fields == patch.fields["nav"].fields - {"maxAvailableDay"})
      && ("nav" in p.fields && !p.fields["nav"].JObj? ==> p.fields["nav"] == patch.fields["nav"])
      && ("theme" in p.fields && patch.fields["theme"].JStr? ==>
            p.fields["theme"] == JStr(ThemeName(NormalizeTheme(patch.fields["theme"].s))))
      && ("theme" in p.fields && !patch.fields["theme"].JStr? ==> p.fields["theme"] == patch.fields["theme"]))
  {
    if !patch.JObj? then patch
    else
      var f1 := patch.fields - {"totalDays"};
      var f2 := if "nav" in f1 && f1["nav"].JObj? then f1["nav" := JObj(f1["nav"].fields - {"maxAvailableDay"})] else f1;
      var f3 := if "theme" in f2 && f2["theme"].JStr? then f2["theme" := JStr(ThemeName(NormalizeTheme(f2["theme"].s)))] else f2;
      JObj(f3)
  }

  /** The overrides `set` and `get` start from: the stored object after the
      legacy migration. */
  function CurrentOverrides(store: Store): Json {
    MigrateLegacyTheme(ReadStored(store.settings), store).0
  }

  /** `set(patch)`: sanitise the patch, then commit it. */
  function Set(env: Env, patch: Json, cfg: Json, today: Date): (r: (Config, Env))
    ensures r.1.events == env.events + [r.0]
    ensures r.0 == Get(r.1.store, cfg, today).0
    ensures Derived(r.0, today)
    ensures r.1.store.settings.Entry? && r.1.store.settings.value.JObj?
    ensures Reflects(r.1.store.settings.value.fields, Spread(SanitizePatch(patch)))
    ensures env.store.legacyTheme != Some("") ==> r.1.store.legacyTheme.None?
  {
    Commit(env, SanitizePatch(patch), cfg, today)
  }

  /** The rest of `set`: merge the (sanitised) patch over the migrated raw
      overrides, store the result, resolve again and notify once. */
  function Commit(env: Env, p: Json, cfg: Json, today: Date): (r: (Config, Env))
    ensures r.1.events == env.events + [r.0]
    ensures r.0 == Get(r.1.store, cfg, today).0
    ensures Derived(r.0, today)
    ensures r.1.store.settings == Entry(DeepMerge(CurrentOverrides(env.store), p))
    ensures Reflects(r.1.store.settings.value.fields, Spread(p))
    ensures r.1.store.legacyTheme == (if env.store.legacyTheme == Some("") then Some("") else None)
  {
    var (current, migrated) := MigrateLegacyTheme(ReadStored(env.store.settings), env.store);
    var next := DeepMerge(current, p);
    MergeReflectsPatch(Spread(current), Spread(p));
    var written := migrated.(settings := Entry(next));
    var (settings, after) := Get(written, cfg, today);
    assert after == written;
    (settings, Env(after, env.events + [settings]))
  }

  /** `reset()`: remove the stored overrides, resolve again and notify once. */
  function Reset(env: Env, cfg: Json, today: Date): (r: (Config, Env))
    ensures r.1.events == env.events + [r.0]
    ensures r.0 == Get(Store(NoEntry, env.store.legacyTheme), cfg, today).0
    ensures r.0 == Get(r.1.store, cfg, today).0
    ensures env.store.legacyTheme.None? ==> r.1.store == Store(NoEntry, None)
  {
    var (settings, after) := Get(env.store.(settings := NoEntry), cfg, today);
    (settings, Env(after, env.events + [settings]))
  }

  /** `set({ theme: t })` resolves to the normalised `t`, whatever was stored
      and whatever the configuration says. */
  lemma SetThemeResolves(env: Env, t: string, cfg: Json, today: Date)
    ensures Set(env, JObj(map["theme" := JStr(t)]), cfg, today).0.theme == NormalizeTheme(t)
  {
    var patch := JObj(map["theme" := JStr(t)]);
    SetVisibleToResolver(env, patch, cfg, today);
    var r := Set(env, patch, cfg, today);
    var merged := DeepMerge(cfg, CurrentOverrides(r.1.store));
    var name := JStr(ThemeName(NormalizeTheme(t)));
    SanitizedTheme(t);
    ReflectedScalar(merged.fields, Spread(SanitizePatch(patch)), "theme", name);
    ThemeOfMember(merged, cfg, t);
  }

  /** Sanitising `{ theme: t }` normalises the theme name. */
  lemma SanitizedTheme(t: string)
    ensures Spread(SanitizePatch(JObj(map["theme" := JStr(t)])))
      == map["theme" := JStr(ThemeName(NormalizeTheme(t)))]
  {
  }

  lemma ReflectedScalar(m: map<string, Json>, p: map<string, Json>, k: string, v: Json)
    requires Reflects(m, p) && p == map[k := v] && !v.JObj?
    ensures k in m && m[k] == v
  {
    assert k in p;
  }

  /** A merged object holding a normalised theme name resolves to it. */
  lemma ThemeOfMember(merged: Json, cfg: Json, t: string)
    requires merged.JObj? && "theme" in merged.fields
    requires merged.fields["theme"] == JStr(ThemeName(NormalizeTheme(t)))
    ensures ResolveTheme(merged, cfg) == NormalizeTheme(t)
  {
    assert Member(merged, "theme") == Some(JStr(ThemeName(NormalizeTheme(t))));
  }

  /** A patch carrying `totalDays` stores and resolves exactly like the same
      patch without it. */
  lemma SetDropsTotalDays(env: Env, fields: map<string, Json>, v: Json, cfg: Json, today: Date)
    requires "totalDays" !in fields
    ensures Set(env, JObj(fields["totalDays" := v]), cfg, today) == Set(env, JObj(fields), cfg, today)
  {
    assert fields["totalDays" := v] - {"totalDays"} == fields - {"totalDays"};
    assert SanitizePatch(JObj(fields["totalDays" := v])) == SanitizePatch(JObj(fields));
  }

  /** Two `set` calls accumulate: the first patch stays readable in storage
      unless the second overwrites one of its entries. */
  lemma SetsAccumulate(env: Env, p1: Json, p2: Json, cfg: Json, today: Date)
    requires Compatible(Spread(SanitizePatch(p1)), Spread(SanitizePatch(p2)))
    ensures var first := Set(env, p1, cfg, today).1;
            var second := Set(first, p2, cfg, today).1;
            && second.store.settings.Entry? && second.store.settings.value.JObj?
            && Reflects(second.store.settings.value.fields, Spread(SanitizePatch(p1)))
            && Reflects(second.store.settings.value.fields, Spread(SanitizePatch(p2)))
  {
    var first := Set(env, p1, cfg, today).1;
    LaterSetKeeps(first, p2, cfg, today, Spread(SanitizePatch(p1)));
  }

  /** A `set` keeps an earlier patch readable in storage when its own patch
      overwrites none of that patch's entries. */
  lemma LaterSetKeeps(env: Env, p: Json, cfg: Json, today: Date, earlier: map<string, Json>)
    requires env.store.settings.Entry? && env.store.settings.value.JObj?
    requires env.store.legacyTheme.None? || env.store.legacyTheme == Some("")
    requires Reflects(env.store.settings.value.fields, earlier)
    requires Compatible(earlier, Spread(SanitizePatch(p)))
    ensures Reflects(Set(env, p, cfg, today).1.store.settings.value.fields, earlier)
  {
    var stored := env.store.settings.value;
    assert CurrentOverrides(env.store) == stored by {
      assert ReadStored(env.store.settings) == stored;
    }
    MergeKeepsEarlierPatch(stored.fields, earlier, Spread(SanitizePatch(p)));
  }

  /** What `set` writes is what the next `get` reads: the returned settings
      resolve a merged object from which the sanitised patch reads back. */
  lemma SetVisibleToResolver(env: Env, patch: Json, cfg: Json, today: Date)
    ensures var r := Set(env, patch, cfg, today);
      var merged := DeepMerge(cfg, CurrentOverrides(r.1.store));
      && r.0 == Resolve(merged, cfg, today)
      && Reflects(merged.fields, Spread(SanitizePatch(patch)))
  {
    var r := Set(env, patch, cfg, today);
    var st := r.1.store;
    OverridesOfStored(st);
    GetResolvesOverrides(st, cfg, today);
    MergedOverridesReflect(cfg, st.settings.value, Spread(SanitizePatch(patch)));
  }

  /** Without a pending legacy theme the overrides are the stored object. */
  lemma OverridesOfStored(st: Store)
    requires st.settings.Entry? && st.settings.value.JObj?
    requires st.legacyTheme.None? || st.legacyTheme == Some("")
    ensures CurrentOverrides(st) == st.settings.value
  {
    assert ReadStored(st.settings) == st.settings.value;
  }

  /** `get()` resolves the configuration merged with the overrides. */
  lemma GetResolvesOverrides(st: Store, cfg: Json, today: Date)
    ensures Get(st, cfg, today).0 == Resolve(DeepMerge(cfg, CurrentOverrides(st)), cfg, today)
  {
  }

  /** Whatever the stored overrides reflect, their merge over the
      configuration reflects too. */
  lemma MergedOverridesReflect(cfg: Json, stored: Json, p: map<string, Json>)
    requires stored.JObj? && Reflects(stored.fields, p)
    ensures Reflects(DeepMerge(cfg, stored).fields, p)
  {
    MergeReflectsPatch(Spread(cfg), stored.fields);
    ReflectsTransitive(DeepMerge(cfg, stored).fields, stored.fields, p);
  }

  /** Reset forgets every stored override: two environments that differ only
      in their stored settings reset to the same configuration. */
  lemma ResetForgetsOverrides(e1: Env, e2: Env, cfg: Json, today: Date)
    requires e1.store.legacyTheme == e2.store.legacyTheme
    ensures Reset(e1, cfg, today).0 == Reset(e2, cfg, today).0
  {
  }

  /** A legacy `'light'` key with nothing stored: the first `get()` resolves
      light, removes the key and leaves the theme in the stored overrides. */
  lemma LegacyLightMigrates(cfg: Json, today: Date)
    ensures var (c, s) := Get(Store(NoEntry, Some("light")), cfg, today);
            && c.theme == Light
            && s == Store(Entry(JObj(map["theme" := JStr("light")])), None)
  {
    var folded := JObj(map["theme" := JStr("light")]);
    assert MigrateLegacyTheme(JObj(map[]), Store(NoEntry, Some("light"))) == (folded, Store(Entry(folded), None));
    assert Member(DeepMerge(cfg, folded), "theme") == Some(JStr("light"));
  }
}

=== FILE: wrappers.dfy ===
/** Optional values, used wherever the JavaScript code has `null`, `undefined` or `NaN`. */
module Wrappers {

  datatype Option<+T> = None | Some(value: T) {

    /** The wrapped value, or `default` when there is none (JavaScript's `x ?? default`). */
    function GetOr(default: T): T {
      match this
      case Some(v) => v
      case None => default
    }
  }
}
